=== FILE: README.md ===
# Automation metrics and Remedy work orders, modelled in Dafny

This project models the core of three Ansible modules.

It reads them as Python 3 runs them, as of 3.9: dicts iterate in insertion
order, `strip()` removes what `str.isspace` calls whitespace, and `http.client`
(which remedy.py imports) checks the host when a connection is built.

- **db_indicadores.py and indicadores.py** record one automation run as a
  metrics row. Their `validateData` runs the same steps:
  - checks the required keys (CONST_REQUIRED);
  - warns about keys it does not recognise;
  - fills in the defaults (CONST_DEFAULTS);
  - runs the format checks (`float`, and the timestamp conversion).

  `run_module` then fails exactly when validation raised or counted an error.
  The two files differ in three ways: the required list, the notion of a
  blank value (`not v.strip()` versus `not v`), and which checks run. Here
  they are one validator (`Metrics.Validate`) over two profiles
  (`MetricProfiles.DbIndicadores`, `MetricProfiles.Indicadores`).
- **remedy.py** creates, modifies and attaches files to BMC Remedy work
  orders. It talks to a REST API authenticated by an `AR-JWT` token kept in
  a per-user file. The model covers these parts:
  - the token and lock file names;
  - the `Authorization` header, with every CR and LF removed from the token;
  - the entry lookup query and its status mapping;
  - each request function with its guards and exception paths (`RemedyCalls`);
  - the field injection and the multipart body of the attachment, as
    section 5.1.1 of RFC 2046 and RFC 7578 define it (`Attachment`, `Multipart`, `Utf8`);
  - the retry loop of `run_module`: CONST_NUMRETRIES attempts, the success
    statuses, when the token is refreshed, and what the module reports
    (`Retry`, `RemedyRun`).

The outside world enters the model as inputs:
- the HTTP answers or exceptions;
- the token file's contents or its read error;
- the attachment file's bytes;
- the JSON library (`dumps` and the two lookups into decoded replies);
- the parsers behind `float()` and `datetime.fromtimestamp(int(v)//1)`;
- what each token refresh appends to CONST_MESSAGE.

Each request function yields three things: what it returns or raises, the
text it appends to CONST_MESSAGE, and the requests and file reads it makes,
in order.

Some of the code's behaviour is easy to misread. The model has it as the code does:
- The attachment file is opened and read inside `addattachment`, so every
  retry reads it again (remedy.py:255-256).
- The token file is opened in text mode, which turns `\r\n` and a lone `\r`
  into `\n`. Every `\n` is then removed, wherever it occurs
  (remedy.py:170-171). So no CR or LF survives, and nothing else is stripped.
- A run that finds no token file ends before any request. The call
  `open(fname, 'a').write("abcdefg")` creates the file with placeholder
  contents. `.close()` is then called on the count that `write` returned,
  which raises an AttributeError outside any `try` (remedy.py:316-318).
  Later runs find the file and go on.
- The exceptions in `create`, `getentryid` and `modify` all reach
  `response.status_code = 400` while `response` is unbound. So they leave
  the function as an unbound-name error instead of returning a 400:
  - `run_module` catches it, sets the message to its text, and does not
    refresh the token;
  - `create` and `modify` append the original exception's text to
    CONST_MESSAGE first;
  - `getentryid` appends nothing.
- `addattachment` can hand back two things without a `.status`: the int
  400, or the rejected lookup's response. Reading `.status` on either
  raises, and the bare `except` catches that and refreshes the token.
- `run_module` ignores the value `refreshtoken` returns.
- In the add_attachment loop, `result['changed']` is set before
  `response.read()` (remedy.py:353-354). When that read raises (a truncated
  body, a reset, a timeout), the bare `except` refreshes the token and the
  loop posts the file again. The module then reports a change even if no
  later attempt succeeds, with an empty message or a later body.
- `addattachment` builds its `HTTPSConnection` right after decoding the
  entry id, before it injects the fields or reads a file (remedy.py:236).
  The constructor raises InvalidURL for a host holding a control character,
  a space or DEL, so such a base URL (`https://host/a b`, say) ends each
  attempt after the lookup with the record untouched.

## Model

| member | source | states |
|---|---|---|
| Metrics.CheckRequired | db_indicadores.py:89-95 | a missing-key error exactly for each required key that is absent, a missing-value error exactly for each one present but blank, nothing else, and never more issues than listed keys |
| Metrics.WarnUnrecognized | db_indicadores.py:96-98 | a warning exactly for each key in neither table whose value is blank; warnings never count as errors |
| Metrics.KeyErrors | db_indicadores.py:89-95 | the number of missing-key and missing-value errors about a key: zero exactly when there is none |
| Metrics.KeyErrorsAppend | db_indicadores.py:89-95 | the count over appended issues is the sum of the counts |
| Metrics.RequiredOncePerKey | db_indicadores.py:89-95 | with no key listed twice, the required-key loop raises exactly one error about a required key that is absent or blank and none about any other key |
| Metrics.Line | db_indicadores.py:89-123 | every error line starts with `ERROR: `, a warning line with `WARNING: `, and every validation line ends with a newline |
| Metrics.Render | db_indicadores.py:89-123 | a message of validation issues is empty only when there are none, and ends with a newline when the last issue is one of them |
| Metrics.ErrorCount | db_indicadores.py:91-95 | the error count is positive exactly when some recorded issue is an error, and is at most the number of issues |
| Metrics.Accumulate | db_indicadores.py:91-98 | appending issues extends the message by their lines and adds their errors to the count |
| Metrics.DefaultKey | db_indicadores.py:99-101 | one defaulting step: an absent or blank key gets the default, a present non-blank one keeps its value, every other key is untouched, the iteration order only grows |
| Metrics.FillDefaultsAt | db_indicadores.py:99-101 | after the defaulting loop a key is present iff it was present or is a default key; a default key holds its default iff it was absent or blank |
| Metrics.FillDefaults | db_indicadores.py:99-101 | the defaulting loop keeps the dict well formed and only appends keys to its iteration order |
| Metrics.FillDefaultsAll | db_indicadores.py:99-101 | the defaulting loop over the whole table yields exactly the per-key closed form `After` |
| Metrics.RunChecks | db_indicadores.py:103-123 | the checks raise only format errors, at most one each, and finish normally iff no check's key is absent and no timestamp conversion raises anything but a ValueError |
| Metrics.ChecksReport | db_indicadores.py:103-123 | a numeric error names a numeric check whose value `float` rejects, a timestamp error one whose value the conversion rejects; when the checks finish, each such value does draw its error |
| Metrics.ChecksFirstEscape | db_indicadores.py:103-123 | an exception that escapes the checks is the one of the first check whose key is missing or whose conversion raises |
| Metrics.Validate | db_indicadores.py:83-124 | validation returns the input dict with keys only appended to its iteration order |
| Metrics.ValidateReports | db_indicadores.py:89-98 | per key, the three kinds of key problem are reported exactly under the source's conditions |
| Metrics.ValidateErrorBound | db_indicadores.py:89-123 | validation counts at most as many errors as there are required keys and checks together |
| Metrics.ValidateDefaults | db_indicadores.py:99-101 | the returned dict holds, for each key, exactly the value `After` gives it |
| Metrics.ValidateReturns | db_indicadores.py:103-124 | validation returns iff every checked key is present after defaulting and no timestamp conversion raises anything but a ValueError |
| Metrics.RunModule | db_indicadores.py:237-250 | the module succeeds, and only then reports a change, iff validation returned with no error and the insertion reported no failure; an escaped exception is reported with its text; on failure the message holds every validation line |
| MetricsFacts.FillNoop | db_indicadores.py:99-101 | the defaulting loop leaves a dict alone when every key it visits already holds a non-blank value |
| MetricsFacts.FillDefaultsIdempotent | db_indicadores.py:99-101 | defaulting twice is defaulting once |
| MetricsFacts.RequiredSame | db_indicadores.py:89-95 | the required-key loop depends only on the required keys' presence and values |
| MetricsFacts.WarnSame | db_indicadores.py:96-98 | the warning loop depends only on the values of keys outside both tables |
| MetricsFacts.WarnSplit | db_indicadores.py:96-98 | the warning loop over a split key list is the two halves' warnings in order |
| MetricsFacts.WarnKnown | db_indicadores.py:96-98 | keys of either table never draw a warning |
| MetricsFacts.AppendedKeysKnown | db_indicadores.py:99-101 | the keys defaulting appends to the iteration order are default keys |
| MetricsFacts.WarnAfterAppend | db_indicadores.py:96-101 | appending known keys to the iteration order, and changing only the values of default keys, leaves the warnings as they were |
| MetricsFacts.FillKeepsOthers | db_indicadores.py:99-101 | defaulting keeps every key and the value of every key it does not default |
| MetricsFacts.WarningsStable | db_indicadores.py:96-101 | a validated dict draws the same warnings as its input |
| MetricsFacts.ValidateIdempotent | db_indicadores.py:83-124 | validating a validated dict gives back the same dict, errors and warnings |
| MetricsFacts.DefaultShieldsCheck | db_indicadores.py:99-112 | a numeric error about a default key whose default parses can only come from a supplied, non-blank value that `float` rejects |
| MetricsFacts.AbsentCheckedKeyFails | db_indicadores.py:237-250 | a checked key absent after defaulting, with no earlier check escaping, makes validation raise that key's KeyError, and the module fails with its text |
| MetricsFacts.ValidateFormatReports | db_indicadores.py:103-123 | the format errors are exactly those of checks whose defaulted value the parser rejects |
| MetricsFacts.FilledIsAfter | db_indicadores.py:99-101 | after the defaulting loop a key is present exactly when `After` gives it a value, and holds that value |
| MetricsFacts.ValidateParts | db_indicadores.py:83-124 | validation returns exactly when the checks finish, and its issues are the required-key issues, then the warnings, then the checks' errors |
| MetricsFacts.RequiredKeyOnce | db_indicadores.py:89-124 | with no required key listed twice, validation raises exactly one missing-key or missing-value error about a required key that is absent or blank, and none about any other key |
| MetricsFacts.ValueKept | db_indicadores.py:89-101 | a non-blank value draws no key error or warning and comes out unchanged |
| MetricsFacts.BlankValueDefaulted | db_indicadores.py:89-101 | a blank value is reported iff its key is required, and comes out as the default when its key has one |
| MetricProfiles.DefaultsNonBlank | db_indicadores.py:182-196 | every default value is non-empty and not whitespace only |
| MetricProfiles.DbRequiredOk | db_indicadores.py:181-196 | db_indicadores.py's required list shares no key with the defaults table |
| MetricProfiles.IndicadoresRequiredOk | indicadores.py:199-214 | indicadores.py's required list shares no key with the defaults table |
| MetricProfiles.RequiredDistinct | db_indicadores.py:181 | db_indicadores.py's required list, and indicadores.py's (indicadores.py:199), name no key twice |
| MetricProfiles.DbFacts | db_indicadores.py:181-196 | every default counts as a value under `strip()`, no required key has a default, both exec counts default to "1", and the two checked required keys have no default |
| MetricProfiles.IndicadoresFacts | indicadores.py:199-214 | every default counts as a value under truthiness, no required key has a default, and the timestamp key has no default |
| MetricCases.ExecCountsShieldedByDefault | db_indicadores.py:103-112 | `manual_execs` and `auto_execs` draw a numeric error only for a supplied, non-blank value that `float` rejects |
| MetricCases.DbMissingManualTimeFails | db_indicadores.py:113-117 | without `manual_time`, db_indicadores.py fails with the KeyError's text `'manual_time'` |
| MetricCases.DbMissingTimestampFails | db_indicadores.py:118-123 | with `manual_time` present and the timestamp absent, it fails with `'playbook_start_timestamp'` |
| MetricCases.IndicadoresMissingTimestampFails | indicadores.py:103-108 | without the timestamp, indicadores.py fails with `'playbook_start_timestamp'` |
| MetricCases.IndicadoresOnlyTimestampChecked | indicadores.py:102-109 | indicadores.py raises no numeric error, and a timestamp error exactly when the conversion rejects the value |
| MetricCases.WhitespaceKeptByIndicadores | indicadores.py:93-101 | a non-empty, whitespace-only value counts as a value for indicadores.py: it comes out unchanged and draws neither a missing-value error nor a warning |
| MetricCases.WhitespaceBlankForDb | db_indicadores.py:93-101 | the same value is blank for db_indicadores.py: defaulted, or reported when required |
| MetricCases.DbIdempotent | db_indicadores.py:83-124 | re-validating db_indicadores.py's output changes nothing |
| MetricCases.IndicadoresIdempotent | indicadores.py:83-109 | re-validating indicadores.py's output changes nothing |
| MetricCases.DbRequiredErrorOnce | db_indicadores.py:89-95 | each of db_indicadores.py's required keys draws exactly one missing-key or missing-value error when absent or whitespace only, and none otherwise |
| MetricCases.IndicadoresRequiredErrorOnce | indicadores.py:89-95 | each of indicadores.py's required keys draws exactly one such error when absent or empty, and none otherwise |
| Text.RemoveAll | remedy.py:169-171 | `replace(pat, '')` as applied to the JSON (169), the token (171) and the base URL (235): removes the non-overlapping occurrences of `pat`, scanning left to right; the result is never longer |
| Text.RemoveAbsent | remedy.py:235 | `replace(pat, '')` leaves a text without `pat` unchanged |
| Text.RemoveChar | remedy.py:171 | removing a character drops every occurrence of it and keeps the count of every other character |
| Text.RemoveCharConcat | remedy.py:171 | removing a character works piece by piece |
| Text.RemoveCharIdempotent | remedy.py:171 | removing a character twice is removing it once |
| Tokens.LockPath | remedy.py:140 | the lock marker lies in the token directory and ends in `.lock` |
| Tokens.TokenPath | remedy.py:316 | the token file lies in the token directory and ends in `.txt` |
| Tokens.LockPathUser | remedy.py:140 | the user name can be read back from the lock marker's path |
| Tokens.TokenPathUser | remedy.py:316 | the user name can be read back from the token file's path |
| Tokens.PathsInjective | remedy.py:140 | in one directory, different users never share a lock marker or a token file |
| Tokens.LockIsNotToken | remedy.py:140 | a lock marker's path is never a token file's path |
| Tokens.ReadText | remedy.py:170-171 | a text-mode read never yields a CR and is never longer than the file |
| Tokens.RemoveNewlines | remedy.py:170-171 | the token as read holds neither CR nor LF and is never longer than the file |
| Tokens.RemoveNewlinesDropsBoth | remedy.py:170-171 | reading in text mode and removing `\n` is removing every CR and every LF |
| Tokens.RemoveNewlinesKeepsPlain | remedy.py:170-171 | a file without CR or LF is read as it stands |
| Tokens.ReadToken | remedy.py:170-171 | a readable token file yields its contents without any CR or LF, every other character kept with its count; an unreadable one yields nothing |
| Tokens.AuthHeader | remedy.py:172 | the header is `AR-JWT ` followed by the token, and holds no CR or LF when the token holds none |
| Tokens.Login | remedy.py:124-135 | a 200 login whose file is written leaves it readable with the answer's text; when `open` raises the file is unchanged, when the write raises the file holds a prefix of the text of the length written; either error's text is appended to CONST_MESSAGE; any other status changes nothing |
| Tokens.LoginThenRead | remedy.py:124-128 | after a 200 login, requests authenticate with the answer's text minus every CR and LF, and with the text itself when it holds neither |
| Tokens.LoginCrLf | remedy.py:124-128 | a token the server answers followed by CR LF is read back without them |
| Tokens.LoginTruncated | remedy.py:124-135 | a 200 login whose write raises before anything reached the truncated file leaves an empty token, so the next request sends the bare `AR-JWT ` scheme, and appends the error's text |
| Utf8.EncodeChar | remedy.py:251 | one to four bytes per character, one byte exactly for ASCII, non-ASCII characters encoded without ASCII bytes |
| Utf8.Encode | remedy.py:249-264 | an encoding has between one and four bytes per character |
| Utf8.EncodeConcat | remedy.py:264 | encoding distributes over concatenation |
| Utf8.EncodeAscii | remedy.py:244-266 | ASCII text encodes to its code points, one byte each |
| Utf8.AsciiByteFromChar | remedy.py:251 | an ASCII byte appears in an encoding only where the text has that character |
| Utf8.DecodeEncode | remedy.py:249 | decoding an encoding gives back the text |
| Utf8.EncodeInjective | remedy.py:251 | different texts encode to different bytes |
| Multipart.BoundaryIsValid | remedy.py:244 | the boundary is 1 to 70 characters from the boundary alphabet of RFC 2046 |
| Multipart.Lines | remedy.py:243-260 | twelve lines: the dash-boundary opens both parts, the JSON and the file are whole lines, the close delimiter is the eleventh, and the header blocks end in empty lines |
| Multipart.Body | remedy.py:243-261 | the CRLF-joined lines are the entry part's head, the JSON, the file part's head, the file, the close delimiter |
| Multipart.BodyLayout | remedy.py:243-261 | the body opens with `--boundary` CRLF and carries the JSON and the file verbatim at their places, ending with the close delimiter |
| Multipart.BodyIsMultipart | remedy.py:243-261 | the body is exactly the two-part `multipart-body` of RFC 2046, entry part first |
| Multipart.ContentType | remedy.py:266 | the content type ends with the boundary the body uses |
| Multipart.RequestHeaders | remedy.py:263-267 | three headers; the `Authorization` value is the UTF-8 encoding of the `AR-JWT` header of the token, and the `Content-type` value names the boundary the body uses |
| Multipart.HeadersMatchBody | remedy.py:263-267 | the boundary in the `Content-type` header, after `--`, opens the body |
| Multipart.DispositionOneLine | remedy.py:251 | a file name without CR or LF keeps the disposition on one header line |
| Attachment.BasenameSuffix | remedy.py:230 | the base name is a suffix without `/`, preceded by `/` unless it is the whole name |
| Attachment.Basename | remedy.py:230 | the base name holds no `/` and is never longer than the path |
| Attachment.BasenameOfPlainName | remedy.py:230 | a name without `/` is its own base name |
| Attachment.BasenameOfPath | remedy.py:230 | the base name of `dir/name` is `name` |
| Attachment.Inject | remedy.py:238-240 | both work order fields hold the id, the work log field holds the base name, every other field is untouched |
| Attachment.InjectIdempotent | remedy.py:238-240 | injecting into an injected record changes nothing |
| Attachment.HostOfHttpsUrl | remedy.py:235 | for `https://host`, the connection goes to `host` |
| Attachment.Host | remedy.py:235 | the host is never longer than the base URL |
| Attachment.HostWithoutScheme | remedy.py:235 | a base URL without `https://` is the host as it stands |
| Attachment.SpacedHostRefused | remedy.py:236 | for `https://host` with a space in `host`, the connection refuses the host |
| RemedyCalls.LookupQuery | remedy.py:189 | the query is `'Work Order ID'="` + id + `"` |
| RemedyCalls.LookupQueryInjective | remedy.py:189 | different work orders are never looked up with the same query |
| RemedyCalls.Create | remedy.py:162-181 | a response exactly when the token is readable and the POST answered; the body sent holds no backslash; the header carries the token read with every CR and LF removed; every failure is the unbound-name error |
| RemedyCalls.GetEntryId | remedy.py:184-201 | found iff the answer is 200, rejected with the answer's text otherwise; failures are the unbound-name error and append nothing; only GETs are made, with the lookup query and the header of the token read with every CR and LF removed |
| RemedyCalls.GetEntryIdStatus | remedy.py:194-198 | every status the lookup hands back is 200 or 400, and 400 exactly for a non-200 answer |
| RemedyCalls.Modify | remedy.py:204-224 | every exception leaves modify as the unbound-name error |
| RemedyCalls.ModifyGuard | remedy.py:208-216 | no PUT unless the lookup answered 200 and its reply decoded; the PUT goes to the decoded entry id under the header of the token read with every CR and LF removed; otherwise only GETs |
| RemedyCalls.ModifyRejected | remedy.py:208-210 | a rejected lookup is handed back as a 400 with its text, after the lookup alone |
| RemedyCalls.Attach | remedy.py:227-273 | the record comes back either unchanged or injected |
| RemedyCalls.Upload | remedy.py:241-270 | an HTTP response exactly when the token and the file were read and the POST was answered, with the answer's status, and a body exactly when reading it does not raise; the earlier requests come first |
| RemedyCalls.AttachRefusedHost | remedy.py:234-236 | after a lookup answered 200 and a decoded entry id, a refused host ends the attempt with the InvalidURL's text: the record is not injected, no file is read, nothing is posted |
| RemedyCalls.AttachSplits | remedy.py:231-240 | an attempt either stops after the lookup with the record untouched, or uploads the injected record; it uploads iff the lookup answered 200, the entry id decoded, the host is accepted and `values` is present |
| RemedyCalls.AttachGuard | remedy.py:231-233 | unless the lookup answered 200, the file is never read, nothing is posted, and the record is unchanged |
| RemedyCalls.UploadPayload | remedy.py:241-268 | the POST follows the file read and carries the host, the attachment path, the token read with every CR and LF removed, the record's JSON, the base name and the file |
| RemedyCalls.AttachPayload | remedy.py:236-268 | a POST only goes out with the host accepted, `values` present and the token and the file read; it follows the file read and carries the injected record's JSON and the token read with every CR and LF removed |
| RemedyCalls.WireIsMultipart | remedy.py:243-267 | an attachment POST on the wire is the RFC 2046 two-part body with an encoded `AR-JWT` header, free of CR and LF bytes when the token is free of those characters |
| RemedyCalls.AttachWire | remedy.py:241-268 | the attachment POST carries the injected record's JSON and the file, under an `Authorization` header with no CR or LF byte |
| RemedyCalls.PostOfRead | remedy.py:241-267 | a POST under a token read from the file has the RFC 2046 body of its JSON and file and an `Authorization` header free of CR and LF bytes |
| RemedyCalls.AttachOnInjected | remedy.py:238-240 | an attempt on an already injected record behaves as one on the original and leaves the record as it is |
| Retry.FirstSuccess | remedy.py:330-337 | the index of the first success: no earlier attempt succeeded |
| Retry.Loop | remedy.py:350-360 | the loop stops at the first success with its message, otherwise makes every attempt and keeps the last message set; `changed` is set iff some attempt sets it, a success or a success whose text could not be read; CONST_MESSAGE and the refreshes are the attempts' in order |
| Retry.Retry | remedy.py:350-360 | the loop reports a change iff some attempt sets `changed`; without a success, it makes every attempt and keeps the last message set |
| Retry.RefreshedExactly | remedy.py:339-340 | the token is refreshed after exactly the attempts that are not successes and call for it, in order |
| Retry.LastMessageNone | remedy.py:330-342 | with no attempt setting a message, the message stays empty |
| Retry.LastMessageIsLast | remedy.py:341-342 | the message kept is the last one a failing attempt set |
| Retry.RetryIgnoresLater | remedy.py:335-337 | attempts after the first success do not matter |
| Retry.RetrySucceeds | remedy.py:350-356 | the module changes something iff some attempt sets `changed`; after a success, it reports the first success's message after that many attempts |
| Retry.RetryChangedUnread | remedy.py:350-365 | when `changed` was set only by successes whose text could not be read, the module reports a change after every attempt, with the last message set and without CONST_MESSAGE |
| Retry.RetryGivesUp | remedy.py:342-344 | with no success, the module fails with the fixed text after every attempt, its message the last one set followed by CONST_MESSAGE |
| Retry.RetryRefreshes | remedy.py:356-360 | the token is refreshed after exactly the attempts made that are not successes and call for it |
| Retry.ThreeRefreshingFailures | remedy.py:330-345 | three failures that each call for a refresh: three attempts, three refreshes, and the last message followed by each attempt's text and its refresh's |
| Retry.ThreeSilentFailures | remedy.py:350-363 | three failures that set no message and refresh: a failure with each attempt's text followed by its refresh's |
| Retry.UnreadThenSuccess | remedy.py:350-360 | an unread success, then a success: two attempts, one refresh, the second success's message |
| Retry.ThreeUnread | remedy.py:350-365 | three unread successes: three attempts, three refreshes, a change reported with the initial empty message |
| Retry.RetryOutcome | remedy.py:350-365 | changed iff some attempt sets `changed`; after a success, its message after that many attempts; after only unread successes, every attempt and the last message set; otherwise a failure with the fixed text, the last message and CONST_MESSAGE after all attempts; refreshes as above |
| Retry.Finish | remedy.py:342-347 | the report keeps the run's change flag, attempts and refreshes; it fails with the fixed text exactly when `changed` was never set; its message extends the run's |
| Retry.RunRetries | remedy.py:330-347 | a change exactly when some attempt sets `changed`, and a failure with the fixed text otherwise; never more attempts than given, and all of them on failure |
| RemedyRun.CreateStepReads | remedy.py:330-341 | a create attempt succeeds iff it got a 201 with a decodable WorkOrder_ID, and refreshes iff it got 400 or above |
| RemedyRun.ModifyStepReads | remedy.py:367-378 | a modify attempt succeeds iff the lookup answered 200 and the PUT 204, and refreshes on a rejected lookup or a PUT answered 400 or above |
| RemedyRun.AttachStepReads | remedy.py:352-360 | an attach attempt sets `changed` iff its POST answered 201, succeeds iff that 201's body could also be read, with that body, refreshes on every other outcome except an answer below 400 other than 201, and never sets the message otherwise |
| RemedyRun.AttachThreadStep | remedy.py:238-240 | an attempt on the injected record makes the same call as one on the original, and hands on the original or the injected record |
| RemedyRun.AttachFirstReads | remedy.py:349-359 | the first of the threaded attempts reads as an attempt on the original record, and the rest run on a record of the same two kinds |
| RemedyRun.AttachStepsRead | remedy.py:349-359 | every threaded attach attempt sets `changed`, succeeds, refreshes and leaves the message exactly as an attempt on the original record would |
| RemedyRun.CreateStepsRead | remedy.py:330-341 | every create attempt succeeds iff it gets a 201 with an id, with that id as its text, and refreshes iff answered 400 or above |
| RemedyRun.ModifyStepsRead | remedy.py:367-378 | every modify attempt succeeds iff its lookup answers 200 and its PUT 204, with the PUT's text, and refreshes on a rejected lookup or a PUT answered 400 or above |
| RemedyRun.AttachStepsUnthreaded | remedy.py:349-352 | handing each attempt the record the previous one injected into is the same as handing each the original record |
| RemedyRun.CreateOutcome | remedy.py:330-347 | create changes something iff an attempt gets a 201 with an id, reports the first such id, refreshes after exactly the attempts answered 400 or above, and otherwise fails after three attempts with the third attempt's message followed by CONST_MESSAGE |
| RemedyRun.ModifyOutcome | remedy.py:367-384 | modify changes something iff an attempt's lookup answers 200 and its PUT 204, reports the first such PUT's text, refreshes after rejected lookups and PUTs answered 400 or above, and otherwise fails after three attempts with the last message set followed by CONST_MESSAGE |
| RemedyRun.AttachOutcome | remedy.py:350-365 | attach changes something iff a POST answers 201, readable or not; the first 201 whose body is read ends the loop with that body; with 201s whose body could not be read alone, all three attempts and an empty message; failing, its message is CONST_MESSAGE alone; refreshes as above |
| RemedyRun.CreateChanges | remedy.py:330-347 | create changes something iff some attempt gets a 201 with a decodable id |
| RemedyRun.CreateSucceedsFirst | remedy.py:335-338 | the first attempt with a 201 and an id ends the loop, and that id is the message |
| RemedyRun.CreateGivesUp | remedy.py:342-344 | with no such attempt, create fails with its fixed text after three attempts, reporting the third attempt's message (every failing attempt sets one) followed by CONST_MESSAGE |
| RemedyRun.CreateRefreshesAfter | remedy.py:339-340 | create refreshes after exactly the attempts made that are answered 400 or above |
| RemedyRun.ModifyChanges | remedy.py:367-384 | modify changes something iff some attempt's lookup answers 200 and its PUT 204 |
| RemedyRun.ModifySucceedsFirst | remedy.py:371-374 | the first such attempt ends the loop, and its PUT's text is the message |
| RemedyRun.ModifyGivesUp | remedy.py:379-381 | with no such attempt, modify fails with its fixed text after three attempts, reporting the last message an attempt set followed by CONST_MESSAGE |
| RemedyRun.ModifyRefreshesAfter | remedy.py:375-377 | modify refreshes after exactly the attempts made whose lookup is rejected or whose PUT is answered 400 or above |
| RemedyRun.AttachChanges | remedy.py:350-365 | add_attachment changes something iff some POST answers 201, whether or not its body can then be read |
| RemedyRun.AttachSucceedsFirst | remedy.py:352-356 | the first POST answered 201 whose body is read ends the loop, and that body is the message |
| RemedyRun.AttachChangedUnread | remedy.py:352-365 | when no 201's body could be read but some POST answered 201, add_attachment reports a change after all three attempts with an empty message |
| RemedyRun.AttachGivesUp | remedy.py:361-363 | with no such POST, add_attachment fails after three attempts with CONST_MESSAGE alone as its message |
| RemedyRun.AttachRefreshesAfter | remedy.py:356-360 | add_attachment refreshes after every attempt made that is not answered below 400 other than 201 and does not end on a 201 whose body is read |
| RemedyRun.CreateAfterUnauthorized | remedy.py:330-347 | a 401 then a 201: two attempts, one refresh in between, the work order id reported |
| RemedyRun.ModifyRejectedThrice | remedy.py:367-384 | three rejected lookups: three refreshes, and a failure with the last lookup's text followed by the refreshes' texts |
| RemedyRun.AttachRefusedHostRun | remedy.py:349-365 | a base URL whose host the connection refuses: three InvalidURLs, three refreshes, and a failure with their texts and the refreshes' texts interleaved |
| RemedyRun.AttachWithoutValues | remedy.py:349-365 | a record without `values`, with a host the connection accepts: three KeyErrors, three refreshes, and a failure with their texts and the refreshes' texts interleaved |
| RemedyRun.AttachUnreadThenRead | remedy.py:350-360 | a 201 whose body cannot be read, then a 201 whose body can: two POSTs, one refresh, a change with the second body |
| RemedyRun.AttachNeverRead | remedy.py:350-365 | three 201s none of whose bodies can be read: three POSTs, three refreshes, a change with an empty message |
| RemedyRun.UnreadStep | remedy.py:352-360 | an attempt whose POST answers 201 with an unreadable body sets `changed`, refreshes and goes on |
| RemedyRun.ReadStep | remedy.py:352-355 | an attempt whose POST answers 201 with a readable body succeeds with it |
| RemedyRun.RefusedHostStep | remedy.py:236 | an attempt on a refused host fails on the InvalidURL, noting its text and refreshing |
| RemedyRun.CreateVerdict | remedy.py:330-341 | a create answer succeeds iff it is a 201 with a decodable id, with that id; refreshes iff it is 400 or above; on failure sets the message to the exception's text, to the reply text for a status other than 201, or to the decode error for a 201 |
| RemedyRun.ModifyVerdict | remedy.py:367-378 | a modify answer succeeds iff it is a 204, with its text; refreshes iff it is 400 or above; sets the message to the exception's text or to the reply text of 400 or above, and leaves it alone exactly for the other answers |
| RemedyRun.AttachVerdict | remedy.py:352-360 | an attach result sets `changed` iff it is a 201; succeeds iff its body can also be read, with that body; refreshes iff it has no status, is 400 or above, or is a 201 whose body cannot be read; never sets the message on failure |
| RemedyRun.RunCreate | remedy.py:330-347 | at most three attempts, and the failure text `ERROR: Could not create Work Order` exactly when nothing changed |
| RemedyRun.RunModify | remedy.py:367-384 | at most three attempts, and the failure text `ERROR: Could not modify Work Order` exactly when nothing changed |
| RemedyRun.RunAttach | remedy.py:349-365 | at most three attempts, and the failure text `ERROR: Could not attach file to Work Order` exactly when `changed` was never set |

## Left out

- HTTP transport, TLS, and the `requests` and `http.client` libraries: each request's outcome is an input (an answer or an exception's text). Of `http.client`, only the host check of the `HTTPSConnection` constructor is modelled (`Attachment.HostAccepted`); the InvalidURL's text, which quotes the host with `repr`, is an input.
- db_indicadores.py:138 indents with a tab after the four-space `if` at line 137, which Python 3 rejects with a TabError when it compiles the file. The model reads the indentation as intended (the line belongs to getManTime, which is not modelled).
- Python 2.7, which differs from the reading above in two ways that matter here: `for i in data` (db_indicadores.py:96-98, indicadores.py:96) walks the keys in hash order rather than insertion order, so the warnings may come out in another order; and unicode `strip()` also removes U+180E, which `Prelude.IsSpace` does not count as whitespace.
- The headers other than `Authorization` on the JSON requests, and the form-encoding of their query parameters: only the parameter pairs are recorded.
- refreshtoken's internals, as an opaque step between attempts: the lock marker's creation and removal, `filelock`, the sleeps, logout, and login's request. Its only effect modelled is the text it appends to CONST_MESSAGE; its path naming is modelled in `Tokens`.
- A refresh that raises (for example from `lock.release` when `lock` was never bound) is not modelled: the model assumes the refresh returns.
- Tokens.Login: the request's exception (remedy.py:122) leaves `response` unbound, so the `except` (remedy.py:132-135) raises an unbound-name error out of login. `Tokens.Login` starts from an answered request. It does model the token file's `open` or write raising after a 200 (remedy.py:126-127): `response` is bound then, login appends the error, sets the status to 400 and returns.
- The first run without a token file (remedy.py:316-318) ends with an AttributeError before any request. The model starts from an existing token file, and the file's state at each read is an input.
- `json.loads` and the lookups into decoded replies: these are inputs, each giving a value or an exception's text.
- `json.dumps` (remedy.py:169, 249): an input assumed to succeed, since `data` is a dict Ansible decoded from the task. Its exception path is not modelled.
- A missing `woid`, which the argument spec allows (remedy.py:286): the query concatenation raises a TypeError before the token is read (remedy.py:189). The model takes `woid` as a string.
- A missing `filename`, which the argument spec allows (remedy.py:287): `os.path.split(None)` raises a TypeError before the lookup (remedy.py:230), and addattachment turns it into 400. The model takes `filename` as a string.
- Text that is not valid Unicode: Dafny characters are Unicode scalar values, so the UnicodeEncodeError that `.encode()` raises on a lone surrogate in the file name or the token (remedy.py:251, 264) is not modelled.
- `float()`, `int()` and `datetime.fromtimestamp()`: these are oracles in `Metrics.Parsers`.
- insertData, getManTime and the database: the insertion is an abstract function returning the texts of its failures.
- Dict values that are not strings: every value is modelled as a string.
- The exact wording of the unbound-name error, which varies between Python versions: one constant stands for it.
- The attach success message is the bytes `res.read()` returns: it is modelled as text.
- The `filename=` parameter is written unquoted in the source: the model renders the bytes exactly as written and does not claim RFC 7578 quoting.
- The boundary might occur inside the JSON or the file bytes: the model does not claim the body parses back uniquely.
- Retry.Loop: the refresh's effect on the next attempt is not derived. Each attempt's token read is an independent input.
- RemedyCalls.Modify: its contract states only the exception path. The request guards are in `ModifyGuard` and `ModifyRejected`.
- RemedyCalls.Attach: its contract states only what becomes of the record. The guards and the payload are in the lemmas after it.
- Category resolution and the rest of the Ansible module glue (argument specs, check mode, `exit_json` and `fail_json` beyond the values they report).

=== FILE: attachment.dfy ===
/** The pieces of addattachment that only rearrange strings: the file name, the record's fields, the host. */
module Attachment {
  import opened Prelude
  import opened Dicts
  import opened Text

  /**
   * `os.path.split(filename)[1]`: the longest suffix without a '/', that is
   * everything after the last '/' (the whole name when there is none).
   */
  function Basename(p: string): (t: string)
    ensures |t| <= |p|
    ensures '/' !in t
  {
    if p == [] then []
    else if p[|p| - 1] == '/' then []
    else Basename(p[..|p| - 1]) + [p[|p| - 1]]
  }

  /** The base name is a suffix without a '/', preceded by a '/' unless it is the whole name. */
  lemma {:induction false} BasenameSuffix(p: string)
    ensures '/' !in Basename(p)
    ensures p[|p| - |Basename(p)|..] == Basename(p)
    ensures |Basename(p)| < |p| ==> p[|p| - |Basename(p)| - 1] == '/'
  {
    if p != [] && p[|p| - 1] != '/' {
      var init := p[..|p| - 1];
      BasenameSuffix(init);
      var t := Basename(init);
      assert p[|p| - |t| - 1..] == init[|init| - |t|..] + [p[|p| - 1]];
    }
  }

  /** A name without a directory part is its own base name. */
  lemma {:induction false} BasenameOfPlainName(name: string)
    requires '/' !in name
    ensures Basename(name) == name
  {
    if name != [] {
      var init := name[..|name| - 1];
      assert '/' !in init by {
        assert forall c :: c in init ==> c in name;
      }
      BasenameOfPlainName(init);
      assert init + [name[|name| - 1]] == name;
    }
  }

  /** Whatever the directory, the base name of `dir + "/" + name` is `name`. */
  lemma {:induction false} BasenameOfPath(dir: string, name: string)
    requires '/' !in name
    ensures Basename(dir + "/" + name) == name
  {
    var p := dir + "/" + name;
    if name != [] {
      var init := name[..|name| - 1];
      assert p[..|p| - 1] == dir + "/" + init;
      assert '/' !in init by {
        assert forall c :: c in init ==> c in name;
      }
      BasenameOfPath(dir, init);
      assert init + [name[|name| - 1]] == name;
    }
  }

  const WorkOrderIdField: string := "Work Order ID"
  const EntryIdField: string := "WorkOrder_EntryID"
  const WorkLogField: string := "z2AF Work Log01"

  /**
   * The three assignments into `data["values"]`: both work order fields get
   * the work order id, the work log field gets the file's base name.
   */
  function Inject(values: Dict, woid: string, tail: string): (r: Dict)
    requires Wf(values)
    ensures Wf(r)
    ensures r.vals.Keys == values.vals.Keys + {WorkOrderIdField, EntryIdField, WorkLogField}
    ensures r.vals[WorkOrderIdField] == woid && r.vals[EntryIdField] == woid && r.vals[WorkLogField] == tail
    ensures forall k :: k !in {WorkOrderIdField, EntryIdField, WorkLogField} ==>
      (k in r.vals <==> k in values.vals) && (k in values.vals ==> r.vals[k] == values.vals[k])
    ensures values.order <= r.order
  {
    Store(Store(Store(values, WorkOrderIdField, woid), EntryIdField, woid), WorkLogField, tail)
  }

  /**
   * The assignments mutate the module's parameters, so a retried attempt
   * injects into an already injected record; that changes nothing.
   */
  lemma InjectIdempotent(values: Dict, woid: string, tail: string)
    requires Wf(values)
    ensures Inject(Inject(values, woid, tail), woid, tail) == Inject(values, woid, tail)
  {
    var once := Inject(values, woid, tail);
    StoreSame(once, WorkOrderIdField, woid);
    StoreSame(once, EntryIdField, woid);
    StoreSame(once, WorkLogField, tail);
  }

  /** Storing the value a key already holds leaves the dict as it is. */
  lemma StoreSame(d: Dict, k: string, v: string)
    requires Wf(d) && k in d.vals && d.vals[k] == v
    ensures Store(d, k, v) == d
  {
    assert d.vals[k := v] == d.vals;
  }

  /** `apibase.replace('https://', '')`: the host the attachment connection opens. */
  function Host(apibase: string): (h: string)
    ensures |h| <= |apibase|
  {
    RemoveAll(apibase, "https://")
  }

  /** For a base URL written `https://` + host, with no further `https://` in it, the connection goes to that host. */
  lemma HostOfHttpsUrl(host: string)
    requires !Occurs("https://", host)
    ensures Host("https://" + host) == host
  {
    var u := "https://" + host;
    assert u[..8] == "https://" && u[8..] == host;
    RemoveAbsent(host, "https://");
  }

  /** A base URL without any `https://` in it is used as the host as it stands. */
  lemma HostWithoutScheme(apibase: string)
    requires !Occurs("https://", apibase)
    ensures Host(apibase) == apibase
  {
    RemoveAbsent(apibase, "https://");
  }

  /**
   * A host `http.client.HTTPSConnection` accepts: its constructor raises
   * InvalidURL for a host holding a control character, a space or DEL.
   * (The brackets around an IPv6 literal, which it strips first, are none
   * of those.)
   */
  predicate HostAccepted(h: string) {
    forall i :: 0 <= i < |h| ==> h[i] as int > 0x20 && h[i] as int != 0x7f
  }

  /** A base URL `https://` + host whose host holds a space names a host the connection refuses. */
  lemma SpacedHostRefused(host: string, i: nat)
    requires !Occurs("https://", host)
    requires i < |host| && host[i] == ' '
    ensures !HostAccepted(Host("https://" + host))
  {
    HostOfHttpsUrl(host);
  }
}

=== FILE: dicts.dfy ===
/** Python dictionaries with string keys and string values, as the metric modules receive them. */
module Dicts {
  import opened Prelude

  /** A dict is a finite map plus the insertion order that `for k in d` follows. */
  datatype Dict = Dict(order: seq<string>, vals: map<string, string>)

  /** The representation invariant: the iteration order lists every key exactly once. */
  ghost predicate Wf(d: Dict) {
    && Distinct(d.order)
    && (forall k :: k in d.vals <==> k in d.order)
  }

  const Empty: Dict := Dict([], map[])

  /** A dict known to be well formed, such as a module's constant table. */
  type Table = d: Dict | Wf(d) witness Empty

  /** `d[k] = v`: an existing key keeps its place, a new key goes to the end of the iteration order. */
  function Store(d: Dict, k: string, v: string): (r: Dict)
    requires Wf(d)
    ensures Wf(r)
    ensures r.vals == d.vals[k := v]
    ensures k in d.vals ==> r.order == d.order
    ensures k !in d.vals ==> r.order == d.order + [k]
  {
    Dict(if k in d.vals then d.order else d.order + [k], d.vals[k := v])
  }
}

=== FILE: metric_cases.dfy ===
/** Consequences of the validator for the two metric modules' own tables. */
module MetricCases {
  import opened Prelude
  import opened Dicts
  import opened Metrics
  import opened MetricsFacts
  import opened MetricProfiles

  /**
   * In db_indicadores.py `manual_execs` and `auto_execs` default to "1", so
   * (as long as `float("1")` succeeds) their numeric error appears only for
   * a supplied, non-blank value that `float` rejects.
   */
  lemma ExecCountsShieldedByDefault(data: Dict, parsers: Parsers, k: string)
    requires Wf(data)
    requires k == "manual_execs" || k == "auto_execs"
    requires parsers.isFloat("1")
    ensures NotNumeric(k) in Validate(DbIndicadores, data, parsers).issues ==>
      k in data.vals && !AllSpace(data.vals[k]) && !parsers.isFloat(data.vals[k])
  {
    DbFacts();
    DefaultShieldsCheck(DbIndicadores, data, parsers, k);
  }

  /** In db_indicadores.py the two execution counts always hold a value once defaulted. */
  lemma DbCountsDefaulted(data: Dict)
    requires Wf(data)
    ensures DbIndicadores.checks[0] == Numeric("manual_execs") && After(DbIndicadores, data, "manual_execs") != None
    ensures DbIndicadores.checks[1] == Numeric("auto_execs") && After(DbIndicadores, data, "auto_execs") != None
    ensures DbIndicadores.checks[2] == Numeric("manual_time") && DbIndicadores.checks[3].key == "playbook_start_timestamp"
  {
    DbFacts();
  }

  /**
   * db_indicadores.py: without `manual_time` the third check's `data["manual_time"]`
   * raises a KeyError that escapes validation, so the module fails with it.
   */
  lemma DbMissingManualTimeFails(data: Dict, parsers: Parsers, insert: Dict -> seq<string>)
    requires Wf(data) && "manual_time" !in data.vals
    ensures Validate(DbIndicadores, data, parsers).Raised?
    ensures RunModule(DbIndicadores, data, parsers, insert) ==
      Report(true, false, Render(Validate(DbIndicadores, data, parsers).issues),
             "ERROR: Could not insert data into database: " + KeyErrorText("manual_time"))
  {
    DbFacts();
    DbCountsDefaulted(data);
    AbsentCheckedKeyFails(DbIndicadores, data, parsers, insert, 2);
  }

  /**
   * With `manual_time` present but `playbook_start_timestamp` absent, the
   * fourth check's KeyError is what escapes in db_indicadores.py.
   */
  lemma DbMissingTimestampFails(data: Dict, parsers: Parsers, insert: Dict -> seq<string>)
    requires Wf(data) && "manual_time" in data.vals && "playbook_start_timestamp" !in data.vals
    ensures Validate(DbIndicadores, data, parsers).Raised?
    ensures RunModule(DbIndicadores, data, parsers, insert) ==
      Report(true, false, Render(Validate(DbIndicadores, data, parsers).issues),
             "ERROR: Could not insert data into database: " + KeyErrorText("playbook_start_timestamp"))
  {
    DbFacts();
    DbCountsDefaulted(data);
    assert After(DbIndicadores, data, "manual_time").Some?;
    AbsentCheckedKeyFails(DbIndicadores, data, parsers, insert, 3);
  }

  /** indicadores.py: without `playbook_start_timestamp` its one check raises a KeyError and the module fails. */
  lemma IndicadoresMissingTimestampFails(data: Dict, parsers: Parsers, insert: Dict -> seq<string>)
    requires Wf(data) && "playbook_start_timestamp" !in data.vals
    ensures Validate(Indicadores, data, parsers).Raised?
    ensures RunModule(Indicadores, data, parsers, insert) ==
      Report(true, false, Render(Validate(Indicadores, data, parsers).issues),
             "ERROR: Could not insert data into database: " + KeyErrorText("playbook_start_timestamp"))
  {
    IndicadoresFacts();
    AbsentCheckedKeyFails(Indicadores, data, parsers, insert, 0);
  }

  /**
   * indicadores.py, once validation returns: its only format error is the
   * timestamp one, raised exactly when the conversion rejects the value with
   * a ValueError; no numeric check runs.
   */
  lemma IndicadoresOnlyTimestampChecked(data: Dict, parsers: Parsers, k: string)
    requires Wf(data)
    requires Validate(Indicadores, data, parsers).Returned?
    ensures NotNumeric(k) !in Validate(Indicadores, data, parsers).issues
    ensures "playbook_start_timestamp" in data.vals
    ensures BadTimestamp("playbook_start_timestamp", "linux epoch timestamp") in Validate(Indicadores, data, parsers).issues
      <==> parsers.stamp(data.vals["playbook_start_timestamp"]).Rejected?
  {
    IndicadoresFacts();
    ValidateFormatReports(Indicadores, data, parsers, k, "");
    ValidateFormatReports(Indicadores, data, parsers, "playbook_start_timestamp", "linux epoch timestamp");
  }

  /**
   * Truthiness versus `strip()`: a non-empty, whitespace-only value is a value
   * for indicadores.py (kept, no error) ...
   */
  lemma WhitespaceKeptByIndicadores(data: Dict, parsers: Parsers, k: string)
    requires Wf(data) && k in data.vals && data.vals[k] != "" && AllSpace(data.vals[k])
    ensures MissingValue(k) !in Validate(Indicadores, data, parsers).issues
    ensures Unrecognized(k) !in Validate(Indicadores, data, parsers).issues
    ensures Validate(Indicadores, data, parsers).Returned? ==>
      Validate(Indicadores, data, parsers).data.vals[k] == data.vals[k]
  {
    IndicadoresFacts();
    ValueKept(Indicadores, data, parsers, k);
  }

  /** ... but blank for db_indicadores.py: replaced by the default, or reported when the key is required. */
  lemma WhitespaceBlankForDb(data: Dict, parsers: Parsers, k: string)
    requires Wf(data) && k in data.vals && AllSpace(data.vals[k])
    ensures MissingValue(k) in Validate(DbIndicadores, data, parsers).issues <==> k in DbIndicadores.required
    ensures Validate(DbIndicadores, data, parsers).Returned? && k in DefaultTable.vals ==>
      Validate(DbIndicadores, data, parsers).data.vals[k] == DefaultTable.vals[k]
  {
    DbFacts();
    BlankValueDefaulted(DbIndicadores, data, parsers, k);
  }

  /**
   * Each of db_indicadores.py's required keys draws exactly one missing-key or
   * missing-value error when it is absent or blank after `strip()`, and none otherwise.
   */
  lemma DbRequiredErrorOnce(data: Dict, parsers: Parsers, k: string)
    requires Wf(data) && k in DbRequired
    ensures KeyErrors(Validate(DbIndicadores, data, parsers).issues, k) ==
      if k !in data.vals || AllSpace(data.vals[k]) then 1 else 0
  {
    RequiredDistinct();
    RequiredKeyOnce(DbIndicadores, data, parsers, k);
  }

  /**
   * Each of indicadores.py's required keys draws exactly one missing-key or
   * missing-value error when it is absent or empty, and none otherwise.
   */
  lemma IndicadoresRequiredErrorOnce(data: Dict, parsers: Parsers, k: string)
    requires Wf(data) && k in IndicadoresRequired
    ensures KeyErrors(Validate(Indicadores, data, parsers).issues, k) ==
      if k !in data.vals || data.vals[k] == "" then 1 else 0
  {
    RequiredDistinct();
    RequiredKeyOnce(Indicadores, data, parsers, k);
  }

  /** db_indicadores.py: re-validating the output of a validation that returned gives back the same result. */
  lemma DbIdempotent(data: Dict, parsers: Parsers)
    requires Wf(data)
    ensures Validate(DbIndicadores, data, parsers).Returned? ==>
      Validate(DbIndicadores, Validate(DbIndicadores, data, parsers).data, parsers) == Validate(DbIndicadores, data, parsers)
  {
    DbFacts();
    ValidateIdempotent(DbIndicadores, data, parsers);
  }

  /** The same for indicadores.py. */
  lemma IndicadoresIdempotent(data: Dict, parsers: Parsers)
    requires Wf(data)
    ensures Validate(Indicadores, data, parsers).Returned? ==>
      Validate(Indicadores, Validate(Indicadores, data, parsers).data, parsers) == Validate(Indicadores, data, parsers)
  {
    IndicadoresFacts();
    ValidateIdempotent(Indicadores, data, parsers);
  }
}

=== FILE: metric_profiles.dfy ===
/**
 * The two metric modules as instances of the shared validator: their tables,
 * their notion of blank, their checks, and what follows for each of them.
 */
module MetricProfiles {
  import opened Prelude
  import opened Dicts
  import opened Metrics
  import opened MetricsFacts

  /** CONST_DEFAULTS' keys, in the order the literal lists them; the same table in both modules. */
  const DefaultKeys: seq<string> :=
    [ "transaction_identifier", "client", "platform", "creator", "type", "function", "specialist",
      "exec_type", "manual_execs", "auto_execs", "woid", "ci", "technology" ]

  /** CONST_DEFAULTS' values. */
  const DefaultValues: map<string, string> :=
    map[ "transaction_identifier" := "XXX", "client" := "MULTICLIENTE", "platform" := "AWX",
         "creator" := "AUTOMATIZACION", "type" := "SCRIPTING", "function" := "CHECK LIST",
         "specialist" := "INGENIERO", "exec_type" := "SOBRE DEMANDA", "manual_execs" := "1",
         "auto_execs" := "1", "woid" := "0", "ci" := "OTROS", "technology" := "OTROS" ]

  lemma DefaultKeysDistinct()
    ensures Distinct(DefaultKeys)
  {
  }

  lemma DefaultKeysCover()
    ensures forall k :: k in DefaultValues <==> k in DefaultKeys
  {
  }

  /** CONST_DEFAULTS as a dict: the literal's keys are distinct, so it is well formed. */
  const DefaultTable: Table := (DefaultKeysDistinct(); DefaultKeysCover(); Dict(DefaultKeys, DefaultValues))

  /** db_indicadores.py's CONST_REQUIRED. */
  const DbRequired: seq<string> := ["bot_name", "area", "manual_time", "playbook_start_timestamp"]

  /** indicadores.py's CONST_REQUIRED. */
  const IndicadoresRequired: seq<string> := ["aut_id", "playbook_start_timestamp"]

  /** db_indicadores.py: four required keys, `strip()` blankness, three numeric checks and a timestamp check. */
  const DbIndicadores: Profile := Profile(
    DbRequired,
    DefaultTable,
    Stripped,
    [ Numeric("manual_execs"), Numeric("auto_execs"), Numeric("manual_time"),
      Timestamp("playbook_start_timestamp", "timestamp") ])

  /** indicadores.py: two required keys, truthiness blankness, only the timestamp check. */
  const Indicadores: Profile := Profile(
    IndicadoresRequired,
    DefaultTable,
    Falsy,
    [ Timestamp("playbook_start_timestamp", "linux epoch timestamp") ])

  lemma DefaultsNonBlank()
    ensures forall k :: k in DefaultValues ==> !AllSpace(DefaultValues[k]) && DefaultValues[k] != ""
  {
    forall k | k in DefaultValues
      ensures !AllSpace(DefaultValues[k]) && DefaultValues[k] != ""
    {
      var v := DefaultValues[k];
      assert v[0] != ' ' && !IsSpace(v[0]);
    }
  }

  lemma DbRequiredOk()
    ensures forall k :: k in DbRequired ==> k !in DefaultValues
  {
    assert forall k :: k in DbRequired ==> k !in DefaultKeys;
    DefaultKeysCover();
  }

  lemma IndicadoresRequiredOk()
    ensures forall k :: k in IndicadoresRequired ==> k !in DefaultValues
  {
    assert forall k :: k in IndicadoresRequired ==> k !in DefaultKeys;
    DefaultKeysCover();
  }

  /** Neither module lists a required key twice. */
  lemma RequiredDistinct()
    ensures Distinct(DbIndicadores.required) && Distinct(Indicadores.required)
  {
  }

  /** What is needed about db_indicadores.py's tables, gathered in one place. */
  lemma DbFacts()
    ensures DefaultsFilled(DbIndicadores) && TablesDisjoint(DbIndicadores)
    ensures DbIndicadores.defaults.vals["manual_execs"] == "1" && DbIndicadores.defaults.vals["auto_execs"] == "1"
    ensures "manual_time" !in DbIndicadores.defaults.vals && "playbook_start_timestamp" !in DbIndicadores.defaults.vals
  {
    DefaultsNonBlank();
    DbRequiredOk();
  }

  /** What is needed about indicadores.py's tables, gathered in one place. */
  lemma IndicadoresFacts()
    ensures DefaultsFilled(Indicadores) && TablesDisjoint(Indicadores)
    ensures "playbook_start_timestamp" !in Indicadores.defaults.vals
  {
    DefaultsNonBlank();
    IndicadoresRequiredOk();
  }
}

=== FILE: metrics.dfy ===
/**
 * The input validator and defaulter shared by the two metric modules
 * (db_indicadores.py and indicadores.py), and their pass/fail decision.
 *
 * Both modules run the same three loops over a dict of string values and
 * then a list of format checks; they differ in the required-key list, in how
 * "blank" is decided and in which checks run. A `Profile` carries those
 * differences, so the algorithm is written once.
 */
module Metrics {
  import opened Prelude
  import opened Dicts

  /** How a module decides that a present value counts as no value. */
  datatype Blankness =
    | Stripped   // `not v.strip()`: empty or whitespace only
    | Falsy      // `not v`: the empty string only

  predicate Blank(b: Blankness, v: string) {
    match b
    case Stripped => AllSpace(v)
    case Falsy => v == ""
  }

  /** A format check run after defaulting; it indexes `data[key]`. */
  datatype Check =
    | Numeric(key: string)                     // `float(data[key])`
    | Timestamp(key: string, wording: string)  // `datetime.fromtimestamp(int(data[key]) // 1)`

  datatype Profile = Profile(required: seq<string>, defaults: Table, blank: Blankness, checks: seq<Check>)

  /** Keys the warning loop does not complain about. */
  predicate Known(p: Profile, k: string) {
    k in p.defaults.vals || k in p.required
  }

  /** What `datetime.fromtimestamp(int(v) // 1)` does with a value. */
  datatype Stamp =
    | Valid
    | Rejected            // a ValueError, which validateData catches
    | Raises(text: string) // any other exception (an overflow, an OS error), which escapes validateData

  /** The parsing library the checks call, left abstract. */
  datatype Parsers = Parsers(isFloat: string -> bool, stamp: string -> Stamp)

  /** One addition to the module's message; every kind except a warning also adds one to the error count. */
  datatype Issue =
    | MissingKey(key: string)
    | MissingValue(key: string)
    | Unrecognized(key: string)
    | NotNumeric(key: string)
    | BadTimestamp(key: string, wording: string)
    | InsertFailed(text: string)
  {
    predicate IsError() {
      !Unrecognized?
    }
  }

  const ErrorTag: string := "ERROR: "
  const WarningTag: string := "WARNING: "

  /** The text each issue appends to the message. */
  function Line(i: Issue): (l: string)
    ensures i.IsError() && !i.InsertFailed? ==> ErrorTag <= l
    ensures i.Unrecognized? ==> WarningTag <= l
    ensures !i.InsertFailed? ==> |l| > 0 && l[|l| - 1] == '\n'
  {
    match i
    case MissingKey(k) => ErrorTag + ("Missing required data key: '" + k + "'\n")
    case MissingValue(k) => ErrorTag + ("Missing required value, data key: '" + k + "'\n")
    case Unrecognized(k) => WarningTag + ("Unrecognized data key: '" + k + "'\n")
    case NotNumeric(k) => ErrorTag + (k + " value must be numeric\n")
    case BadTimestamp(k, w) => ErrorTag + (k + " value must be a valid " + w + " format\n")
    case InsertFailed(t) => t
  }

  /** The accumulated message: the issues' lines in the order they were raised. */
  function Render(issues: seq<Issue>): (m: string)
    ensures (forall i :: 0 <= i < |issues| ==> !issues[i].InsertFailed?) ==> (m == "" <==> issues == [])
    ensures issues != [] && !issues[|issues| - 1].InsertFailed? ==> |m| > 0 && m[|m| - 1] == '\n'
  {
    if issues == [] then ""
    else
      assert |issues| > 1 ==> issues[1..][|issues| - 2] == issues[|issues| - 1];
      assert forall i :: 1 <= i < |issues| ==> issues[1..][i - 1] == issues[i];
      Line(issues[0]) + Render(issues[1..])
  }

  /** The accumulated error count: warnings do not count. */
  function ErrorCount(issues: seq<Issue>): (n: nat)
    ensures n <= |issues|
    ensures n > 0 <==> exists i :: 0 <= i < |issues| && issues[i].IsError()
  {
    if issues == [] then 0
    else
      var rest := ErrorCount(issues[1..]);
      assert forall i :: 1 <= i < |issues| ==> issues[i] == issues[1..][i - 1];
      (if issues[0].IsError() then 1 else 0) + rest
  }

  /** Appending issues only extends the message and only increases the count. */
  lemma {:induction false} Accumulate(a: seq<Issue>, b: seq<Issue>)
    ensures Render(a + b) == Render(a) + Render(b)
    ensures ErrorCount(a + b) == ErrorCount(a) + ErrorCount(b)
  {
    if a != [] {
      assert (a + b)[1..] == a[1..] + b;
      Accumulate(a[1..], b);
    } else {
      assert a + b == b;
    }
  }

  /** First loop: one error for each required key that is absent, or present but blank. */
  function CheckRequired(keys: seq<string>, data: Dict, b: Blankness): (r: seq<Issue>)
    ensures |r| <= |keys|
    ensures forall i :: 0 <= i < |r| ==> (r[i].MissingKey? || r[i].MissingValue?) && r[i].key in keys
    ensures forall k :: MissingKey(k) in r <==> k in keys && k !in data.vals
    ensures forall k :: MissingValue(k) in r <==> k in keys && k in data.vals && Blank(b, data.vals[k])
  {
    if keys == [] then []
    else
      var k := keys[0];
      var here := if k !in data.vals then [MissingKey(k)]
                  else if Blank(b, data.vals[k]) then [MissingValue(k)]
                  else [];
      var rest := CheckRequired(keys[1..], data, b);
      assert forall j :: j in keys[1..] ==> j in keys;
      here + rest
  }

  /** How many required-key errors (absent or blank) `issues` raise about `k`. */
  function KeyErrors(issues: seq<Issue>, k: string): (n: nat)
    ensures n <= |issues|
    ensures n == 0 <==> MissingKey(k) !in issues && MissingValue(k) !in issues
  {
    if issues == [] then 0
    else
      var rest := KeyErrors(issues[1..], k);
      assert forall i :: i in issues <==> i == issues[0] || i in issues[1..];
      (if issues[0] == MissingKey(k) || issues[0] == MissingValue(k) then 1 else 0) + rest
  }

  lemma {:induction false} KeyErrorsAppend(a: seq<Issue>, b: seq<Issue>, k: string)
    ensures KeyErrors(a + b, k) == KeyErrors(a, k) + KeyErrors(b, k)
  {
    if a != [] {
      assert (a + b)[1..] == a[1..] + b;
      KeyErrorsAppend(a[1..], b, k);
    } else {
      assert a + b == b;
    }
  }

  /** Issues of other kinds add nothing to the count. */
  lemma KeyErrorsOthers(a: seq<Issue>, b: seq<Issue>, c: seq<Issue>, k: string)
    requires forall i :: 0 <= i < |b| ==> b[i].Unrecognized?
    requires forall i :: 0 <= i < |c| ==> c[i].NotNumeric? || c[i].BadTimestamp?
    ensures KeyErrors(a + b + c, k) == KeyErrors(a, k)
  {
    KeyErrorsAppend(a, b, k);
    KeyErrorsAppend(a + b, c, k);
    assert MissingKey(k) !in b && MissingValue(k) !in b;
    assert MissingKey(k) !in c && MissingValue(k) !in c;
  }

  /**
   * When no key is listed twice, the first loop raises exactly one error for a
   * required key that is absent or blank and none for any other key.
   */
  lemma {:induction false} RequiredOncePerKey(keys: seq<string>, data: Dict, b: Blankness, k: string)
    requires Distinct(keys)
    ensures KeyErrors(CheckRequired(keys, data, b), k) ==
      if k in keys && (k !in data.vals || Blank(b, data.vals[k])) then 1 else 0
  {
    if keys != [] {
      var j := keys[0];
      var here := if j !in data.vals then [MissingKey(j)]
                  else if Blank(b, data.vals[j]) then [MissingValue(j)]
                  else [];
      var rest := CheckRequired(keys[1..], data, b);
      assert CheckRequired(keys, data, b) == here + rest;
      DistinctTail(keys);
      RequiredOncePerKey(keys[1..], data, b, k);
      KeyErrorsAppend(here, rest, k);
      assert k in keys <==> k == j || k in keys[1..];
    }
  }

  /** Second loop: a warning for each key in neither table, raised only when its value is blank. */
  function WarnUnrecognized(keys: seq<string>, data: Dict, p: Profile): (r: seq<Issue>)
    requires forall i :: 0 <= i < |keys| ==> keys[i] in data.vals
    ensures forall i :: 0 <= i < |r| ==> r[i].Unrecognized?
    ensures ErrorCount(r) == 0
    ensures forall k :: Unrecognized(k) in r <==> k in keys && !Known(p, k) && Blank(p.blank, data.vals[k])
  {
    if keys == [] then []
    else
      var k := keys[0];
      var here := if !Known(p, k) && Blank(p.blank, data.vals[k]) then [Unrecognized(k)] else [];
      here + WarnUnrecognized(keys[1..], data, p)
  }

  /**
   * The value key `k` holds once defaulting is over, stated per key: a default
   * key that was absent or blank holds its default, every other key keeps
   * whatever it had (or stays absent).
   */
  ghost function After(p: Profile, data: Dict, k: string): Option<string> {
    if k in p.defaults.vals && (k !in data.vals || Blank(p.blank, data.vals[k])) then Some(p.defaults.vals[k])
    else if k in data.vals then Some(data.vals[k])
    else None
  }

  /** One iteration of the third loop. */
  function DefaultKey(k: string, v: string, data: Dict, b: Blankness): (r: Dict)
    requires Wf(data)
    ensures Wf(r)
    ensures r.vals.Keys == data.vals.Keys + {k}
    ensures forall j :: j in data.vals && j != k ==> r.vals[j] == data.vals[j]
    ensures r.vals[k] == if k !in data.vals || Blank(b, data.vals[k]) then v else data.vals[k]
    ensures data.order <= r.order
  {
    if k !in data.vals || Blank(b, data.vals[k]) then Store(data, k, v) else data
  }

  /** Third loop: each default key that is absent or blank receives its default. */
  function FillDefaults(keys: seq<string>, table: map<string, string>, data: Dict, b: Blankness): (r: Dict)
    requires Wf(data)
    requires forall i :: 0 <= i < |keys| ==> keys[i] in table
    ensures Wf(r)
    ensures data.order <= r.order
  {
    if keys == [] then data
    else FillDefaults(keys[1..], table, DefaultKey(keys[0], table[keys[0]], data, b), b)
  }

  /** The third loop, key by key: the closed form `After` describes its outcome. */
  lemma {:induction false} FillDefaultsAt(keys: seq<string>, table: map<string, string>, data: Dict, b: Blankness, k: string)
    requires Wf(data)
    requires forall i :: 0 <= i < |keys| ==> keys[i] in table
    ensures k in FillDefaults(keys, table, data, b).vals <==> k in data.vals || k in keys
    ensures k in data.vals && k !in keys ==> FillDefaults(keys, table, data, b).vals[k] == data.vals[k]
    ensures k in keys ==>
      FillDefaults(keys, table, data, b).vals[k] == (if k !in data.vals || Blank(b, data.vals[k]) then table[k] else data.vals[k])
  {
    if keys != [] {
      var next := DefaultKey(keys[0], table[keys[0]], data, b);
      FillDefaultsAt(keys[1..], table, next, b, k);
      assert k in keys <==> k == keys[0] || k in keys[1..];
    }
  }

  /** The third loop run over a profile's defaults table leaves every key as `After` says. */
  lemma FillDefaultsAll(p: Profile, data: Dict)
    requires Wf(data)
    ensures forall k :: k in FillDefaults(p.defaults.order, p.defaults.vals, data, p.blank).vals <==> After(p, data, k).Some?
    ensures forall k :: k in FillDefaults(p.defaults.order, p.defaults.vals, data, p.blank).vals ==>
      FillDefaults(p.defaults.order, p.defaults.vals, data, p.blank).vals[k] == After(p, data, k).value
  {
    forall k {
      FillDefaultsAt(p.defaults.order, p.defaults.vals, data, p.blank, k);
    }
  }

  /** What the format checks leave behind: their issues, and the exception that escaped, if any. */
  datatype Checked = Passed(issues: seq<Issue>) | Escaped(issues: seq<Issue>, error: string)

  /** `str(KeyError(k))`: the key between single quotes. */
  function KeyErrorText(k: string): string {
    "'" + k + "'"
  }

  /** A check escapes when its key is absent or when the timestamp conversion raises anything but ValueError. */
  predicate Escapes(c: Check, data: Dict, parsers: Parsers) {
    c.key !in data.vals || (c.Timestamp? && parsers.stamp(data.vals[c.key]).Raises?)
  }

  /** Check `i` is the first one that escapes. */
  predicate FirstEscape(checks: seq<Check>, i: nat, data: Dict, parsers: Parsers) {
    && i < |checks|
    && Escapes(checks[i], data, parsers)
    && forall j :: 0 <= j < i ==> !Escapes(checks[j], data, parsers)
  }

  /** The text of the exception an escaping check raises. */
  function EscapeText(c: Check, data: Dict, parsers: Parsers): string
    requires Escapes(c, data, parsers)
  {
    if c.key !in data.vals then KeyErrorText(c.key) else parsers.stamp(data.vals[c.key]).text
  }

  /** The issue one non-escaping check raises about the value `v` of its key. */
  function CheckValue(c: Check, v: string, parsers: Parsers): seq<Issue> {
    match c
    case Numeric(k) => if parsers.isFloat(v) then [] else [NotNumeric(k)]
    case Timestamp(k, w) => if parsers.stamp(v).Rejected? then [BadTimestamp(k, w)] else []
  }

  /** Fourth part: the format checks in order, stopping at the first exception that escapes. */
  function RunChecks(checks: seq<Check>, data: Dict, parsers: Parsers): (r: Checked)
    ensures |r.issues| <= |checks|
    ensures forall i :: 0 <= i < |r.issues| ==> r.issues[i].NotNumeric? || r.issues[i].BadTimestamp?
    ensures r.Passed? <==> forall i :: 0 <= i < |checks| ==> !Escapes(checks[i], data, parsers)
  {
    if checks == [] then Passed([])
    else
      var c := checks[0];
      if Escapes(c, data, parsers) then Escaped([], EscapeText(c, data, parsers))
      else
        var here := CheckValue(c, data.vals[c.key], parsers);
        match RunChecks(checks[1..], data, parsers)
        case Passed(rest) => Passed(here + rest)
        case Escaped(rest, e) => Escaped(here + rest, e)
  }

  /**
   * A numeric error names a numeric check whose value `float` rejects, and a
   * timestamp error one whose value the conversion rejects with a ValueError;
   * when no check escapes, each such value does produce its error.
   */
  lemma {:induction false} ChecksReport(checks: seq<Check>, data: Dict, parsers: Parsers, k: string, w: string)
    ensures NotNumeric(k) in RunChecks(checks, data, parsers).issues ==>
      Numeric(k) in checks && k in data.vals && !parsers.isFloat(data.vals[k])
    ensures BadTimestamp(k, w) in RunChecks(checks, data, parsers).issues ==>
      Timestamp(k, w) in checks && k in data.vals && parsers.stamp(data.vals[k]).Rejected?
    ensures RunChecks(checks, data, parsers).Passed? && Numeric(k) in checks ==>
      (NotNumeric(k) in RunChecks(checks, data, parsers).issues <==> !parsers.isFloat(data.vals[k]))
    ensures RunChecks(checks, data, parsers).Passed? && Timestamp(k, w) in checks ==>
      (BadTimestamp(k, w) in RunChecks(checks, data, parsers).issues <==> parsers.stamp(data.vals[k]).Rejected?)
  {
    if checks != [] {
      ChecksReport(checks[1..], data, parsers, k, w);
      assert forall c :: c in checks <==> c == checks[0] || c in checks[1..];
    }
  }

  /** An escape carries the text of the first check that escapes. */
  lemma {:induction false} ChecksFirstEscape(checks: seq<Check>, data: Dict, parsers: Parsers)
    ensures RunChecks(checks, data, parsers).Escaped? ==>
      exists i: nat :: FirstEscape(checks, i, data, parsers) &&
        RunChecks(checks, data, parsers).error == EscapeText(checks[i], data, parsers)
  {
    if checks != [] && !Escapes(checks[0], data, parsers) && RunChecks(checks, data, parsers).Escaped? {
      ChecksFirstEscape(checks[1..], data, parsers);
      var i: nat :| FirstEscape(checks[1..], i, data, parsers) &&
        RunChecks(checks[1..], data, parsers).error == EscapeText(checks[1..][i], data, parsers);
      assert checks[1..][i] == checks[i + 1];
      assert forall j :: 1 <= j < i + 1 ==> checks[j] == checks[1..][j - 1];
      assert FirstEscape(checks, i + 1, data, parsers);
    } else if checks != [] && RunChecks(checks, data, parsers).Escaped? {
      assert FirstEscape(checks, 0, data, parsers);
    }
  }

  /** The result of validateData: the defaulted dict, or the exception that escaped it. */
  datatype Validation =
    | Returned(data: Dict, issues: seq<Issue>)
    | Raised(issues: seq<Issue>, error: string)

  /** validateData: the three loops, then the checks on the defaulted dict. */
  function Validate(p: Profile, data: Dict, parsers: Parsers): (r: Validation)
    requires Wf(data)
    ensures r.Returned? ==> Wf(r.data) && data.order <= r.data.order
  {
    var issues := CheckRequired(p.required, data, p.blank) + WarnUnrecognized(data.order, data, p);
    var filled := FillDefaults(p.defaults.order, p.defaults.vals, data, p.blank);
    match RunChecks(p.checks, filled, parsers)
    case Passed(checked) => Returned(filled, issues + checked)
    case Escaped(checked, e) => Raised(issues + checked, e)
  }

  /**
   * Per key, the message reports exactly the required keys that are absent,
   * the required keys that are blank, and the keys outside both tables whose
   * value is blank; the first two are errors, the last only a warning.
   */
  lemma ValidateReports(p: Profile, data: Dict, parsers: Parsers, k: string)
    requires Wf(data)
    ensures MissingKey(k) in Validate(p, data, parsers).issues <==> k in p.required && k !in data.vals
    ensures MissingValue(k) in Validate(p, data, parsers).issues <==>
      k in p.required && k in data.vals && Blank(p.blank, data.vals[k])
    ensures Unrecognized(k) in Validate(p, data, parsers).issues <==>
      k in data.vals && !Known(p, k) && Blank(p.blank, data.vals[k])
  {
    var required := CheckRequired(p.required, data, p.blank);
    var warnings := WarnUnrecognized(data.order, data, p);
    var filled := FillDefaults(p.defaults.order, p.defaults.vals, data, p.blank);
    var checked := RunChecks(p.checks, filled, parsers).issues;
    assert Validate(p, data, parsers).issues == required + warnings + checked;
    assert MissingKey(k) !in warnings && MissingValue(k) !in warnings;
    assert MissingKey(k) !in checked && MissingValue(k) !in checked && Unrecognized(k) !in checked;
    assert Unrecognized(k) !in required;
  }

  /** Validation adds at most one error per required key and per check. */
  lemma ValidateErrorBound(p: Profile, data: Dict, parsers: Parsers)
    requires Wf(data)
    ensures ErrorCount(Validate(p, data, parsers).issues) <= |p.required| + |p.checks|
  {
    var required := CheckRequired(p.required, data, p.blank);
    var warnings := WarnUnrecognized(data.order, data, p);
    var filled := FillDefaults(p.defaults.order, p.defaults.vals, data, p.blank);
    var checked := RunChecks(p.checks, filled, parsers).issues;
    Accumulate(required, warnings);
    Accumulate(required + warnings, checked);
  }

  /** When validation returns, every key holds the value `After` gives it. */
  lemma ValidateDefaults(p: Profile, data: Dict, parsers: Parsers)
    requires Wf(data)
    ensures Validate(p, data, parsers).Returned? ==>
      forall k :: k in Validate(p, data, parsers).data.vals <==> After(p, data, k).Some?
    ensures Validate(p, data, parsers).Returned? ==>
      forall k :: k in Validate(p, data, parsers).data.vals ==>
        Validate(p, data, parsers).data.vals[k] == After(p, data, k).value
  {
    assert forall k :: k in p.defaults.order <==> k in p.defaults.vals;
    FillDefaultsAll(p, data);
  }

  /**
   * Validation returns normally exactly when every checked key is present
   * once defaulting is over and no timestamp conversion raises anything but
   * a ValueError.
   */
  lemma ValidateReturns(p: Profile, data: Dict, parsers: Parsers)
    requires Wf(data)
    ensures Validate(p, data, parsers).Returned? <==>
      forall i :: 0 <= i < |p.checks| ==>
        && After(p, data, p.checks[i].key).Some?
        && !(p.checks[i].Timestamp? && parsers.stamp(After(p, data, p.checks[i].key).value).Raises?)
  {
    var filled := FillDefaults(p.defaults.order, p.defaults.vals, data, p.blank);
    assert forall k :: k in p.defaults.order <==> k in p.defaults.vals;
    FillDefaultsAll(p, data);
    assert forall i :: 0 <= i < |p.checks| ==>
      (Escapes(p.checks[i], filled, parsers) <==>
       !(After(p, data, p.checks[i].key).Some? &&
         !(p.checks[i].Timestamp? && parsers.stamp(After(p, data, p.checks[i].key).value).Raises?)));
  }

  /** The outcome a module reports: `fail_json` (failed) or `exit_json`, with its `msg` and `message`. */
  datatype Report = Report(failed: bool, changed: bool, msg: string, message: string)

  /**
   * run_module: validate, insert, and fail iff an exception escaped or the
   * accumulated error count is positive. The insertion is left abstract: it
   * never raises and returns the text of each failure it accumulated.
   */
  function RunModule(p: Profile, data: Dict, parsers: Parsers, insert: Dict -> seq<string>): (r: Report)
    requires Wf(data)
    ensures r.changed <==> !r.failed
    ensures !r.failed <==>
      && Validate(p, data, parsers).Returned?
      && ErrorCount(Validate(p, data, parsers).issues) == 0
      && insert(Validate(p, data, parsers).data) == []
    ensures Validate(p, data, parsers).Raised? ==>
      r.message == "ERROR: Could not insert data into database: " + Validate(p, data, parsers).error
    ensures r.failed ==> Render(Validate(p, data, parsers).issues) <= r.msg
  {
    match Validate(p, data, parsers)
    case Raised(issues, e) =>
      Report(true, false, Render(issues), "ERROR: Could not insert data into database: " + e)
    case Returned(filled, issues) =>
      var failures := seq(|insert(filled)|, i requires 0 <= i < |insert(filled)| => InsertFailed(insert(filled)[i]));
      var all := issues + failures;
      Accumulate(issues, failures);
      assert failures != [] ==> failures[0].IsError();
      if ErrorCount(all) > 0 then Report(true, false, Render(all), "ERROR: Could not insert data into database.")
      else Report(false, true, "", "SUCCESSFULLY inserted data into database")
  }
}

=== FILE: metrics_facts.dfy ===
/** Properties of the metric validator that relate several runs of it. */
module MetricsFacts {
  import opened Prelude
  import opened Dicts
  import opened Metrics

  /** Every default value counts as a value, so a defaulted key is never defaulted again. */
  ghost predicate DefaultsFilled(p: Profile) {
    forall k :: k in p.defaults.vals ==> !Blank(p.blank, p.defaults.vals[k])
  }

  /** No key is both required and defaulted. */
  ghost predicate TablesDisjoint(p: Profile) {
    forall k :: k in p.required ==> k !in p.defaults.vals
  }

  /** The defaulting loop leaves a dict alone when every listed key already holds a value. */
  lemma {:induction false} FillNoop(keys: seq<string>, table: map<string, string>, data: Dict, b: Blankness)
    requires Wf(data)
    requires forall i :: 0 <= i < |keys| ==> keys[i] in table
    requires forall i :: 0 <= i < |keys| ==> keys[i] in data.vals && !Blank(b, data.vals[keys[i]])
    ensures FillDefaults(keys, table, data, b) == data
  {
    if keys != [] {
      FillNoop(keys[1..], table, data, b);
    }
  }

  /** The defaulting loop is idempotent: its output already holds a value for every default key. */
  lemma FillDefaultsIdempotent(p: Profile, data: Dict)
    requires Wf(data) && DefaultsFilled(p)
    ensures
      var once := FillDefaults(p.defaults.order, p.defaults.vals, data, p.blank);
      FillDefaults(p.defaults.order, p.defaults.vals, once, p.blank) == once
  {
    var once := FillDefaults(p.defaults.order, p.defaults.vals, data, p.blank);
    DefaultsHeld(p, data);
    FillNoop(p.defaults.order, p.defaults.vals, once, p.blank);
  }

  /** After defaulting, every default key holds a value that is not blank. */
  lemma DefaultsHeld(p: Profile, data: Dict)
    requires Wf(data) && DefaultsFilled(p)
    ensures var once := FillDefaults(p.defaults.order, p.defaults.vals, data, p.blank);
      forall i :: 0 <= i < |p.defaults.order| ==>
        p.defaults.order[i] in p.defaults.vals && p.defaults.order[i] in once.vals && !Blank(p.blank, once.vals[p.defaults.order[i]])
  {
    var keys := p.defaults.order;
    forall i | 0 <= i < |keys|
      ensures keys[i] in p.defaults.vals
    {
      assert keys[i] in p.defaults.vals;
    }
    forall i | 0 <= i < |keys| {
      FilledIsAfter(p, data, keys[i]);
    }
  }

  /** The required-key loop only looks at the required keys' presence and values. */
  lemma {:induction false} RequiredSame(keys: seq<string>, d1: Dict, d2: Dict, b: Blankness)
    requires forall k :: k in keys ==> (k in d1.vals <==> k in d2.vals)
    requires forall k :: k in keys && k in d1.vals ==> d1.vals[k] == d2.vals[k]
    ensures CheckRequired(keys, d1, b) == CheckRequired(keys, d2, b)
  {
    if keys != [] {
      assert keys[0] in keys;
      RequiredSame(keys[1..], d1, d2, b);
    }
  }

  /** The warning loop only looks at the values of keys outside both tables. */
  lemma {:induction false} WarnSame(keys: seq<string>, d1: Dict, d2: Dict, p: Profile)
    requires forall k :: k in keys ==> k in d1.vals && k in d2.vals
    requires forall k :: k in keys && !Known(p, k) ==> d1.vals[k] == d2.vals[k]
    ensures WarnUnrecognized(keys, d1, p) == WarnUnrecognized(keys, d2, p)
  {
    if keys != [] {
      WarnSame(keys[1..], d1, d2, p);
    }
  }

  /** The warning loop over a split key list is the two loops one after the other. */
  lemma {:induction false} WarnSplit(a: seq<string>, b: seq<string>, data: Dict, p: Profile)
    requires forall k :: k in a + b ==> k in data.vals
    ensures WarnUnrecognized(a + b, data, p) == WarnUnrecognized(a, data, p) + WarnUnrecognized(b, data, p)
  {
    if a == [] {
      assert a + b == b;
    } else {
      assert (a + b)[1..] == a[1..] + b;
      WarnSplit(a[1..], b, data, p);
    }
  }

  /** Keys of the tables never draw a warning. */
  lemma {:induction false} WarnKnown(keys: seq<string>, data: Dict, p: Profile)
    requires forall k :: k in keys ==> k in data.vals && Known(p, k)
    ensures WarnUnrecognized(keys, data, p) == []
  {
    if keys != [] {
      WarnKnown(keys[1..], data, p);
    }
  }

  /** The keys the defaulting loop appends to the iteration order are default keys. */
  lemma AppendedKeysKnown(p: Profile, data: Dict)
    requires Wf(data)
    ensures
      var once := FillDefaults(p.defaults.order, p.defaults.vals, data, p.blank);
      forall k :: k in once.order[|data.order|..] ==> k in once.vals && Known(p, k)
  {
    var once := FillDefaults(p.defaults.order, p.defaults.vals, data, p.blank);
    assert forall i :: 0 <= i < |p.defaults.order| ==> p.defaults.order[i] in p.defaults.vals;
    forall k | k in once.order[|data.order|..]
      ensures k in once.vals && Known(p, k)
    {
      var i :| |data.order| <= i < |once.order| && once.order[i] == k;
      FillDefaultsAt(p.defaults.order, p.defaults.vals, data, p.blank, k);
    }
  }

  /** The defaulting loop keeps every key, and the value of every key it does not default. */
  lemma FillKeepsOthers(p: Profile, data: Dict)
    requires Wf(data)
    ensures
      var once := FillDefaults(p.defaults.order, p.defaults.vals, data, p.blank);
      forall k :: k in data.vals ==> k in once.vals && (k !in p.defaults.vals ==> once.vals[k] == data.vals[k])
  {
    FillDefaultsAll(p, data);
  }

  /** The warnings raised about a validated dict are those raised about its input. */
  lemma WarningsStable(p: Profile, data: Dict)
    requires Wf(data)
    ensures
      var once := FillDefaults(p.defaults.order, p.defaults.vals, data, p.blank);
      WarnUnrecognized(once.order, once, p) == WarnUnrecognized(data.order, data, p)
  {
    AppendedKeysKnown(p, data);
    FillKeepsOthers(p, data);
    WarnAfterAppend(p, data, FillDefaults(p.defaults.order, p.defaults.vals, data, p.blank));
  }

  /**
   * Appending keys of the tables to the iteration order, and changing only
   * the values of default keys, leaves the warnings as they were.
   */
  lemma WarnAfterAppend(p: Profile, data: Dict, once: Dict)
    requires Wf(data) && data.order <= once.order
    requires forall k :: k in once.order[|data.order|..] ==> k in once.vals && Known(p, k)
    requires forall k :: k in data.vals ==> k in once.vals && (k !in p.defaults.vals ==> once.vals[k] == data.vals[k])
    ensures WarnUnrecognized(once.order, once, p) == WarnUnrecognized(data.order, data, p)
  {
    var extra := once.order[|data.order|..];
    assert once.order == data.order + extra;
    WarnKnown(extra, once, p);
    WarnSplit(data.order, extra, once, p);
    WarnSame(data.order, once, data, p);
  }

  /**
   * Validating an already validated dict changes nothing: the same dict comes
   * back with the same errors and warnings.
   */
  lemma ValidateIdempotent(p: Profile, data: Dict, parsers: Parsers)
    requires Wf(data) && DefaultsFilled(p) && TablesDisjoint(p)
    ensures Validate(p, data, parsers).Returned? ==>
      Validate(p, Validate(p, data, parsers).data, parsers) == Validate(p, data, parsers)
  {
    var once := FillDefaults(p.defaults.order, p.defaults.vals, data, p.blank);
    FillDefaultsIdempotent(p, data);
    FillDefaultsAll(p, data);
    // The required keys are not defaulted, so their presence and values are untouched.
    RequiredSame(p.required, once, data, p.blank);
    WarningsStable(p, data);
  }

  /**
   * A numeric check on a default key whose default `float` accepts errs only
   * about a supplied, non-blank value that `float` rejects: an absent or
   * blank value is replaced by the default before the check runs.
   */
  lemma DefaultShieldsCheck(p: Profile, data: Dict, parsers: Parsers, k: string)
    requires Wf(data)
    requires k in p.defaults.vals && parsers.isFloat(p.defaults.vals[k])
    ensures NotNumeric(k) in Validate(p, data, parsers).issues ==>
      k in data.vals && !Blank(p.blank, data.vals[k]) && !parsers.isFloat(data.vals[k])
  {
    ValidateFormatReports(p, data, parsers, k, "");
  }

  /**
   * When check `i` is the first whose key is absent after defaulting (and no
   * earlier timestamp conversion raised), validation raises that key's
   * KeyError and the module fails with it.
   */
  lemma AbsentCheckedKeyFails(p: Profile, data: Dict, parsers: Parsers, insert: Dict -> seq<string>, i: nat)
    requires Wf(data)
    requires i < |p.checks| && After(p, data, p.checks[i].key).None?
    requires forall j :: 0 <= j < i ==>
      && After(p, data, p.checks[j].key).Some?
      && !(p.checks[j].Timestamp? && parsers.stamp(After(p, data, p.checks[j].key).value).Raises?)
    ensures Validate(p, data, parsers).Raised?
    ensures Validate(p, data, parsers).error == KeyErrorText(p.checks[i].key)
    ensures RunModule(p, data, parsers, insert) ==
      Report(true, false, Render(Validate(p, data, parsers).issues),
             "ERROR: Could not insert data into database: " + KeyErrorText(p.checks[i].key))
  {
    var filled := FillDefaults(p.defaults.order, p.defaults.vals, data, p.blank);
    FillDefaultsAll(p, data);
    ChecksFirstEscape(p.checks, filled, parsers);
    assert forall j :: 0 <= j < i ==> !Escapes(p.checks[j], filled, parsers);
    assert Escapes(p.checks[i], filled, parsers);
    var e: nat :| FirstEscape(p.checks, e, filled, parsers) &&
      RunChecks(p.checks, filled, parsers).error == EscapeText(p.checks[e], filled, parsers);
    assert e == i;
  }

  /**
   * Per key, the format errors of a validation: a numeric error names a
   * numeric check whose defaulted value `float` rejects, a timestamp error a
   * timestamp check whose defaulted value the conversion rejects with a
   * ValueError; and once validation returns, each such value does draw its error.
   */
  lemma ValidateFormatReports(p: Profile, data: Dict, parsers: Parsers, k: string, w: string)
    requires Wf(data)
    ensures NotNumeric(k) in Validate(p, data, parsers).issues ==>
      Numeric(k) in p.checks && After(p, data, k).Some? && !parsers.isFloat(After(p, data, k).value)
    ensures BadTimestamp(k, w) in Validate(p, data, parsers).issues ==>
      Timestamp(k, w) in p.checks && After(p, data, k).Some? && parsers.stamp(After(p, data, k).value).Rejected?
    ensures Validate(p, data, parsers).Returned? && Numeric(k) in p.checks ==>
      After(p, data, k).Some? &&
      (NotNumeric(k) in Validate(p, data, parsers).issues <==> !parsers.isFloat(After(p, data, k).value))
    ensures Validate(p, data, parsers).Returned? && Timestamp(k, w) in p.checks ==>
      After(p, data, k).Some? &&
      (BadTimestamp(k, w) in Validate(p, data, parsers).issues <==> parsers.stamp(After(p, data, k).value).Rejected?)
  {
    var filled := FillDefaults(p.defaults.order, p.defaults.vals, data, p.blank);
    FilledIsAfter(p, data, k);
    ValidateParts(p, data, parsers);
    EarlyIssuesNotFormat(p, data, k, w);
    ChecksReport(p.checks, filled, parsers, k, w);
  }

  /** The defaulted dict holds, at each key, what `After` says. */
  lemma FilledIsAfter(p: Profile, data: Dict, k: string)
    requires Wf(data)
    ensures var filled := FillDefaults(p.defaults.order, p.defaults.vals, data, p.blank);
      (k in filled.vals <==> After(p, data, k).Some?) && (k in filled.vals ==> filled.vals[k] == After(p, data, k).value)
  {
    assert forall i :: 0 <= i < |p.defaults.order| ==> p.defaults.order[i] in p.defaults.vals;
    FillDefaultsAt(p.defaults.order, p.defaults.vals, data, p.blank, k);
  }

  /**
   * A validation's issues are the first two loops' issues followed by the
   * checks', and it returns exactly when no check escapes.
   */
  lemma ValidateParts(p: Profile, data: Dict, parsers: Parsers)
    requires Wf(data)
    ensures var checked := RunChecks(p.checks, FillDefaults(p.defaults.order, p.defaults.vals, data, p.blank), parsers);
      && (Validate(p, data, parsers).Returned? <==> checked.Passed?)
      && Validate(p, data, parsers).issues == CheckRequired(p.required, data, p.blank) + WarnUnrecognized(data.order, data, p) + checked.issues
  {
  }

  /** No issue of the first two loops is a format error. */
  lemma EarlyIssuesNotFormat(p: Profile, data: Dict, k: string, w: string)
    requires Wf(data)
    ensures var early := CheckRequired(p.required, data, p.blank) + WarnUnrecognized(data.order, data, p);
      NotNumeric(k) !in early && BadTimestamp(k, w) !in early
  {
  }

  /**
   * With no required key listed twice, validation raises exactly one
   * missing-key or missing-value error for a required key that is absent or
   * blank, and none for any other key, whether it returns or raises.
   */
  lemma RequiredKeyOnce(p: Profile, data: Dict, parsers: Parsers, k: string)
    requires Wf(data) && Distinct(p.required)
    ensures KeyErrors(Validate(p, data, parsers).issues, k) ==
      if k in p.required && (k !in data.vals || Blank(p.blank, data.vals[k])) then 1 else 0
  {
    var req := CheckRequired(p.required, data, p.blank);
    var warned := WarnUnrecognized(data.order, data, p);
    var checked := RunChecks(p.checks, FillDefaults(p.defaults.order, p.defaults.vals, data, p.blank), parsers).issues;
    ValidateParts(p, data, parsers);
    RequiredOncePerKey(p.required, data, p.blank, k);
    KeyErrorsOthers(req, warned, checked, k);
  }

  /** A value that is not blank is never reported and comes out of validation unchanged. */
  lemma ValueKept(p: Profile, data: Dict, parsers: Parsers, k: string)
    requires Wf(data)
    requires k in data.vals && !Blank(p.blank, data.vals[k])
    ensures MissingValue(k) !in Validate(p, data, parsers).issues
    ensures Unrecognized(k) !in Validate(p, data, parsers).issues
    ensures Validate(p, data, parsers).Returned? ==>
      k in Validate(p, data, parsers).data.vals && Validate(p, data, parsers).data.vals[k] == data.vals[k]
  {
    ValidateReports(p, data, parsers, k);
    ValidateDefaults(p, data, parsers);
    assert After(p, data, k) == Some(data.vals[k]);
  }

  /**
   * A blank value is reported exactly when its key is required, and comes out
   * of validation as the default when its key has one.
   */
  lemma BlankValueDefaulted(p: Profile, data: Dict, parsers: Parsers, k: string)
    requires Wf(data) && TablesDisjoint(p)
    requires k in data.vals && Blank(p.blank, data.vals[k])
    ensures MissingValue(k) in Validate(p, data, parsers).issues <==> k in p.required
    ensures Validate(p, data, parsers).Returned? && k in p.defaults.vals ==>
      k in Validate(p, data, parsers).data.vals && Validate(p, data, parsers).data.vals[k] == p.defaults.vals[k]
  {
    ValidateReports(p, data, parsers, k);
    ValidateDefaults(p, data, parsers);
  }
}

=== FILE: multipart.dfy ===
/**
 * The request addattachment sends: a multipart/form-data body (RFC 7578)
 * with a fixed boundary, framed as section 5.1.1 of RFC 2046 prescribes,
 * and the three headers that go with it.
 */
module Multipart {
  import opened Prelude
  import opened Utf8
  import Tokens

  /** A `b'...'` literal: one byte per (ASCII) character. */
  function Bytes(s: string): (r: seq<byte>)
    ensures |r| == |s|
  {
    seq(|s|, i requires 0 <= i < |s| => s[i] as int % 256)
  }

  /** On ASCII text a bytes literal and `str.encode()` agree. */
  lemma BytesAreUtf8(s: string)
    requires IsAscii(s)
    ensures Bytes(s) == Encode(s)
  {
    EncodeAscii(s);
  }

  const BoundaryText: string := "wL36Yn8afVp8Ag7AmP8qZ0SA4n1v9T"
  const Boundary: seq<byte> := Bytes(BoundaryText)
  const CRLF: seq<byte> := [13, 10]
  const Dashes: seq<byte> := Bytes("--")

  /** `sep.join(parts)` on bytes. */
  function Join(sep: seq<byte>, parts: seq<seq<byte>>): seq<byte> {
    if |parts| == 0 then []
    else if |parts| == 1 then parts[0]
    else Join(sep, parts[..|parts| - 1]) + sep + parts[|parts| - 1]
  }

  lemma JoinStep(sep: seq<byte>, parts: seq<seq<byte>>, k: nat)
    requires 1 <= k < |parts|
    ensures Join(sep, parts[..k + 1]) == Join(sep, parts[..k]) + sep + parts[k]
  {
    assert parts[..k + 1][..k] == parts[..k];
  }

  /** Section 5.1.1 of RFC 2046: a boundary is 1 to 70 characters from `bchars` and does not end in a space. */
  predicate BChar(c: char) {
    || ('0' <= c <= '9') || ('a' <= c <= 'z') || ('A' <= c <= 'Z')
    || c == '\'' || c == '(' || c == ')' || c == '+' || c == '_' || c == ','
    || c == '-' || c == '.' || c == '/' || c == ':' || c == '=' || c == '?' || c == ' '
  }

  predicate ValidBoundary(b: string) {
    && 1 <= |b| <= 70
    && (forall i :: 0 <= i < |b| ==> BChar(b[i]))
    && b[|b| - 1] != ' '
  }

  lemma BoundaryIsValid()
    ensures ValidBoundary(BoundaryText) && IsAscii(BoundaryText)
  {
  }

  const EntryDisposition: string := "Content-Disposition: form-data; name=\"entry\";"
  const FileDisposition: string := "Content-Disposition: form-data; name=\"attach-z2AF Work Log01\"; filename="

  /** The list the body joins, line by line as addattachment appends them. */
  function Lines(json: seq<byte>, tail: string, file: seq<byte>): (r: seq<seq<byte>>)
    ensures |r| == 12
    ensures r[0] == r[5] == Dashes + Boundary && r[10] == Dashes + Boundary + Dashes
    ensures r[4] == json && r[9] == file && r[3] == r[8] == r[11] == []
  {
    [ Dashes + Boundary,
      Bytes(EntryDisposition),
      Bytes("Content-Type: application/json"),
      [],
      json,
      Dashes + Boundary,
      Bytes(FileDisposition) + Encode(tail),
      Bytes("Content-Type: ") + Bytes("application/octet-stream"),
      [],
      file,
      Dashes + Boundary + Dashes,
      [] ]
  }

  /** `b'\r\n'.join(dataList)`: the JSON entry and the file's bytes, framed by the boundary. */
  function Body(json: seq<byte>, tail: string, file: seq<byte>): (b: seq<byte>)
    ensures b == EntryHead() + json + FileHead(tail) + file + Close()
  {
    var L := Lines(json, tail, file);
    JoinTwelve(CRLF, L);
    assert L[3] == [] && L[8] == [] && L[11] == [];
    Regroup(CRLF, L[0], L[1], L[2], L[4], L[5], L[6], L[7], L[9], L[10]);
    Join(CRLF, L)
  }

  /** Everything before the JSON entry. */
  function EntryHead(): seq<byte> {
    (Dashes + Boundary) + CRLF + Bytes(EntryDisposition) + CRLF + Bytes("Content-Type: application/json") + CRLF + CRLF
  }

  /** Everything between the JSON entry and the file's bytes. */
  function FileHead(tail: string): seq<byte> {
    CRLF + (Dashes + Boundary) + CRLF + (Bytes(FileDisposition) + Encode(tail)) + CRLF
      + (Bytes("Content-Type: ") + Bytes("application/octet-stream")) + CRLF + CRLF
  }

  /** The close delimiter and the empty last line. */
  function Close(): seq<byte> {
    CRLF + (Dashes + Boundary + Dashes) + CRLF
  }

  lemma JoinTwelve(sep: seq<byte>, a: seq<seq<byte>>)
    requires |a| == 12
    ensures Join(sep, a) == a[0] + sep + a[1] + sep + a[2] + sep + a[3] + sep + a[4] + sep + a[5] + sep
      + a[6] + sep + a[7] + sep + a[8] + sep + a[9] + sep + a[10] + sep + a[11]
  {
    assert a[..1] == [a[0]];
    JoinStep(sep, a, 1);
    JoinStep(sep, a, 2);
    JoinStep(sep, a, 3);
    JoinStep(sep, a, 4);
    JoinStep(sep, a, 5);
    JoinStep(sep, a, 6);
    JoinStep(sep, a, 7);
    JoinStep(sep, a, 8);
    JoinStep(sep, a, 9);
    JoinStep(sep, a, 10);
    JoinStep(sep, a, 11);
    assert a[..12] == a;
  }

  /** Regrouping the joined lines around the two payloads. */
  lemma Regroup(s: seq<byte>, x0: seq<byte>, x1: seq<byte>, x2: seq<byte>, x4: seq<byte>, x5: seq<byte>,
                x6: seq<byte>, x7: seq<byte>, x9: seq<byte>, x10: seq<byte>)
    ensures x0 + s + x1 + s + x2 + s + [] + s + x4 + s + x5 + s + x6 + s + x7 + s + [] + s + x9 + s + x10 + s + []
      == (x0 + s + x1 + s + x2 + s + s) + x4 + (s + x5 + s + x6 + s + x7 + s + s) + x9 + (s + x10 + s)
  {
  }

  /** Where the pieces of a five-piece concatenation sit. */
  lemma Pieces(a: seq<byte>, b: seq<byte>, c: seq<byte>, d: seq<byte>, e: seq<byte>)
    ensures (a + b + c + d + e)[..|a|] == a
    ensures (a + b + c + d + e)[|a|..|a| + |b|] == b
    ensures (a + b + c + d + e)[|a| + |b| + |c|..][..|d|] == d
    ensures (a + b + c + d + e)[|a + b + c + d + e| - |e|..] == e
  {
  }

  /**
   * The body's layout: the entry part's head, the JSON verbatim, the file
   * part's head, the file verbatim, the close delimiter. So it begins with
   * `--boundary` CRLF, carries the entry before the file, and ends with
   * `--boundary--` CRLF.
   */
  lemma BodyLayout(json: seq<byte>, tail: string, file: seq<byte>)
    ensures Body(json, tail, file) == EntryHead() + json + FileHead(tail) + file + Close()
    ensures Dashes + Boundary + CRLF <= Body(json, tail, file)
    ensures Body(json, tail, file)[|EntryHead()|..|EntryHead()| + |json|] == json
    ensures Body(json, tail, file)[|EntryHead()| + |json| + |FileHead(tail)|..][..|file|] == file
    ensures Body(json, tail, file)[|Body(json, tail, file)| - |Close()|..] == Close()
  {
    var h, f, c := EntryHead(), FileHead(tail), Close();
    Pieces(h, json, f, file, c);
    EntryHeadOpens();
    PrefixTransitive(Dashes + Boundary + CRLF, h, Body(json, tail, file));
  }

  /** The entry part's head starts with the opening dash-boundary line. */
  lemma EntryHeadOpens()
    ensures Dashes + Boundary + CRLF <= EntryHead()
  {
    var open := Dashes + Boundary + CRLF;
    var rest := Bytes(EntryDisposition) + CRLF + Bytes("Content-Type: application/json") + CRLF + CRLF;
    assert EntryHead() == open + rest;
  }

  lemma PrefixTransitive(a: seq<byte>, b: seq<byte>, c: seq<byte>)
    requires a <= b && b <= c
    ensures a <= c
  {
    assert c[..|a|] == c[..|b|][..|a|];
  }

  /** A body part as section 5.1.1 of RFC 2046 defines it: header lines each ended by CRLF, a blank line, the content. */
  datatype Part = Part(headers: seq<seq<byte>>, content: seq<byte>)

  function HeaderBlock(headers: seq<seq<byte>>): seq<byte> {
    if headers == [] then [] else headers[0] + CRLF + HeaderBlock(headers[1..])
  }

  function PartBytes(p: Part): seq<byte> {
    HeaderBlock(p.headers) + CRLF + p.content
  }

  /** `delimiter := CRLF dash-boundary`. */
  function Delimiter(b: seq<byte>): seq<byte> {
    CRLF + Dashes + b
  }

  /** `*encapsulation`, each `delimiter CRLF body-part`. */
  function Encapsulations(b: seq<byte>, parts: seq<Part>): seq<byte> {
    if parts == [] then [] else Delimiter(b) + CRLF + PartBytes(parts[0]) + Encapsulations(b, parts[1..])
  }

  /**
   * `multipart-body` of RFC 2046 with no preamble and no transport padding:
   * `dash-boundary CRLF body-part *encapsulation close-delimiter`, then a
   * CRLF before the (empty) epilogue.
   */
  function MultipartBody(b: seq<byte>, parts: seq<Part>): seq<byte>
    requires parts != []
  {
    Dashes + b + CRLF + PartBytes(parts[0]) + Encapsulations(b, parts[1..]) + Delimiter(b) + Dashes + CRLF
  }

  /** The `entry` field of RFC 7578: the JSON-encoded record. */
  function EntryPart(json: seq<byte>): Part {
    Part([Bytes(EntryDisposition), Bytes("Content-Type: application/json")], json)
  }

  /** The file field, named after the attachment field it fills, with the file name as its `filename`. */
  function FilePart(tail: string, file: seq<byte>): Part {
    Part([Bytes(FileDisposition) + Encode(tail), Bytes("Content-Type: ") + Bytes("application/octet-stream")], file)
  }

  lemma HeaderPair(hs: seq<seq<byte>>)
    requires |hs| == 2
    ensures HeaderBlock(hs) == hs[0] + CRLF + hs[1] + CRLF
  {
    assert hs[1..] == [hs[1]] && hs[1..][1..] == [];
    assert HeaderBlock(hs[1..]) == hs[1] + CRLF + [];
  }

  /** The joined line list is exactly the two-part multipart body of RFC 2046, entry first. */
  lemma BodyIsMultipart(json: seq<byte>, tail: string, file: seq<byte>)
    ensures Body(json, tail, file) == MultipartBody(Boundary, [EntryPart(json), FilePart(tail, file)])
  {
    var e := EntryPart(json);
    var f := FilePart(tail, file);
    HeaderPair(e.headers);
    HeaderPair(f.headers);
    assert [e, f][1..] == [f];
    assert [f][1..] == [];
    assert Encapsulations(Boundary, [f]) == Delimiter(Boundary) + CRLF + PartBytes(f) + [];
    RegroupParts(CRLF, Dashes, Boundary, e.headers[0], e.headers[1], json, f.headers[0], f.headers[1], file);
  }

  /** Reading the RFC 2046 framing of two parts as the joined lines. */
  lemma RegroupParts(s: seq<byte>, d: seq<byte>, b: seq<byte>, h1: seq<byte>, h2: seq<byte>, j: seq<byte>,
                     g1: seq<byte>, g2: seq<byte>, file: seq<byte>)
    ensures d + b + s + ((h1 + s + h2 + s) + s + j) + ((s + d + b) + s + ((g1 + s + g2 + s) + s + file) + [])
        + (s + d + b) + d + s
      == (d + b) + s + h1 + s + h2 + s + s + j + (s + (d + b) + s + g1 + s + g2 + s + s) + file + (s + (d + b + d) + s)
  {
  }

  /** The `Content-type` value: the media type and the boundary the body uses. */
  const ContentTypePrefix: string := "multipart/form-data; boundary="

  function ContentType(): (v: seq<byte>)
    ensures |v| == |ContentTypePrefix| + |Boundary|
    ensures v[|Bytes(ContentTypePrefix)|..] == Boundary
  {
    Bytes(ContentTypePrefix) + Boundary
  }

  /** The request headers: the token's `AR-JWT` header, the accepted encodings, the content type. */
  function RequestHeaders(token: string): (r: seq<(seq<byte>, seq<byte>)>)
    ensures |r| == 3
    ensures r[0].1 == Encode(Tokens.AuthHeader(token))
    ensures r[2].1 == Bytes(ContentTypePrefix) + Boundary
  {
    EncodeConcat(Tokens.AuthScheme, token);
    BytesAreUtf8(Tokens.AuthScheme);
    [ (Bytes("Authorization"), Bytes(Tokens.AuthScheme) + Encode(token)),
      (Bytes("Accept-Encoding"), Bytes("gzip, deflate, br")),
      (Bytes("Content-type"), ContentType()) ]
  }

  /**
   * The headers agree with the body: the `Content-type` boundary parameter is
   * the boundary that opens the body, and the `Authorization` value is the
   * encoding of the same `AR-JWT` header the JSON requests send.
   */
  lemma HeadersMatchBody(token: string, json: seq<byte>, tail: string, file: seq<byte>)
    ensures Dashes + RequestHeaders(token)[2].1[|Bytes(ContentTypePrefix)|..] + CRLF <= Body(json, tail, file)
    ensures RequestHeaders(token)[0].1 == Encode(Tokens.AuthHeader(token))
  {
    BodyLayout(json, tail, file);
  }

  /** A file name free of CR and LF keeps the file part's disposition on one header line. */
  lemma DispositionOneLine(tail: string)
    requires '\r' !in tail && '\n' !in tail
    ensures 13 !in Encode(tail) && 10 !in Encode(tail)
  {
    if 13 in Encode(tail) {
      AsciiByteFromChar(tail, 13);
    }
    if 10 in Encode(tail) {
      AsciiByteFromChar(tail, 10);
    }
  }
}

=== FILE: prelude.dfy ===
/** Small shared vocabulary: optional values, bytes and Python's notion of whitespace. */
module Prelude {

  datatype Option<+T> = None | Some(value: T)

  /** A value or the text of the exception that replaced it. */
  datatype Result<+T> = Ok(value: T) | Err(error: string)

  type byte = x: int | 0 <= x < 256

  /** Characters Python's `str.isspace` accepts; `str.strip()` with no argument removes exactly these. */
  predicate IsSpace(c: char) {
    || c == ' ' || c == '\t' || c == '\n' || c == '\r'
    || c == '\U{0B}' || c == '\U{0C}'
    || ('\U{1C}' <= c <= '\U{1F}')
    || c == '\U{85}' || c == '\U{A0}' || c == '\U{1680}'
    || ('\U{2000}' <= c <= '\U{200A}')
    || c == '\U{2028}' || c == '\U{2029}' || c == '\U{202F}' || c == '\U{205F}' || c == '\U{3000}'
  }

  /** True iff `s.strip()` is the empty string. */
  predicate AllSpace(s: string) {
    s == [] || (IsSpace(s[0]) && AllSpace(s[1..]))
  }

  predicate Distinct<T(==)>(xs: seq<T>) {
    forall i, j :: 0 <= i < j < |xs| ==> xs[i] != xs[j]
  }

  /** Dropping the head of a list without repeats leaves one without repeats that lacks the head. */
  lemma DistinctTail<T>(xs: seq<T>)
    requires Distinct(xs) && xs != []
    ensures Distinct(xs[1..]) && xs[0] !in xs[1..]
  {
    forall x, y | 0 <= x < y < |xs[1..]| ensures xs[1..][x] != xs[1..][y] {
      assert xs[1..][x] == xs[x + 1] && xs[1..][y] == xs[y + 1];
    }
    forall y | 0 <= y < |xs[1..]| ensures xs[1..][y] != xs[0] {
      assert xs[1..][y] == xs[y + 1];
    }
  }
}

=== FILE: remedy_calls.dfy ===
/**
 * One attempt of each remedy.py request function: create, getentryid,
 * modify and addattachment. The network, the token file and the JSON
 * library are inputs; each attempt yields what the function returns or
 * raises, the text it appends to CONST_MESSAGE, and the requests and file
 * reads it performs, in order.
 */
module RemedyCalls {
  import opened Prelude
  import opened Dicts
  import opened Text
  import opened Tokens
  import opened Attachment
  import Multipart
  import Utf8

  const Api: string := "/api/arsys/v1/entry"
  const CreateForm: string := "/WOI:WorkOrderInterface_Create"
  const WorkOrderForm: string := "/WOI:WorkOrder"
  const WorkInfoForm: string := "/WOI:WorkInfo"

  /**
   * What a local name referenced before assignment raises: every except
   * clause below ends in `response.status_code = 400` without `response`
   * being bound, and getentryid does the same.
   */
  const UnboundText: string := "local variable 'response' referenced before assignment"

  /** What the HTTP library gave back for one request: a status and body, or the text of the exception it raised. */
  datatype Reply = Answer(status: int, text: string) | Fault(cause: string)

  /** Opening and reading the attachment: its bytes, or the text of the error. */
  datatype FileRead = Content(data: seq<byte>) | ReadFailed(cause: string)

  /**
   * The `data` parameter: the object under "values" when the record has
   * one, and the rest of the record, which the code never looks into.
   */
  datatype Entry = Entry(values: Option<Dict>, others: Dict)

  ghost predicate EntryWf(e: Entry) {
    e.values.Some? ==> Wf(e.values.value)
  }

  /**
   * The JSON library as the code uses it: `json.dumps(data)`, and the two
   * lookups into decoded replies, each giving the value or the text of the
   * exception (a decode error, KeyError, IndexError) it raised.
   */
  datatype Json = Json(
    dumps: Entry -> string,
    requestId: string -> Result<string>,    // json.loads(t)["entries"][0]["values"]["Request ID"]
    workOrderId: string -> Result<string>)  // json.loads(t)["values"]["WorkOrder_ID"]

  /** A request or file read, as issued. */
  datatype Effect =
    | Get(url: string, params: seq<(string, string)>, auth: string)
    | Post(url: string, params: seq<(string, string)>, auth: string, body: string)
    | Put(url: string, auth: string, entry: Entry)
    | ReadFile(path: string)
    | PostMultipart(host: string, path: string, token: string, json: seq<byte>, tail: string, file: seq<byte>)

  /**
   * What goes on the wire for an attachment POST: the three headers, the
   * token's among them, and the multipart body of the JSON entry and the file.
   */
  function WireHeaders(e: Effect): seq<(seq<byte>, seq<byte>)>
    requires e.PostMultipart?
  {
    Multipart.RequestHeaders(e.token)
  }

  /** The value of the `Authorization` header, the first of the three. */
  function WireAuth(e: Effect): seq<byte>
    requires e.PostMultipart?
  {
    WireHeaders(e)[0].1
  }

  function WireBody(e: Effect): seq<byte>
    requires e.PostMultipart?
  {
    Multipart.Body(e.json, e.tail, e.file)
  }

  predicate IsPut(e: Effect) { e.Put? }
  predicate TouchesFile(e: Effect) { e.ReadFile? || e.PostMultipart? }

  /** One call: its result, the text it appended to CONST_MESSAGE, and its effects. */
  datatype Call<T> = Call(result: T, note: string, effects: seq<Effect>)

  /** What create and modify hand back to run_module: a `requests` response, or an exception. */
  datatype Response = Response(status: int, text: string) | Raised(error: string)

  /** The `q` parameter of the lookup: `'Work Order ID'="<woid>"`. */
  function LookupQuery(woid: string): (q: string)
    ensures |q| == |woid| + 18
    ensures q[..17] == "'Work Order ID'=\"" && q[17..|q| - 1] == woid && q[|q| - 1] == '"'
  {
    "'Work Order ID'" + "=" + "\"" + woid + "\""
  }

  /** Different work orders are never looked up with the same query. */
  lemma LookupQueryInjective(w1: string, w2: string)
    ensures LookupQuery(w1) == LookupQuery(w2) ==> w1 == w2
  {
  }

  /**
   * create: the record as JSON with every backslash removed, POSTed with the
   * token's header; a failure to read the token or to send surfaces as the
   * unbound-name error after its text was appended to CONST_MESSAGE.
   */
  function Create(apibase: string, entry: Entry, json: Json, token: TokenFile, reply: Reply): (c: Call<Response>)
    ensures c.result.Raised? ==> c.result.error == UnboundText
    ensures c.result.Response? <==> token.Readable? && reply.Answer?
    ensures c.result.Response? ==> c.result == Response(reply.status, reply.text) && c.note == ""
    ensures |c.effects| == (if token.Readable? then 1 else 0)
    ensures token.Readable? ==>
      c.effects[0].Post? && '\\' !in c.effects[0].body && c.effects[0].auth == AuthHeader(RemoveNewlines(token.content))
  {
    match token
    case Unreadable(cause) => Call(Raised(UnboundText), cause, [])
    case Readable(t) =>
      var body := RemoveAll(json.dumps(entry), "\\");
      RemoveChar(json.dumps(entry), '\\');
      var effects := [Post(apibase + Api + CreateForm, [("fields", "values(WorkOrder_ID)")], AuthHeader(RemoveNewlines(t)), body)];
      match reply
      case Fault(cause) => Call(Raised(UnboundText), cause, effects)
      case Answer(status, text) => Call(Response(status, text), "", effects)
  }

  /** getentryid's three ways out: the 200 response, the response with its status overwritten to 400, or an exception. */
  datatype Lookup = Found(body: string) | Rejected(text: string) | LookupRaised(error: string)

  /** The status_code run_module or the callers see on a lookup response. */
  function LookupStatus(l: Lookup): int
    requires !l.LookupRaised?
  {
    if l.Found? then 200 else 400
  }

  /**
   * getentryid: GET the work order form with the lookup query. Its except
   * clause appends nothing to CONST_MESSAGE before failing on the unbound name.
   */
  function GetEntryId(apibase: string, woid: string, token: TokenFile, reply: Reply): (c: Call<Lookup>)
    ensures c.note == ""
    ensures c.result.LookupRaised? <==> token.Unreadable? || reply.Fault?
    ensures c.result.LookupRaised? ==> c.result.error == UnboundText
    ensures c.result.Found? <==> token.Readable? && reply.Answer? && reply.status == 200
    ensures c.result.Found? ==> c.result.body == reply.text
    ensures c.result.Rejected? ==> c.result.text == reply.text && reply.status != 200
    ensures forall i :: 0 <= i < |c.effects| ==> c.effects[i].Get?
    ensures |c.effects| <= 1
    ensures token.Readable? ==>
      c.effects == [Get(apibase + Api + WorkOrderForm, [("q", LookupQuery(woid))], AuthHeader(RemoveNewlines(token.content)))]
  {
    match token
    case Unreadable(_) => Call(LookupRaised(UnboundText), "", [])
    case Readable(t) =>
      var effects := [Get(apibase + Api + WorkOrderForm, [("q", LookupQuery(woid))], AuthHeader(RemoveNewlines(t)))];
      match reply
      case Fault(_) => Call(LookupRaised(UnboundText), "", effects)
      case Answer(status, text) => Call(if status == 200 then Found(text) else Rejected(text), "", effects)
  }

  /** Every status getentryid hands back is 200 or 400, and it is 400 exactly for a non-200 answer. */
  lemma GetEntryIdStatus(apibase: string, woid: string, token: TokenFile, reply: Reply)
    requires token.Readable? && reply.Answer?
    ensures LookupStatus(GetEntryId(apibase, woid, token, reply).result) == (if reply.status == 200 then 200 else 400)
  {
  }

  /** The inputs of one modify attempt: the lookup's token read and answer, then the PUT's. */
  datatype ModifyEnv = ModifyEnv(lookupToken: TokenFile, lookup: Reply, token: TokenFile, put: Reply)

  /**
   * modify: look the entry up, then PUT the record to it. A rejected lookup
   * is handed back as it is; an exception on the way (in the lookup, the
   * reply's decoding, the token read or the PUT) appends its text and
   * surfaces as the unbound-name error.
   */
  function Modify(apibase: string, woid: string, entry: Entry, json: Json, env: ModifyEnv): (c: Call<Response>)
    ensures c.result.Raised? ==> c.result.error == UnboundText
  {
    var look := GetEntryId(apibase, woid, env.lookupToken, env.lookup);
    match look.result
    case LookupRaised(e) => Call(Raised(UnboundText), e, look.effects)
    case Rejected(text) => Call(Response(400, text), "", look.effects)
    case Found(body) =>
      match json.requestId(body)
      case Err(e) => Call(Raised(UnboundText), e, look.effects)
      case Ok(id) =>
        match env.token
        case Unreadable(cause) => Call(Raised(UnboundText), cause, look.effects)
        case Readable(t) =>
          var effects := look.effects + [Put(apibase + Api + WorkOrderForm + "/" + id, AuthHeader(RemoveNewlines(t)), entry)];
          match env.put
          case Fault(cause) => Call(Raised(UnboundText), cause, effects)
          case Answer(status, text) => Call(Response(status, text), "", effects)
  }

  /**
   * The PUT depends on the lookup: none is issued unless the lookup answered
   * 200, and the one issued goes to the entry id decoded from that answer.
   */
  lemma ModifyGuard(apibase: string, woid: string, entry: Entry, json: Json, env: ModifyEnv)
    ensures var c := Modify(apibase, woid, entry, json, env);
      (exists i :: 0 <= i < |c.effects| && IsPut(c.effects[i])) ==>
        && env.lookupToken.Readable? && env.lookup.Answer? && env.lookup.status == 200
        && json.requestId(env.lookup.text).Ok?
        && c.effects[|c.effects| - 1] ==
           Put(apibase + Api + WorkOrderForm + "/" + json.requestId(env.lookup.text).value,
               AuthHeader(RemoveNewlines(env.token.content)), entry)
    ensures var c := Modify(apibase, woid, entry, json, env);
      !(env.lookupToken.Readable? && env.lookup.Answer? && env.lookup.status == 200) ==>
        forall i :: 0 <= i < |c.effects| ==> c.effects[i].Get?
  {
  }

  /** A rejected lookup reaches run_module as a 400 response carrying the lookup's text. */
  lemma ModifyRejected(apibase: string, woid: string, entry: Entry, json: Json, env: ModifyEnv)
    requires env.lookupToken.Readable? && env.lookup.Answer? && env.lookup.status != 200
    ensures Modify(apibase, woid, entry, json, env) == Call(Response(400, env.lookup.text), "", GetEntryId(apibase, woid, env.lookupToken, env.lookup).effects)
  {
  }

  /**
   * What addattachment hands back: an `http.client` response, or something
   * without a `.status` (the int 400 or the lookup's response). The
   * response's body is what a later `read()` returns, or `None` when that
   * read raises (a truncated body, a reset connection, a timeout).
   */
  datatype Attached = HttpResponse(status: int, body: Option<string>) | NoStatus

  /**
   * The inputs of one attachment attempt: the lookup's token read and
   * answer, the text of the InvalidURL the connection raises when it refuses
   * the host (it quotes the host with `repr`), the token read, the file
   * read, the POST's answer, and whether reading that answer's body returns
   * its text or raises.
   */
  datatype AttachEnv = AttachEnv(lookupToken: TokenFile, lookup: Reply, refusedHost: string, token: TokenFile, file: FileRead, post: Reply, bodyReads: bool)

  /** The text `str(KeyError('values'))`. */
  const MissingValuesText: string := "'values'"

  /**
   * addattachment: look the entry up, open the connection to the host,
   * inject the work order id and the file name into the record (in place:
   * the updated record is returned too), then upload the file.
   */
  function Attach(apibase: string, woid: string, entry: Entry, filename: string, json: Json, env: AttachEnv): (r: (Call<Attached>, Entry))
    requires EntryWf(entry)
    ensures EntryWf(r.1)
    ensures r.1 == entry || (entry.values.Some? && r.1 == Injected(entry, woid, filename))
  {
    var look := GetEntryId(apibase, woid, env.lookupToken, env.lookup);
    match look.result
    case LookupRaised(e) => (Call(NoStatus, e, look.effects), entry)
    case Rejected(_) => (Call(NoStatus, "", look.effects), entry)
    case Found(body) =>
      match json.requestId(body)
      case Err(e) => (Call(NoStatus, e, look.effects), entry)
      case Ok(_) =>
        if !HostAccepted(Host(apibase)) then (Call(NoStatus, env.refusedHost, look.effects), entry)
        else match entry.values
        case None => (Call(NoStatus, MissingValuesText, look.effects), entry)
        case Some(values) =>
          var injected := Injected(entry, woid, filename);
          (Upload(apibase, filename, injected, json, env, look.effects), injected)
  }

  /** The record once the three fields are assigned into its `values`. */
  function Injected(entry: Entry, woid: string, filename: string): (r: Entry)
    requires EntryWf(entry) && entry.values.Some?
    ensures EntryWf(r) && r.values.Some? && r.others == entry.others
  {
    Entry(Some(Inject(entry.values.value, woid, Basename(filename))), entry.others)
  }

  /** The rest of addattachment once the record is injected: read the token, read the file, POST the multipart body. */
  function Upload(apibase: string, filename: string, injected: Entry, json: Json, env: AttachEnv, before: seq<Effect>): (r: Call<Attached>)
    ensures before <= r.effects
    ensures r.result.HttpResponse? <==> env.token.Readable? && env.file.Content? && env.post.Answer?
    ensures r.result.HttpResponse? ==> r.result.status == env.post.status
    ensures r.result.HttpResponse? ==> (r.result.body.Some? <==> env.bodyReads) && (env.bodyReads ==> r.result.body.value == env.post.text)
  {
    match env.token
    case Unreadable(cause) => Call(NoStatus, cause, before)
    case Readable(t) =>
      var read := before + [ReadFile(filename)];
      match env.file
      case ReadFailed(cause) => Call(NoStatus, cause, read)
      case Content(bytes) =>
        var post := PostMultipart(Host(apibase), Api + WorkInfoForm, RemoveNewlines(t), Utf8.Encode(json.dumps(injected)), Basename(filename), bytes);
        match env.post
        case Fault(cause) => Call(NoStatus, cause, read + [post])
        case Answer(status, text) => Call(HttpResponse(status, if env.bodyReads then Some(text) else None), "", read + [post])
  }

  /**
   * Neither the file nor the attachment endpoint is touched unless the
   * lookup answered 200; and the record is only changed after that.
   */
  lemma AttachGuard(apibase: string, woid: string, entry: Entry, filename: string, json: Json, env: AttachEnv)
    requires EntryWf(entry)
    requires !(env.lookupToken.Readable? && env.lookup.Answer? && env.lookup.status == 200)
    ensures var r := Attach(apibase, woid, entry, filename, json, env);
      && r.0.result == NoStatus
      && (forall i :: 0 <= i < |r.0.effects| ==> !TouchesFile(r.0.effects[i]))
      && r.1 == entry
  {
  }

  /**
   * A host the connection refuses ends the attempt after the lookup: the
   * InvalidURL's text is the note, the record is not injected, and neither
   * the file nor the attachment endpoint is touched.
   */
  lemma AttachRefusedHost(apibase: string, woid: string, entry: Entry, filename: string, json: Json, env: AttachEnv)
    requires EntryWf(entry)
    requires env.lookupToken.Readable? && env.lookup.Answer? && env.lookup.status == 200
    requires json.requestId(env.lookup.text).Ok? && !HostAccepted(Host(apibase))
    ensures var r := Attach(apibase, woid, entry, filename, json, env);
      && r.0 == Call(NoStatus, env.refusedHost, GetEntryId(apibase, woid, env.lookupToken, env.lookup).effects)
      && (forall i :: 0 <= i < |r.0.effects| ==> !TouchesFile(r.0.effects[i]))
      && r.1 == entry
  {
  }

  /** An upload's POST, when it goes out, follows the file read and carries the record, the file and the token. */
  lemma UploadPayload(apibase: string, filename: string, injected: Entry, json: Json, env: AttachEnv, before: seq<Effect>)
    ensures var r := Upload(apibase, filename, injected, json, env, before);
      |r.effects| > |before| && r.effects[|r.effects| - 1].PostMultipart? ==>
        && env.token.Readable? && env.file.Content?
        && r.effects == before + [ReadFile(filename),
             PostMultipart(Host(apibase), Api + WorkInfoForm, RemoveNewlines(env.token.content),
                           Utf8.Encode(json.dumps(injected)), Basename(filename), env.file.data)]
  {
  }

  /**
   * When the POST goes out, its body is the multipart body of the injected
   * record's JSON and the file's bytes, under the file's base name, and its
   * headers carry the token read for it.
   */
  lemma AttachPayload(apibase: string, woid: string, entry: Entry, filename: string, json: Json, env: AttachEnv)
    requires EntryWf(entry)
    ensures var r := Attach(apibase, woid, entry, filename, json, env);
      r.0.effects != [] && r.0.effects[|r.0.effects| - 1].PostMultipart? ==>
        && HostAccepted(Host(apibase)) && entry.values.Some? && env.token.Readable? && env.file.Content?
        && r.1 == Entry(Some(Inject(entry.values.value, woid, Basename(filename))), entry.others)
        && r.0.effects[|r.0.effects| - 1] ==
           PostMultipart(Host(apibase), Api + WorkInfoForm, RemoveNewlines(env.token.content),
                         Utf8.Encode(json.dumps(r.1)), Basename(filename), env.file.data)
        && r.0.effects[|r.0.effects| - 2] == ReadFile(filename)
  {
    AttachSplits(apibase, woid, entry, filename, json, env);
    var look := GetEntryId(apibase, woid, env.lookupToken, env.lookup);
    if look.result.Found? && json.requestId(look.result.body).Ok? && HostAccepted(Host(apibase)) && entry.values.Some? {
      UploadPayload(apibase, filename, Injected(entry, woid, filename), json, env, look.effects);
    }
  }

  /** An attempt either stops after the lookup, record untouched, or uploads the injected record. */
  lemma AttachSplits(apibase: string, woid: string, entry: Entry, filename: string, json: Json, env: AttachEnv)
    requires EntryWf(entry)
    ensures var r := Attach(apibase, woid, entry, filename, json, env);
      var look := GetEntryId(apibase, woid, env.lookupToken, env.lookup);
      if look.result.Found? && json.requestId(look.result.body).Ok? && HostAccepted(Host(apibase)) && entry.values.Some?
      then r == (Upload(apibase, filename, Injected(entry, woid, filename), json, env, look.effects), Injected(entry, woid, filename))
      else r.0.effects == look.effects && r.1 == entry
  {
  }

  /**
   * An attachment POST on the wire: the two-part multipart/form-data body of
   * RFC 2046 and RFC 7578, the JSON entry first and the file second, under an
   * `Authorization` header that is the encoded `AR-JWT` header of its token,
   * free of CR and LF bytes when the token is free of those characters.
   */
  lemma WireIsMultipart(e: Effect)
    requires e.PostMultipart?
    ensures WireBody(e) == Multipart.MultipartBody(Multipart.Boundary, [Multipart.EntryPart(e.json), Multipart.FilePart(e.tail, e.file)])
    ensures WireAuth(e) == Utf8.Encode(AuthHeader(e.token))
    ensures '\r' !in e.token && '\n' !in e.token ==> 13 !in WireAuth(e) && 10 !in WireAuth(e)
  {
    Multipart.BodyIsMultipart(e.json, e.tail, e.file);
    Multipart.HeadersMatchBody(e.token, e.json, e.tail, e.file);
    var auth := AuthHeader(e.token);
    if 10 in Utf8.Encode(auth) {
      Utf8.AsciiByteFromChar(auth, 10);
    }
    if 13 in Utf8.Encode(auth) {
      Utf8.AsciiByteFromChar(auth, 13);
    }
  }

  /** The attachment POST on the wire: the multipart body of the injected record and the file, under an `Authorization` header free of CR and LF. */
  lemma AttachWire(apibase: string, woid: string, entry: Entry, filename: string, json: Json, env: AttachEnv)
    requires EntryWf(entry)
    ensures var r := Attach(apibase, woid, entry, filename, json, env);
      r.0.effects != [] && r.0.effects[|r.0.effects| - 1].PostMultipart? ==>
        && env.file.Content?
        && WireBody(r.0.effects[|r.0.effects| - 1]) ==
           Multipart.MultipartBody(Multipart.Boundary,
             [Multipart.EntryPart(Utf8.Encode(json.dumps(r.1))), Multipart.FilePart(Basename(filename), env.file.data)])
        && 13 !in WireAuth(r.0.effects[|r.0.effects| - 1]) && 10 !in WireAuth(r.0.effects[|r.0.effects| - 1])
  {
    var r := Attach(apibase, woid, entry, filename, json, env);
    AttachPayload(apibase, woid, entry, filename, json, env);
    if r.0.effects != [] && r.0.effects[|r.0.effects| - 1].PostMultipart? {
      PostOfRead(Host(apibase), Api + WorkInfoForm, env.token.content, Utf8.Encode(json.dumps(r.1)), Basename(filename), env.file.data);
    }
  }

  /** A POST whose token was read from the token file carries neither CR nor LF in its `Authorization` header. */
  lemma PostOfRead(host: string, path: string, content: string, json: seq<byte>, tail: string, file: seq<byte>)
    ensures var e := PostMultipart(host, path, RemoveNewlines(content), json, tail, file);
      && WireBody(e) == Multipart.MultipartBody(Multipart.Boundary, [Multipart.EntryPart(json), Multipart.FilePart(tail, file)])
      && 13 !in WireAuth(e) && 10 !in WireAuth(e)
  {
    WireIsMultipart(PostMultipart(host, path, RemoveNewlines(content), json, tail, file));
  }

  /**
   * A retried attempt gets the record an earlier attempt injected into; it
   * behaves exactly as an attempt on the original record would, and leaves
   * the record as it found it.
   */
  lemma AttachOnInjected(apibase: string, woid: string, entry: Entry, filename: string, json: Json, env: AttachEnv)
    requires EntryWf(entry) && entry.values.Some?
    ensures Attach(apibase, woid, Injected(entry, woid, filename), filename, json, env)
      == (Attach(apibase, woid, entry, filename, json, env).0, Injected(entry, woid, filename))
  {
    var inj := Injected(entry, woid, filename);
    InjectIdempotent(entry.values.value, woid, Basename(filename));
    assert Injected(inj, woid, filename) == inj;
    var look := GetEntryId(apibase, woid, env.lookupToken, env.lookup);
    if look.result.Found? && json.requestId(look.result.body).Ok? && HostAccepted(Host(apibase)) {
      var up := Upload(apibase, filename, inj, json, env, look.effects);
      assert Attach(apibase, woid, inj, filename, json, env) == (up, inj);
      assert Attach(apibase, woid, entry, filename, json, env) == (up, inj);
    }
  }
}

=== FILE: remedy_run.dfy ===
/**
 * run_module of remedy.py: each action's attempts read through the retry
 * loop. An attempt's inputs (the token file as read, the server's answers,
 * the attachment file) are given per attempt; the refresh between attempts
 * is an opaque step that only contributes its text to CONST_MESSAGE.
 */
module RemedyRun {
  import opened Prelude
  import opened Tokens
  import opened Attachment
  import opened RemedyCalls
  import opened Retry

  const CreateFailure: string := "ERROR: Could not create Work Order"
  const AttachFailure: string := "ERROR: Could not attach file to Work Order"
  const ModifyFailure: string := "ERROR: Could not modify Work Order"

  /**
   * The create branch: any response sets the message to its text; a 201
   * succeeds with the decoded WorkOrder_ID (a failure to decode it sets the
   * message to the exception); 400 and above refresh; an exception sets the
   * message to its text.
   */
  function CreateVerdict(r: Response, json: Json): (v: Verdict)
    ensures v.Success? <==> r.Response? && r.status == 201 && json.workOrderId(r.text).Ok?
    ensures v.Success? ==> v.text == json.workOrderId(r.text).value
    ensures v.Failure? ==> v.update.Some?
    ensures r.Raised? ==> v.Failure? && v.update == Some(r.error)
    ensures r.Response? && r.status != 201 ==> v.Failure? && v.update == Some(r.text)
    ensures r.Response? && r.status == 201 && json.workOrderId(r.text).Err? ==> v.Failure? && v.update == Some(json.workOrderId(r.text).error)
    ensures v.Failure? && v.refresh <==> r.Response? && r.status >= 400
  {
    match r
    case Raised(e) => Failure(Some(e), false)
    case Response(status, text) =>
      if status == 201 then
        match json.workOrderId(text)
        case Ok(id) => Success(id)
        case Err(e) => Failure(Some(e), false)
      else Failure(Some(text), status >= 400)
  }

  /** The modify branch: a 204 succeeds with the response text; 400 and above set the message and refresh. */
  function ModifyVerdict(r: Response): (v: Verdict)
    ensures v.Success? <==> r.Response? && r.status == 204
    ensures v.Success? ==> v.text == r.text
    ensures v.Failure? && v.update.None? <==> r.Response? && r.status != 204 && r.status < 400
    ensures r.Raised? ==> v.Failure? && v.update == Some(r.error)
    ensures r.Response? && r.status >= 400 ==> v.Failure? && v.update == Some(r.text)
    ensures v.Failure? && v.refresh <==> r.Response? && r.status >= 400
  {
    match r
    case Raised(e) => Failure(Some(e), false)
    case Response(status, text) =>
      if status == 204 then Success(text)
      else if status >= 400 then Failure(Some(text), true)
      else Failure(None, false)
  }

  /**
   * The add_attachment branch: a 201 sets `changed` and then succeeds with
   * the body it reads; when that read raises, the bare except refreshes and
   * the loop goes on. 400 and above refresh; so does a result without
   * `.status`, through the bare except. The message is set by nothing but a
   * success.
   */
  function AttachVerdict(r: Attached): (v: Verdict)
    ensures v.Success? <==> r.HttpResponse? && r.status == 201 && r.body.Some?
    ensures v.Success? ==> v.text == r.body.value
    ensures v.Success? || v.Unread? <==> r.HttpResponse? && r.status == 201
    ensures v.Failure? ==> v.update.None?
    ensures !v.Success? && v.refresh <==> r.NoStatus? || r.status >= 400 || (r.status == 201 && r.body.None?)
  {
    match r
    case NoStatus => Failure(None, true)
    case HttpResponse(status, body) =>
      if status == 201 then
        match body
        case Some(text) => Success(text)
        case None => Unread(true)
      else Failure(None, status >= 400)
  }

  /** The inputs of one create attempt: the token as read and the server's answer. */
  datatype CreateEnv = CreateEnv(token: TokenFile, reply: Reply)

  function CreateStep(apibase: string, entry: Entry, json: Json, env: CreateEnv): Attempt {
    var c := Create(apibase, entry, json, env.token, env.reply);
    Attempt(CreateVerdict(c.result, json), c.note)
  }

  function ModifyStep(apibase: string, woid: string, entry: Entry, json: Json, env: ModifyEnv): Attempt {
    var c := Modify(apibase, woid, entry, json, env);
    Attempt(ModifyVerdict(c.result), c.note)
  }

  function AttachStep(c: Call<Attached>): Attempt {
    Attempt(AttachVerdict(c.result), c.note)
  }

  function CreateSteps(apibase: string, entry: Entry, json: Json, envs: seq<CreateEnv>): (steps: seq<Attempt>)
    ensures |steps| == |envs|
    ensures forall i :: 0 <= i < |envs| ==> steps[i] == CreateStep(apibase, entry, json, envs[i])
  {
    seq(|envs|, i requires 0 <= i < |envs| => CreateStep(apibase, entry, json, envs[i]))
  }

  function ModifySteps(apibase: string, woid: string, entry: Entry, json: Json, envs: seq<ModifyEnv>): (steps: seq<Attempt>)
    ensures |steps| == |envs|
    ensures forall i :: 0 <= i < |envs| ==> steps[i] == ModifyStep(apibase, woid, entry, json, envs[i])
  {
    seq(|envs|, i requires 0 <= i < |envs| => ModifyStep(apibase, woid, entry, json, envs[i]))
  }

  /**
   * The attachment attempts as the code runs them: each one is handed the
   * record the previous one left behind, injected fields included.
   */
  function AttachSteps(apibase: string, woid: string, entry: Entry, filename: string, json: Json, envs: seq<AttachEnv>): (steps: seq<Attempt>)
    requires EntryWf(entry)
    ensures |steps| == |envs|
    decreases envs
  {
    if envs == [] then []
    else
      var r := Attach(apibase, woid, entry, filename, json, envs[0]);
      [AttachStep(r.0)] + AttachSteps(apibase, woid, r.1, filename, json, envs[1..])
  }

  /** The create action over CONST_NUMRETRIES attempts. */
  function RunCreate(apibase: string, entry: Entry, json: Json, envs: seq<CreateEnv>, refreshNotes: seq<string>): (o: Outcome)
    requires |envs| == NumRetries && |refreshNotes| == NumRetries
    ensures o.attempts <= NumRetries
    ensures o.failure == if o.changed then None else Some(CreateFailure)
  {
    RunRetries(CreateSteps(apibase, entry, json, envs), refreshNotes, CreateFailure)
  }

  /** The modify action over CONST_NUMRETRIES attempts. */
  function RunModify(apibase: string, woid: string, entry: Entry, json: Json, envs: seq<ModifyEnv>, refreshNotes: seq<string>): (o: Outcome)
    requires |envs| == NumRetries && |refreshNotes| == NumRetries
    ensures o.attempts <= NumRetries
    ensures o.failure == if o.changed then None else Some(ModifyFailure)
  {
    RunRetries(ModifySteps(apibase, woid, entry, json, envs), refreshNotes, ModifyFailure)
  }

  /** The add_attachment action over CONST_NUMRETRIES attempts. */
  function RunAttach(apibase: string, woid: string, entry: Entry, filename: string, json: Json, envs: seq<AttachEnv>, refreshNotes: seq<string>): (o: Outcome)
    requires EntryWf(entry)
    requires |envs| == NumRetries && |refreshNotes| == NumRetries
    ensures o.attempts <= NumRetries
    ensures o.failure == if o.changed then None else Some(AttachFailure)
  {
    RunRetries(AttachSteps(apibase, woid, entry, filename, json, envs), refreshNotes, AttachFailure)
  }

  // What makes an attempt succeed or refresh, in terms of its inputs.

  predicate CreateSucceeds(env: CreateEnv, json: Json) {
    env.token.Readable? && env.reply.Answer? && env.reply.status == 201 && json.workOrderId(env.reply.text).Ok?
  }

  predicate CreateRefreshes(env: CreateEnv) {
    env.token.Readable? && env.reply.Answer? && env.reply.status >= 400
  }

  /** The lookup answered 200 with an entry id, and the token could be read for the PUT, which was answered. */
  predicate ModifyPuts(env: ModifyEnv, json: Json) {
    && env.lookupToken.Readable? && env.lookup.Answer? && env.lookup.status == 200
    && json.requestId(env.lookup.text).Ok? && env.token.Readable? && env.put.Answer?
  }

  predicate ModifySucceeds(env: ModifyEnv, json: Json) {
    ModifyPuts(env, json) && env.put.status == 204
  }

  predicate ModifyRefreshes(env: ModifyEnv, json: Json) {
    || (env.lookupToken.Readable? && env.lookup.Answer? && env.lookup.status != 200)
    || (ModifyPuts(env, json) && env.put.status >= 400)
  }

  /** Every step of addattachment went through and the POST was answered. */
  predicate AttachPosts(apibase: string, entry: Entry, env: AttachEnv, json: Json) {
    && env.lookupToken.Readable? && env.lookup.Answer? && env.lookup.status == 200
    && json.requestId(env.lookup.text).Ok? && HostAccepted(Host(apibase)) && entry.values.Some?
    && env.token.Readable? && env.file.Content? && env.post.Answer?
  }

  /** The POST answered 201, so `result['changed']` is set. */
  predicate AttachMarks(apibase: string, entry: Entry, env: AttachEnv, json: Json) {
    AttachPosts(apibase, entry, env, json) && env.post.status == 201
  }

  /** The POST answered 201 and its body could be read: the loop ends. */
  predicate AttachSucceeds(apibase: string, entry: Entry, env: AttachEnv, json: Json) {
    AttachMarks(apibase, entry, env, json) && env.bodyReads
  }

  predicate AttachRefreshes(apibase: string, entry: Entry, env: AttachEnv, json: Json) {
    || !AttachPosts(apibase, entry, env, json) || env.post.status >= 400
    || (env.post.status == 201 && !env.bodyReads)
  }

  lemma CreateStepReads(apibase: string, entry: Entry, json: Json, env: CreateEnv)
    ensures CreateStep(apibase, entry, json, env).verdict.Success? <==> CreateSucceeds(env, json)
    ensures Refreshes(CreateStep(apibase, entry, json, env)) <==> CreateRefreshes(env)
    ensures CreateSucceeds(env, json) ==> CreateStep(apibase, entry, json, env).verdict.text == json.workOrderId(env.reply.text).value
  {
  }

  lemma ModifyStepReads(apibase: string, woid: string, entry: Entry, json: Json, env: ModifyEnv)
    ensures ModifyStep(apibase, woid, entry, json, env).verdict.Success? <==> ModifySucceeds(env, json)
    ensures Refreshes(ModifyStep(apibase, woid, entry, json, env)) <==> ModifyRefreshes(env, json)
    ensures ModifySucceeds(env, json) ==> ModifyStep(apibase, woid, entry, json, env).verdict.text == env.put.text
  {
  }

  lemma AttachStepReads(apibase: string, woid: string, entry: Entry, filename: string, json: Json, env: AttachEnv)
    requires EntryWf(entry)
    ensures var a := AttachStep(Attach(apibase, woid, entry, filename, json, env).0);
      && (a.verdict.Success? <==> AttachSucceeds(apibase, entry, env, json))
      && (SetsChanged(a) <==> AttachMarks(apibase, entry, env, json))
      && (Refreshes(a) <==> AttachRefreshes(apibase, entry, env, json))
      && (AttachSucceeds(apibase, entry, env, json) ==> a.verdict.text == env.post.text)
      && !SetsMessage(a)
  {
  }

  /**
   * Threading the record through the attempts changes nothing: every
   * attempt behaves as an attempt on the original record would.
   */
  lemma {:induction false} AttachStepsUnthreaded(apibase: string, woid: string, orig: Entry, entry: Entry, filename: string, json: Json, envs: seq<AttachEnv>)
    requires EntryWf(orig) && EntryWf(entry)
    requires entry == orig || (orig.values.Some? && entry == Injected(orig, woid, filename))
    ensures forall i :: 0 <= i < |envs| ==>
      AttachSteps(apibase, woid, entry, filename, json, envs)[i] == AttachStep(Attach(apibase, woid, orig, filename, json, envs[i]).0)
    decreases envs
  {
    if envs != [] {
      AttachFirstReads(apibase, woid, orig, entry, filename, json, envs);
      var next := Attach(apibase, woid, entry, filename, json, envs[0]).1;
      AttachStepsUnthreaded(apibase, woid, orig, next, filename, json, envs[1..]);
      var steps := AttachSteps(apibase, woid, entry, filename, json, envs);
      forall i | 0 < i < |envs|
        ensures steps[i] == AttachStep(Attach(apibase, woid, orig, filename, json, envs[i]).0)
      {
        assert steps[i] == steps[1..][i - 1] && envs[i] == envs[1..][i - 1];
      }
    }
  }

  /** One attempt on the original or the injected record: the same call, and the record stays one of the two. */
  lemma AttachThreadStep(apibase: string, woid: string, orig: Entry, entry: Entry, filename: string, json: Json, env: AttachEnv)
    requires EntryWf(orig) && EntryWf(entry)
    requires entry == orig || (orig.values.Some? && entry == Injected(orig, woid, filename))
    ensures var r := Attach(apibase, woid, entry, filename, json, env);
      && r.0 == Attach(apibase, woid, orig, filename, json, env).0
      && (r.1 == orig || (orig.values.Some? && r.1 == Injected(orig, woid, filename)))
  {
    if entry != orig {
      AttachOnInjected(apibase, woid, orig, filename, json, env);
    }
  }

  /**
   * The create action changes something exactly when an attempt gets a 201
   * with a decodable WorkOrder_ID, and reports the first such id; it
   * refreshes after exactly the attempts answered 400 or above; otherwise
   * it fails with its message after all three attempts.
   */
  lemma CreateOutcome(apibase: string, entry: Entry, json: Json, envs: seq<CreateEnv>, refreshNotes: seq<string>)
    requires |envs| == NumRetries && |refreshNotes| == NumRetries
    ensures var o := RunCreate(apibase, entry, json, envs, refreshNotes);
      && (o.changed <==> exists i :: 0 <= i < NumRetries && CreateSucceeds(envs[i], json))
      && (forall i :: 0 <= i < NumRetries && CreateSucceeds(envs[i], json) && (forall j :: 0 <= j < i ==> !CreateSucceeds(envs[j], json)) ==>
            o.failure == None && o.message == json.workOrderId(envs[i].reply.text).value && o.attempts == i + 1)
      && (!o.changed ==> o.failure == Some(CreateFailure) && o.attempts == NumRetries
                         && o.message == CreateStep(apibase, entry, json, envs[2]).verdict.update.value
                                         + Notes(CreateSteps(apibase, entry, json, envs), refreshNotes, NumRetries))
      && (forall i :: i in o.refreshed <==> 0 <= i < o.attempts && CreateRefreshes(envs[i]))
  {
    CreateChanges(apibase, entry, json, envs, refreshNotes);
    forall i | 0 <= i < NumRetries && CreateSucceeds(envs[i], json) && (forall j :: 0 <= j < i ==> !CreateSucceeds(envs[j], json))
      ensures var o := RunCreate(apibase, entry, json, envs, refreshNotes);
        o.failure == None && o.message == json.workOrderId(envs[i].reply.text).value && o.attempts == i + 1
    {
      CreateSucceedsFirst(apibase, entry, json, envs, refreshNotes, i);
    }
    CreateGivesUp(apibase, entry, json, envs, refreshNotes);
    CreateRefreshesAfter(apibase, entry, json, envs, refreshNotes);
  }

  /** Create changes something exactly when some attempt gets a 201 with a decodable id. */
  lemma CreateChanges(apibase: string, entry: Entry, json: Json, envs: seq<CreateEnv>, refreshNotes: seq<string>)
    requires |envs| == NumRetries && |refreshNotes| == NumRetries
    ensures var o := RunCreate(apibase, entry, json, envs, refreshNotes);
      o.changed <==> exists i :: 0 <= i < NumRetries && CreateSucceeds(envs[i], json)
  {
    RetrySucceeds(CreateSteps(apibase, entry, json, envs), refreshNotes, CreateFailure);
    CreateStepsRead(apibase, entry, json, envs);
  }

  /** The first such attempt ends the loop, and its id is the module's message. */
  lemma CreateSucceedsFirst(apibase: string, entry: Entry, json: Json, envs: seq<CreateEnv>, refreshNotes: seq<string>, i: nat)
    requires |envs| == NumRetries && |refreshNotes| == NumRetries
    requires i < NumRetries && CreateSucceeds(envs[i], json)
    requires forall j :: 0 <= j < i ==> !CreateSucceeds(envs[j], json)
    ensures var o := RunCreate(apibase, entry, json, envs, refreshNotes);
      o.failure == None && o.message == json.workOrderId(envs[i].reply.text).value && o.attempts == i + 1
  {
    var steps := CreateSteps(apibase, entry, json, envs);
    RetrySucceeds(steps, refreshNotes, CreateFailure);
    CreateStepsRead(apibase, entry, json, envs);
    assert FirstSuccess(steps) == i;
  }

  /**
   * When none succeeds, create fails after three attempts. Every failing
   * attempt sets the message, so the module reports the third attempt's
   * message followed by CONST_MESSAGE.
   */
  lemma CreateGivesUp(apibase: string, entry: Entry, json: Json, envs: seq<CreateEnv>, refreshNotes: seq<string>)
    requires |envs| == NumRetries && |refreshNotes| == NumRetries
    ensures var o := RunCreate(apibase, entry, json, envs, refreshNotes);
      !o.changed ==> o.failure == Some(CreateFailure) && o.attempts == NumRetries
                     && o.message == CreateStep(apibase, entry, json, envs[2]).verdict.update.value
                                     + Notes(CreateSteps(apibase, entry, json, envs), refreshNotes, NumRetries)
  {
    var steps := CreateSteps(apibase, entry, json, envs);
    RetryGivesUp(steps, refreshNotes, CreateFailure);
    var o := RunCreate(apibase, entry, json, envs, refreshNotes);
    if !o.changed {
      assert steps[2].verdict.Failure?;
      LastMessageStep(steps, 3);
    }
  }

  /** Create refreshes after exactly the attempts made that are answered 400 or above. */
  lemma CreateRefreshesAfter(apibase: string, entry: Entry, json: Json, envs: seq<CreateEnv>, refreshNotes: seq<string>)
    requires |envs| == NumRetries && |refreshNotes| == NumRetries
    ensures var o := RunCreate(apibase, entry, json, envs, refreshNotes);
      forall i :: i in o.refreshed <==> 0 <= i < o.attempts && CreateRefreshes(envs[i])
  {
    RetryRefreshes(CreateSteps(apibase, entry, json, envs), refreshNotes, CreateFailure);
    CreateStepsRead(apibase, entry, json, envs);
  }


  /** Each create attempt reads as its inputs say. */
  lemma CreateStepsRead(apibase: string, entry: Entry, json: Json, envs: seq<CreateEnv>)
    ensures var steps := CreateSteps(apibase, entry, json, envs);
      forall i :: 0 <= i < |envs| ==>
        && (steps[i].verdict.Success? <==> CreateSucceeds(envs[i], json))
        && (Refreshes(steps[i]) <==> CreateRefreshes(envs[i]))
        && (CreateSucceeds(envs[i], json) ==> steps[i].verdict.text == json.workOrderId(envs[i].reply.text).value)
  {
    forall i | 0 <= i < |envs| {
      CreateStepReads(apibase, entry, json, envs[i]);
    }
  }


  /**
   * The modify action changes something exactly when an attempt's lookup
   * answers 200 and its PUT answers 204; it refreshes after a rejected
   * lookup or a PUT answered 400 or above.
   */
  lemma ModifyOutcome(apibase: string, woid: string, entry: Entry, json: Json, envs: seq<ModifyEnv>, refreshNotes: seq<string>)
    requires |envs| == NumRetries && |refreshNotes| == NumRetries
    ensures var o := RunModify(apibase, woid, entry, json, envs, refreshNotes);
      && (o.changed <==> exists i :: 0 <= i < NumRetries && ModifySucceeds(envs[i], json))
      && (forall i :: 0 <= i < NumRetries && ModifySucceeds(envs[i], json) && (forall j :: 0 <= j < i ==> !ModifySucceeds(envs[j], json)) ==>
            o.failure == None && o.message == envs[i].put.text && o.attempts == i + 1)
      && (!o.changed ==> o.failure == Some(ModifyFailure) && o.attempts == NumRetries
                         && o.message == LastMessage(ModifySteps(apibase, woid, entry, json, envs), NumRetries)
                                         + Notes(ModifySteps(apibase, woid, entry, json, envs), refreshNotes, NumRetries))
      && (forall i :: i in o.refreshed <==> 0 <= i < o.attempts && ModifyRefreshes(envs[i], json))
  {
    ModifyChanges(apibase, woid, entry, json, envs, refreshNotes);
    forall i | 0 <= i < NumRetries && ModifySucceeds(envs[i], json) && (forall j :: 0 <= j < i ==> !ModifySucceeds(envs[j], json))
      ensures var o := RunModify(apibase, woid, entry, json, envs, refreshNotes);
        o.failure == None && o.message == envs[i].put.text && o.attempts == i + 1
    {
      ModifySucceedsFirst(apibase, woid, entry, json, envs, refreshNotes, i);
    }
    ModifyGivesUp(apibase, woid, entry, json, envs, refreshNotes);
    ModifyRefreshesAfter(apibase, woid, entry, json, envs, refreshNotes);
  }

  /** Modify changes something exactly when some attempt's lookup answers 200 and its PUT 204. */
  lemma ModifyChanges(apibase: string, woid: string, entry: Entry, json: Json, envs: seq<ModifyEnv>, refreshNotes: seq<string>)
    requires |envs| == NumRetries && |refreshNotes| == NumRetries
    ensures var o := RunModify(apibase, woid, entry, json, envs, refreshNotes);
      o.changed <==> exists i :: 0 <= i < NumRetries && ModifySucceeds(envs[i], json)
  {
    RetrySucceeds(ModifySteps(apibase, woid, entry, json, envs), refreshNotes, ModifyFailure);
    ModifyStepsRead(apibase, woid, entry, json, envs);
  }

  /** The first such attempt ends the loop, and the PUT's text is the module's message. */
  lemma ModifySucceedsFirst(apibase: string, woid: string, entry: Entry, json: Json, envs: seq<ModifyEnv>, refreshNotes: seq<string>, i: nat)
    requires |envs| == NumRetries && |refreshNotes| == NumRetries
    requires i < NumRetries && ModifySucceeds(envs[i], json)
    requires forall j :: 0 <= j < i ==> !ModifySucceeds(envs[j], json)
    ensures var o := RunModify(apibase, woid, entry, json, envs, refreshNotes);
      o.failure == None && o.message == envs[i].put.text && o.attempts == i + 1
  {
    var steps := ModifySteps(apibase, woid, entry, json, envs);
    RetrySucceeds(steps, refreshNotes, ModifyFailure);
    ModifyStepsRead(apibase, woid, entry, json, envs);
    assert FirstSuccess(steps) == i;
  }

  /**
   * When none succeeds, modify fails after three attempts, reporting the
   * last message an attempt set (an exception's text or a reply of 400 or
   * above) followed by CONST_MESSAGE.
   */
  lemma ModifyGivesUp(apibase: string, woid: string, entry: Entry, json: Json, envs: seq<ModifyEnv>, refreshNotes: seq<string>)
    requires |envs| == NumRetries && |refreshNotes| == NumRetries
    ensures var o := RunModify(apibase, woid, entry, json, envs, refreshNotes);
      !o.changed ==> o.failure == Some(ModifyFailure) && o.attempts == NumRetries
                     && o.message == LastMessage(ModifySteps(apibase, woid, entry, json, envs), NumRetries)
                                     + Notes(ModifySteps(apibase, woid, entry, json, envs), refreshNotes, NumRetries)
  {
    RetryGivesUp(ModifySteps(apibase, woid, entry, json, envs), refreshNotes, ModifyFailure);
  }

  /** Modify refreshes after exactly the attempts made whose lookup is rejected or whose PUT is answered 400 or above. */
  lemma ModifyRefreshesAfter(apibase: string, woid: string, entry: Entry, json: Json, envs: seq<ModifyEnv>, refreshNotes: seq<string>)
    requires |envs| == NumRetries && |refreshNotes| == NumRetries
    ensures var o := RunModify(apibase, woid, entry, json, envs, refreshNotes);
      forall i :: i in o.refreshed <==> 0 <= i < o.attempts && ModifyRefreshes(envs[i], json)
  {
    RetryRefreshes(ModifySteps(apibase, woid, entry, json, envs), refreshNotes, ModifyFailure);
    ModifyStepsRead(apibase, woid, entry, json, envs);
  }


  /** Each modify attempt reads as its inputs say. */
  lemma ModifyStepsRead(apibase: string, woid: string, entry: Entry, json: Json, envs: seq<ModifyEnv>)
    ensures var steps := ModifySteps(apibase, woid, entry, json, envs);
      forall i :: 0 <= i < |envs| ==>
        && (steps[i].verdict.Success? <==> ModifySucceeds(envs[i], json))
        && (Refreshes(steps[i]) <==> ModifyRefreshes(envs[i], json))
        && (ModifySucceeds(envs[i], json) ==> steps[i].verdict.text == envs[i].put.text)
  {
    forall i | 0 <= i < |envs| {
      ModifyStepReads(apibase, woid, entry, json, envs[i]);
    }
  }


  /**
   * The add_attachment action changes something exactly when an attempt's
   * POST answers 201, even one whose body then cannot be read; the first 201
   * whose body is read ends the attempts with that body; 201s that could not
   * be read alone leave the message empty after all three attempts; it
   * refreshes after every attempt made except one that ends the attempts or
   * is answered below 400 and other than 201; and when it fails, its message
   * is CONST_MESSAGE alone.
   */
  lemma AttachOutcome(apibase: string, woid: string, entry: Entry, filename: string, json: Json, envs: seq<AttachEnv>, refreshNotes: seq<string>)
    requires EntryWf(entry)
    requires |envs| == NumRetries && |refreshNotes| == NumRetries
    ensures var o := RunAttach(apibase, woid, entry, filename, json, envs, refreshNotes);
      && (o.changed <==> exists i :: 0 <= i < NumRetries && AttachMarks(apibase, entry, envs[i], json))
      && (forall i :: 0 <= i < NumRetries && AttachSucceeds(apibase, entry, envs[i], json) && (forall j :: 0 <= j < i ==> !AttachSucceeds(apibase, entry, envs[j], json)) ==>
            o.failure == None && o.message == envs[i].post.text && o.attempts == i + 1)
      && ((forall i :: 0 <= i < NumRetries ==> !AttachSucceeds(apibase, entry, envs[i], json)) && o.changed ==>
            o.failure == None && o.attempts == NumRetries && o.message == "")
      && (!o.changed ==> o.failure == Some(AttachFailure) && o.attempts == NumRetries
                         && o.message == Notes(AttachSteps(apibase, woid, entry, filename, json, envs), refreshNotes, NumRetries))
      && (forall i :: i in o.refreshed <==> 0 <= i < o.attempts && AttachRefreshes(apibase, entry, envs[i], json))
  {
    AttachChanges(apibase, woid, entry, filename, json, envs, refreshNotes);
    forall i | 0 <= i < NumRetries && AttachSucceeds(apibase, entry, envs[i], json) && (forall j :: 0 <= j < i ==> !AttachSucceeds(apibase, entry, envs[j], json))
      ensures var o := RunAttach(apibase, woid, entry, filename, json, envs, refreshNotes);
        o.failure == None && o.message == envs[i].post.text && o.attempts == i + 1
    {
      AttachSucceedsFirst(apibase, woid, entry, filename, json, envs, refreshNotes, i);
    }
    AttachChangedUnread(apibase, woid, entry, filename, json, envs, refreshNotes);
    AttachGivesUp(apibase, woid, entry, filename, json, envs, refreshNotes);
    AttachRefreshesAfter(apibase, woid, entry, filename, json, envs, refreshNotes);
  }

  /** add_attachment changes something exactly when some POST answers 201, whether or not its body can then be read. */
  lemma AttachChanges(apibase: string, woid: string, entry: Entry, filename: string, json: Json, envs: seq<AttachEnv>, refreshNotes: seq<string>)
    requires EntryWf(entry)
    requires |envs| == NumRetries && |refreshNotes| == NumRetries
    ensures var o := RunAttach(apibase, woid, entry, filename, json, envs, refreshNotes);
      o.changed <==> exists i :: 0 <= i < NumRetries && AttachMarks(apibase, entry, envs[i], json)
  {
    var steps := AttachSteps(apibase, woid, entry, filename, json, envs);
    RetrySucceeds(steps, refreshNotes, AttachFailure);
    AttachStepsRead(apibase, woid, entry, entry, filename, json, envs);
  }

  /** The first POST answered 201 whose body is read ends the attempts, and that body is the module's message. */
  lemma AttachSucceedsFirst(apibase: string, woid: string, entry: Entry, filename: string, json: Json, envs: seq<AttachEnv>, refreshNotes: seq<string>, i: nat)
    requires EntryWf(entry)
    requires |envs| == NumRetries && |refreshNotes| == NumRetries
    requires i < NumRetries && AttachSucceeds(apibase, entry, envs[i], json)
    requires forall j :: 0 <= j < i ==> !AttachSucceeds(apibase, entry, envs[j], json)
    ensures var o := RunAttach(apibase, woid, entry, filename, json, envs, refreshNotes);
      o.failure == None && o.message == envs[i].post.text && o.attempts == i + 1
  {
    var steps := AttachSteps(apibase, woid, entry, filename, json, envs);
    RetrySucceeds(steps, refreshNotes, AttachFailure);
    AttachStepsRead(apibase, woid, entry, entry, filename, json, envs);
    assert FirstSuccess(steps) == i;
  }

  /**
   * When the only 201s are ones whose body could not be read, add_attachment
   * still reports a change, after all three attempts, with an empty message
   * and nothing of CONST_MESSAGE.
   */
  lemma AttachChangedUnread(apibase: string, woid: string, entry: Entry, filename: string, json: Json, envs: seq<AttachEnv>, refreshNotes: seq<string>)
    requires EntryWf(entry)
    requires |envs| == NumRetries && |refreshNotes| == NumRetries
    ensures var o := RunAttach(apibase, woid, entry, filename, json, envs, refreshNotes);
      (forall i :: 0 <= i < NumRetries ==> !AttachSucceeds(apibase, entry, envs[i], json)) && o.changed ==>
        o.failure == None && o.attempts == NumRetries && o.message == ""
  {
    var steps := AttachSteps(apibase, woid, entry, filename, json, envs);
    RetryChangedUnread(steps, refreshNotes, AttachFailure);
    AttachStepsRead(apibase, woid, entry, entry, filename, json, envs);
    if forall i :: 0 <= i < NumRetries ==> !AttachSucceeds(apibase, entry, envs[i], json) {
      assert FirstSuccess(steps) == |steps|;
      LastMessageNone(steps, NumRetries);
    }
  }

  /** When no POST answers 201, add_attachment fails after three attempts with CONST_MESSAGE alone. */
  lemma AttachGivesUp(apibase: string, woid: string, entry: Entry, filename: string, json: Json, envs: seq<AttachEnv>, refreshNotes: seq<string>)
    requires EntryWf(entry)
    requires |envs| == NumRetries && |refreshNotes| == NumRetries
    ensures var o := RunAttach(apibase, woid, entry, filename, json, envs, refreshNotes);
      !o.changed ==> o.failure == Some(AttachFailure) && o.attempts == NumRetries
                     && o.message == Notes(AttachSteps(apibase, woid, entry, filename, json, envs), refreshNotes, NumRetries)
  {
    var steps := AttachSteps(apibase, woid, entry, filename, json, envs);
    RetryGivesUp(steps, refreshNotes, AttachFailure);
    AttachStepsRead(apibase, woid, entry, entry, filename, json, envs);
    LastMessageNone(steps, NumRetries);
  }

  /** add_attachment refreshes after every attempt made that is not answered below 400 and other than 201, nor ends on a 201 whose body is read. */
  lemma AttachRefreshesAfter(apibase: string, woid: string, entry: Entry, filename: string, json: Json, envs: seq<AttachEnv>, refreshNotes: seq<string>)
    requires EntryWf(entry)
    requires |envs| == NumRetries && |refreshNotes| == NumRetries
    ensures var o := RunAttach(apibase, woid, entry, filename, json, envs, refreshNotes);
      forall i :: i in o.refreshed <==> 0 <= i < o.attempts && AttachRefreshes(apibase, entry, envs[i], json)
  {
    var steps := AttachSteps(apibase, woid, entry, filename, json, envs);
    RetryRefreshes(steps, refreshNotes, AttachFailure);
    AttachStepsRead(apibase, woid, entry, entry, filename, json, envs);
  }

  /** An attempt reads as an attempt on `entry` with inputs `env` does. */
  ghost predicate ReadsAs(apibase: string, a: Attempt, entry: Entry, env: AttachEnv, json: Json) {
    && (a.verdict.Success? <==> AttachSucceeds(apibase, entry, env, json))
    && (SetsChanged(a) <==> AttachMarks(apibase, entry, env, json))
    && (Refreshes(a) <==> AttachRefreshes(apibase, entry, env, json))
    && (AttachSucceeds(apibase, entry, env, json) ==> a.verdict.text == env.post.text)
    && !SetsMessage(a)
  }

  /** The first threaded attempt reads as one on the original record, and hands on a record of the same kind. */
  lemma AttachFirstReads(apibase: string, woid: string, orig: Entry, entry: Entry, filename: string, json: Json, envs: seq<AttachEnv>)
    requires EntryWf(orig) && EntryWf(entry) && envs != []
    requires entry == orig || (orig.values.Some? && entry == Injected(orig, woid, filename))
    ensures var next := Attach(apibase, woid, entry, filename, json, envs[0]).1;
      && AttachSteps(apibase, woid, entry, filename, json, envs)[0] == AttachStep(Attach(apibase, woid, orig, filename, json, envs[0]).0)
      && ReadsAs(apibase, AttachSteps(apibase, woid, entry, filename, json, envs)[0], orig, envs[0], json)
      && AttachSteps(apibase, woid, entry, filename, json, envs)[1..] == AttachSteps(apibase, woid, next, filename, json, envs[1..])
      && (next == orig || (orig.values.Some? && next == Injected(orig, woid, filename)))
  {
    AttachThreadStep(apibase, woid, orig, entry, filename, json, envs[0]);
    AttachStepReads(apibase, woid, orig, filename, json, envs[0]);
  }

  /**
   * Each threaded attachment attempt reads as an attempt on the original
   * record would: threading the injected record through changes nothing.
   */
  lemma {:induction false} AttachStepsRead(apibase: string, woid: string, orig: Entry, entry: Entry, filename: string, json: Json, envs: seq<AttachEnv>)
    requires EntryWf(orig) && EntryWf(entry)
    requires entry == orig || (orig.values.Some? && entry == Injected(orig, woid, filename))
    ensures var steps := AttachSteps(apibase, woid, entry, filename, json, envs);
      forall i :: 0 <= i < |envs| ==> ReadsAs(apibase, steps[i], orig, envs[i], json)
    decreases envs
  {
    if envs != [] {
      AttachFirstReads(apibase, woid, orig, entry, filename, json, envs);
      var next := Attach(apibase, woid, entry, filename, json, envs[0]).1;
      AttachStepsRead(apibase, woid, orig, next, filename, json, envs[1..]);
      var steps := AttachSteps(apibase, woid, entry, filename, json, envs);
      forall i | 0 < i < |envs|
        ensures ReadsAs(apibase, steps[i], orig, envs[i], json)
      {
        assert steps[i] == steps[1..][i - 1] && envs[i] == envs[1..][i - 1];
      }
    }
  }

  /** A 401 and then a 201: one refresh in between, two attempts, the work order id reported. */
  lemma CreateAfterUnauthorized(apibase: string, entry: Entry, json: Json, envs: seq<CreateEnv>, refreshNotes: seq<string>, id: string)
    requires |envs| == NumRetries && |refreshNotes| == NumRetries
    requires envs[0].token.Readable? && envs[0].reply.Answer? && envs[0].reply.status == 401
    requires envs[1].token.Readable? && envs[1].reply.Answer? && envs[1].reply.status == 201
    requires json.workOrderId(envs[1].reply.text) == Ok(id)
    ensures RunCreate(apibase, entry, json, envs, refreshNotes) == Outcome(true, None, id, 2, [0])
  {
    var steps := CreateSteps(apibase, entry, json, envs);
    CreateStepReads(apibase, entry, json, envs[0]);
    CreateStepReads(apibase, entry, json, envs[1]);
    assert FirstSuccess(steps) == 1;
    assert Refreshed(steps, 1) == [] + [0];
    assert Refreshed(steps, 2) == [0] + [];
  }

  /**
   * Three lookups that do not answer 200: no PUT is made, the token is
   * refreshed after each, and the module fails with the last lookup's text
   * followed by what the refreshes appended.
   */
  lemma ModifyRejectedThrice(apibase: string, woid: string, entry: Entry, json: Json, envs: seq<ModifyEnv>, refreshNotes: seq<string>)
    requires |envs| == NumRetries && |refreshNotes| == NumRetries
    requires forall i :: 0 <= i < NumRetries ==>
      envs[i].lookupToken.Readable? && envs[i].lookup.Answer? && envs[i].lookup.status != 200
    ensures RunModify(apibase, woid, entry, json, envs, refreshNotes)
      == Outcome(false, Some(ModifyFailure), envs[2].lookup.text + refreshNotes[0] + refreshNotes[1] + refreshNotes[2], 3, [0, 1, 2])
  {
    var steps := ModifySteps(apibase, woid, entry, json, envs);
    forall i | 0 <= i < NumRetries
      ensures steps[i] == Attempt(Failure(Some(envs[i].lookup.text), true), "")
    {
      ModifyRejected(apibase, woid, entry, json, envs[i]);
    }
    LastMessageStep(steps, 3);
    ThreeRefreshingFailures(steps, refreshNotes, ModifyFailure);
    var m, n := envs[2].lookup.text, refreshNotes;
    assert m + "" + n[0] + "" + n[1] + "" + n[2] == m + n[0] + n[1] + n[2];
  }

  /**
   * A record without "values": each attempt whose lookup succeeds fails on
   * the KeyError, appends its text, and refreshes; the module fails with
   * those texts and the refreshes' interleaved.
   */
  lemma AttachWithoutValues(apibase: string, woid: string, entry: Entry, filename: string, json: Json, envs: seq<AttachEnv>, refreshNotes: seq<string>)
    requires EntryWf(entry) && entry.values.None? && HostAccepted(Host(apibase))
    requires |envs| == NumRetries && |refreshNotes| == NumRetries
    requires forall i :: 0 <= i < NumRetries ==>
      envs[i].lookupToken.Readable? && envs[i].lookup.Answer? && envs[i].lookup.status == 200 && json.requestId(envs[i].lookup.text).Ok?
    ensures RunAttach(apibase, woid, entry, filename, json, envs, refreshNotes)
      == Outcome(false, Some(AttachFailure),
                 MissingValuesText + refreshNotes[0] + MissingValuesText + refreshNotes[1] + MissingValuesText + refreshNotes[2],
                 3, [0, 1, 2])
  {
    var steps := AttachSteps(apibase, woid, entry, filename, json, envs);
    AttachStepsUnthreaded(apibase, woid, entry, entry, filename, json, envs);
    forall i | 0 <= i < NumRetries
      ensures steps[i] == Attempt(Failure(None, true), MissingValuesText)
    {
    }
    ThreeSilentFailures(steps, refreshNotes, AttachFailure);
  }

  /**
   * A base URL naming a host the connection refuses: each attempt whose
   * lookup succeeds fails on the InvalidURL before the record is touched,
   * appends its text, and refreshes; the module fails with those texts and
   * the refreshes' interleaved.
   */
  lemma AttachRefusedHostRun(apibase: string, woid: string, entry: Entry, filename: string, json: Json, envs: seq<AttachEnv>, refreshNotes: seq<string>)
    requires EntryWf(entry) && !HostAccepted(Host(apibase))
    requires |envs| == NumRetries && |refreshNotes| == NumRetries
    requires forall i :: 0 <= i < NumRetries ==>
      envs[i].lookupToken.Readable? && envs[i].lookup.Answer? && envs[i].lookup.status == 200 && json.requestId(envs[i].lookup.text).Ok?
    ensures RunAttach(apibase, woid, entry, filename, json, envs, refreshNotes)
      == Outcome(false, Some(AttachFailure),
                 envs[0].refusedHost + refreshNotes[0] + envs[1].refusedHost + refreshNotes[1] + envs[2].refusedHost + refreshNotes[2],
                 3, [0, 1, 2])
  {
    var steps := AttachSteps(apibase, woid, entry, filename, json, envs);
    AttachStepsUnthreaded(apibase, woid, entry, entry, filename, json, envs);
    forall i | 0 <= i < NumRetries
      ensures steps[i] == Attempt(Failure(None, true), envs[i].refusedHost)
    {
      RefusedHostStep(apibase, woid, entry, filename, json, envs[i]);
    }
    ThreeSilentFailures(steps, refreshNotes, AttachFailure);
  }

  /**
   * A 201 whose body cannot be read, then a 201 whose body can: `changed`
   * is set by the first, the bare except refreshes, and the second POST
   * ends the attempts with its body.
   */
  lemma AttachUnreadThenRead(apibase: string, woid: string, entry: Entry, filename: string, json: Json, envs: seq<AttachEnv>, refreshNotes: seq<string>)
    requires EntryWf(entry)
    requires |envs| == NumRetries && |refreshNotes| == NumRetries
    requires AttachMarks(apibase, entry, envs[0], json) && !envs[0].bodyReads
    requires AttachSucceeds(apibase, entry, envs[1], json)
    ensures RunAttach(apibase, woid, entry, filename, json, envs, refreshNotes) == Outcome(true, None, envs[1].post.text, 2, [0])
  {
    var steps := AttachSteps(apibase, woid, entry, filename, json, envs);
    AttachStepsUnthreaded(apibase, woid, entry, entry, filename, json, envs);
    UnreadStep(apibase, woid, entry, filename, json, envs[0]);
    ReadStep(apibase, woid, entry, filename, json, envs[1]);
    UnreadThenSuccess(steps, refreshNotes, AttachFailure);
  }

  /**
   * Three 201s none of whose bodies can be read: the file is posted three
   * times, the token refreshed after each, and the module reports a change
   * with an empty message.
   */
  lemma AttachNeverRead(apibase: string, woid: string, entry: Entry, filename: string, json: Json, envs: seq<AttachEnv>, refreshNotes: seq<string>)
    requires EntryWf(entry)
    requires |envs| == NumRetries && |refreshNotes| == NumRetries
    requires forall i :: 0 <= i < NumRetries ==> AttachMarks(apibase, entry, envs[i], json) && !envs[i].bodyReads
    ensures RunAttach(apibase, woid, entry, filename, json, envs, refreshNotes) == Outcome(true, None, "", 3, [0, 1, 2])
  {
    var steps := AttachSteps(apibase, woid, entry, filename, json, envs);
    AttachStepsUnthreaded(apibase, woid, entry, entry, filename, json, envs);
    forall i | 0 <= i < NumRetries
      ensures steps[i].verdict == Unread(true)
    {
      UnreadStep(apibase, woid, entry, filename, json, envs[i]);
    }
    ThreeUnread(steps, refreshNotes, AttachFailure);
  }

  /** An attempt whose POST answers 201 with a body that cannot be read sets `changed`, refreshes and goes on. */
  lemma UnreadStep(apibase: string, woid: string, entry: Entry, filename: string, json: Json, env: AttachEnv)
    requires EntryWf(entry)
    requires AttachMarks(apibase, entry, env, json) && !env.bodyReads
    ensures AttachStep(Attach(apibase, woid, entry, filename, json, env).0).verdict == Unread(true)
  {
    AttachStepReads(apibase, woid, entry, filename, json, env);
  }

  /** An attempt whose POST answers 201 with a readable body succeeds with that body. */
  lemma ReadStep(apibase: string, woid: string, entry: Entry, filename: string, json: Json, env: AttachEnv)
    requires EntryWf(entry)
    requires AttachSucceeds(apibase, entry, env, json)
    ensures AttachStep(Attach(apibase, woid, entry, filename, json, env).0).verdict == Success(env.post.text)
  {
    AttachStepReads(apibase, woid, entry, filename, json, env);
  }

  /** An attempt on a refused host fails on the InvalidURL, noting its text and refreshing. */
  lemma RefusedHostStep(apibase: string, woid: string, entry: Entry, filename: string, json: Json, env: AttachEnv)
    requires EntryWf(entry) && !HostAccepted(Host(apibase))
    requires env.lookupToken.Readable? && env.lookup.Answer? && env.lookup.status == 200 && json.requestId(env.lookup.text).Ok?
    ensures AttachStep(Attach(apibase, woid, entry, filename, json, env).0) == Attempt(Failure(None, true), env.refusedHost)
  {
    AttachRefusedHost(apibase, woid, entry, filename, json, env);
  }
}

=== FILE: retry.dfy ===
/**
 * The retry loop run_module wraps around each request function: up to
 * CONST_NUMRETRIES attempts, stopping at the first success, refreshing the
 * token after the failures that call for it, and on giving up failing with
 * the last message followed by everything the attempts appended to
 * CONST_MESSAGE.
 *
 * The loop is modelled once, over what each attempt came to; the three
 * actions only differ in how they read an attempt's response.
 */
module Retry {
  import opened Prelude

  /** CONST_NUMRETRIES. */
  const NumRetries: nat := 3

  /**
   * How run_module reads one attempt: a success and the message it sets;
   * a failure, the message it sets if any, and whether it refreshes the
   * token; or a success whose text could not be read, after `changed` was
   * already set: the message stays as it was, the exception's handler runs
   * (refreshing if it does) and the loop goes on.
   */
  datatype Verdict = Success(text: string) | Failure(update: Option<string>, refresh: bool) | Unread(refresh: bool)

  /** One attempt: its verdict and the text the request function appended to CONST_MESSAGE. */
  datatype Attempt = Attempt(verdict: Verdict, note: string)

  predicate SetsMessage(a: Attempt) {
    a.verdict.Failure? && a.verdict.update.Some?
  }

  /** The attempt sets `result['changed']`. */
  predicate SetsChanged(a: Attempt) {
    a.verdict.Success? || a.verdict.Unread?
  }

  predicate Refreshes(a: Attempt) {
    !a.verdict.Success? && a.verdict.refresh
  }

  /**
   * The loop's state: `result['changed']`, `result['message']`, what
   * CONST_MESSAGE has accumulated, the attempts made, and the attempts after
   * which the token was refreshed.
   */
  datatype Run = Run(changed: bool, message: string, pending: string, attempts: nat, refreshed: seq<nat>)

  /** What the module reports: whether it changed anything, the `fail_json` message if it failed, `result['message']`. */
  datatype Outcome = Outcome(changed: bool, failure: Option<string>, message: string, attempts: nat, refreshed: seq<nat>)

  // Reference definitions, each stating one aspect of a run over the attempts made.

  /** The index of the first successful attempt, or the number of attempts if none succeeds. */
  function FirstSuccess(steps: seq<Attempt>): (k: nat)
    ensures k <= |steps|
    ensures forall j :: 0 <= j < k ==> !steps[j].verdict.Success?
    ensures k < |steps| ==> steps[k].verdict.Success?
  {
    if steps == [] then 0
    else if steps[0].verdict.Success? then 0
    else 1 + FirstSuccess(steps[1..])
  }

  /** How many attempts are made: up to and including the first success, else all of them. */
  function Used(steps: seq<Attempt>): (n: nat)
    ensures n <= |steps|
  {
    var k := FirstSuccess(steps);
    if k < |steps| then k + 1 else |steps|
  }

  /** The message the last of the first `k` attempts that set one set, or the initial empty message. */
  function LastMessage(steps: seq<Attempt>, k: nat): string
    requires k <= |steps|
  {
    if k == 0 then ""
    else
      match steps[k - 1].verdict
      case Failure(Some(m), _) => m
      case _ => LastMessage(steps, k - 1)
  }

  /** The refresh's own contribution to CONST_MESSAGE after an attempt, if it refreshes. */
  function RefreshNote(a: Attempt, note: string): string {
    if Refreshes(a) then note else ""
  }

  /** CONST_MESSAGE after `k` attempts: each attempt's text, then its refresh's. */
  function Notes(steps: seq<Attempt>, notes: seq<string>, k: nat): string
    requires k <= |steps| && k <= |notes|
  {
    if k == 0 then ""
    else Notes(steps, notes, k - 1) + steps[k - 1].note + RefreshNote(steps[k - 1], notes[k - 1])
  }

  /** The attempts among the first `k` after which the token is refreshed, in order. */
  function Refreshed(steps: seq<Attempt>, k: nat): seq<nat>
    requires k <= |steps|
  {
    if k == 0 then []
    else Refreshed(steps, k - 1) + (if Refreshes(steps[k - 1]) then [k - 1] else [])
  }

  /** The loop's state after `i` attempts none of which succeeded. */
  ghost predicate AfterFailures(steps: seq<Attempt>, notes: seq<string>, i: nat, r: Run) {
    && i <= |steps| && |notes| == |steps|
    && (r.changed <==> exists j :: 0 <= j < i && SetsChanged(steps[j]))
    && r.attempts == i
    && (forall j :: 0 <= j < i ==> !steps[j].verdict.Success?)
    && r.message == LastMessage(steps, i)
    && r.pending == Notes(steps, notes, i)
    && r.refreshed == Refreshed(steps, i)
  }

  /**
   * `for i in range(CONST_NUMRETRIES)`, from attempt `i` on: a success sets
   * the message and breaks; a failure sets the message it carries; an
   * unread success sets `changed` and goes on; the token is refreshed when
   * the attempt calls for it. `notes[i]` is what the refresh after attempt
   * `i` appends to CONST_MESSAGE.
   */
  function Loop(steps: seq<Attempt>, notes: seq<string>, i: nat, r: Run): (out: Run)
    requires AfterFailures(steps, notes, i, r)
    ensures out.changed <==> exists j :: 0 <= j < |steps| && SetsChanged(steps[j])
    ensures out.attempts == Used(steps)
    ensures FirstSuccess(steps) < |steps| ==> out.message == steps[FirstSuccess(steps)].verdict.text
    ensures FirstSuccess(steps) == |steps| ==> out.message == LastMessage(steps, |steps|)
    ensures out.pending == Notes(steps, notes, out.attempts)
    ensures out.refreshed == Refreshed(steps, out.attempts)
    decreases |steps| - i
  {
    if i == |steps| then r
    else
      var a := steps[i];
      match a.verdict
      case Success(m) =>
        Run(true, m, r.pending + a.note, i + 1, r.refreshed)
      case Failure(m, refresh) =>
        var message := if m.Some? then m.value else r.message;
        var next := Run(r.changed, message, r.pending + a.note + RefreshNote(a, notes[i]), i + 1,
                        r.refreshed + (if refresh then [i] else []));
        Loop(steps, notes, i + 1, next)
      case Unread(refresh) =>
        var next := Run(true, r.message, r.pending + a.note + RefreshNote(a, notes[i]), i + 1,
                        r.refreshed + (if refresh then [i] else []));
        Loop(steps, notes, i + 1, next)
  }

  /** The whole loop, from `result['message'] == ''` and an empty CONST_MESSAGE. */
  function Retry(steps: seq<Attempt>, notes: seq<string>): (out: Run)
    requires |notes| == |steps|
    ensures out.changed <==> exists j :: 0 <= j < |steps| && SetsChanged(steps[j])
    ensures out.attempts == Used(steps)
    ensures FirstSuccess(steps) < |steps| ==> out.message == steps[FirstSuccess(steps)].verdict.text
    ensures FirstSuccess(steps) == |steps| ==> out.message == LastMessage(steps, |steps|) && out.attempts == |steps|
    ensures out.pending == Notes(steps, notes, out.attempts)
    ensures out.refreshed == Refreshed(steps, out.attempts)
  {
    Loop(steps, notes, 0, Run(false, "", "", 0, []))
  }

  /** `fail_json(msg=failText)` with CONST_MESSAGE appended to the message when `changed` was never set, `exit_json` otherwise. */
  function Finish(failText: string, run: Run): (o: Outcome)
    ensures o.changed == run.changed && o.attempts == run.attempts && o.refreshed == run.refreshed
    ensures o.failure == if run.changed then None else Some(failText)
    ensures run.message <= o.message
  {
    if run.changed then Outcome(true, None, run.message, run.attempts, run.refreshed)
    else Outcome(false, Some(failText), run.message + run.pending, run.attempts, run.refreshed)
  }

  /** The module's report for a sequence of attempts. */
  function RunRetries(steps: seq<Attempt>, notes: seq<string>, failText: string): (o: Outcome)
    requires |notes| == |steps|
    ensures o.changed <==> exists j :: 0 <= j < |steps| && SetsChanged(steps[j])
    ensures o.failure == if o.changed then None else Some(failText)
    ensures o.attempts <= |steps| && (!o.changed ==> o.attempts == |steps|)
  {
    Finish(failText, Retry(steps, notes))
  }

  /** Exactly the failing attempts that call for it are followed by a refresh, in order. */
  lemma {:induction false} RefreshedExactly(steps: seq<Attempt>, k: nat)
    requires k <= |steps|
    ensures forall j :: j in Refreshed(steps, k) <==> 0 <= j < k && Refreshes(steps[j])
    ensures forall a, b :: 0 <= a < b < |Refreshed(steps, k)| ==> Refreshed(steps, k)[a] < Refreshed(steps, k)[b]
  {
    if k > 0 {
      RefreshedExactly(steps, k - 1);
      var before := Refreshed(steps, k - 1);
      assert forall a :: 0 <= a < |before| ==> before[a] in before;
    }
  }

  /** Attempts that set no message leave the earlier one in place. */
  lemma LastMessageStep(steps: seq<Attempt>, k: nat)
    requires 0 < k <= |steps|
    ensures LastMessage(steps, k) == if SetsMessage(steps[k - 1]) then steps[k - 1].verdict.update.value else LastMessage(steps, k - 1)
  {
  }

  /** With no attempt setting a message, the message stays empty. */
  lemma {:induction false} LastMessageNone(steps: seq<Attempt>, k: nat)
    requires k <= |steps|
    requires forall j :: 0 <= j < k ==> !SetsMessage(steps[j])
    ensures LastMessage(steps, k) == ""
  {
    if k > 0 {
      LastMessageStep(steps, k);
      LastMessageNone(steps, k - 1);
    }
  }

  /** The message kept after failures is that of the last failure that set one. */
  lemma {:induction false} LastMessageIsLast(steps: seq<Attempt>, k: nat, j: nat)
    requires j < k <= |steps|
    requires SetsMessage(steps[j]) && forall l :: j < l < k ==> !SetsMessage(steps[l])
    ensures LastMessage(steps, k) == steps[j].verdict.update.value
  {
    LastMessageStep(steps, k);
    if j < k - 1 {
      LastMessageIsLast(steps, k - 1, j);
    }
  }

  lemma {:induction false} NotesPrefix(s1: seq<Attempt>, n1: seq<string>, s2: seq<Attempt>, n2: seq<string>, k: nat)
    requires k <= |s1| && k <= |n1| && k <= |s2| && k <= |n2|
    requires s1[..k] == s2[..k] && n1[..k] == n2[..k]
    ensures Notes(s1, n1, k) == Notes(s2, n2, k) && Refreshed(s1, k) == Refreshed(s2, k)
  {
    if k > 0 {
      assert s1[..k - 1] == s1[..k][..k - 1] && s2[..k - 1] == s2[..k][..k - 1];
      assert n1[..k - 1] == n1[..k][..k - 1] && n2[..k - 1] == n2[..k][..k - 1];
      assert s1[k - 1] == s1[..k][k - 1] && n1[k - 1] == n1[..k][k - 1];
      NotesPrefix(s1, n1, s2, n2, k - 1);
    }
  }

  /**
   * The attempts after a success are never made: two runs that agree on the
   * attempts the first one makes report the same.
   */
  lemma RetryIgnoresLater(s1: seq<Attempt>, n1: seq<string>, s2: seq<Attempt>, n2: seq<string>, failText: string)
    requires |n1| == |s1| && |n2| == |s2| && |s1| == |s2|
    requires s1[..Used(s1)] == s2[..Used(s1)] && n1[..Used(s1)] == n2[..Used(s1)]
    ensures RunRetries(s1, n1, failText) == RunRetries(s2, n2, failText)
  {
    var u := Used(s1);
    var k := FirstSuccess(s1);
    if k < |s1| {
      assert s1[k] == s1[..u][k] && s2[k] == s2[..u][k];
      assert forall j :: 0 <= j < k ==> s2[j] == s2[..u][j] == s1[j];
      assert FirstSuccess(s2) == k;
    } else {
      assert s1 == s1[..u] && s2 == s2[..u];
    }
    NotesPrefix(s1, n1, s2, n2, u);
  }

  /**
   * The module reports a change exactly when some attempt set `changed`;
   * when one succeeded, it reports the first success's message after that
   * many attempts.
   */
  lemma RetrySucceeds(steps: seq<Attempt>, notes: seq<string>, failText: string)
    requires |notes| == |steps|
    ensures var o := RunRetries(steps, notes, failText);
      && (o.changed <==> exists j :: 0 <= j < |steps| && SetsChanged(steps[j]))
      && (FirstSuccess(steps) < |steps| ==>
            o.changed && o.failure == None && o.message == steps[FirstSuccess(steps)].verdict.text
            && o.attempts == FirstSuccess(steps) + 1)
  {
  }

  /**
   * With no success but an attempt that set `changed` before its text could
   * be read, the module still reports a change, after every attempt, with
   * the last message set and without CONST_MESSAGE.
   */
  lemma RetryChangedUnread(steps: seq<Attempt>, notes: seq<string>, failText: string)
    requires |notes| == |steps|
    ensures var o := RunRetries(steps, notes, failText);
      FirstSuccess(steps) == |steps| && o.changed ==>
        o.failure == None && o.attempts == |steps| && o.message == LastMessage(steps, |steps|)
        && exists j :: 0 <= j < |steps| && steps[j].verdict.Unread?
  {
  }

  /** Otherwise it fails with `failText` after all the attempts, with the last message set followed by CONST_MESSAGE. */
  lemma RetryGivesUp(steps: seq<Attempt>, notes: seq<string>, failText: string)
    requires |notes| == |steps|
    ensures var o := RunRetries(steps, notes, failText);
      !o.changed ==> o.failure == Some(failText) && o.attempts == |steps|
                     && o.message == LastMessage(steps, |steps|) + Notes(steps, notes, |steps|)
  {
  }

  /** The token is refreshed after exactly the attempts made that fail and call for it. */
  lemma RetryRefreshes(steps: seq<Attempt>, notes: seq<string>, failText: string)
    requires |notes| == |steps|
    ensures var o := RunRetries(steps, notes, failText);
      forall j :: j in o.refreshed <==> 0 <= j < o.attempts && Refreshes(steps[j])
  {
    RefreshedExactly(steps, Used(steps));
  }

  /** Appending to a message one piece at a time is appending the pieces together. */
  lemma Append(m: string, a: string, b: string)
    ensures m + (a + b) == m + a + b
  {
  }

  /** CONST_MESSAGE after three attempts that each call for a refresh, after any earlier message `m`. */
  lemma NotesOfThree(steps: seq<Attempt>, notes: seq<string>, m: string)
    requires |steps| == 3 && |notes| == 3
    requires forall j :: 0 <= j < 3 ==> Refreshes(steps[j])
    ensures m + Notes(steps, notes, 3) == m + steps[0].note + notes[0] + steps[1].note + notes[1] + steps[2].note + notes[2]
  {
    var s0, s1, s2 := steps[0].note, steps[1].note, steps[2].note;
    assert Notes(steps, notes, 1) == "" + s0 + notes[0];
    assert Notes(steps, notes, 2) == Notes(steps, notes, 1) + s1 + notes[1];
    assert Notes(steps, notes, 3) == Notes(steps, notes, 2) + s2 + notes[2];
    Append(m, Notes(steps, notes, 2) + s2, notes[2]);
    Append(m, Notes(steps, notes, 2), s2);
    Append(m, Notes(steps, notes, 1) + s1, notes[1]);
    Append(m, Notes(steps, notes, 1), s1);
    Append(m, s0, notes[0]);
    assert "" + s0 + notes[0] == s0 + notes[0];
  }

  /** The refreshes after three attempts that each call for one. */
  lemma RefreshedOfThree(steps: seq<Attempt>)
    requires |steps| == 3
    requires forall j :: 0 <= j < 3 ==> Refreshes(steps[j])
    ensures Refreshed(steps, 3) == [0, 1, 2]
  {
    assert Refreshed(steps, 1) == [] + [0];
    assert Refreshed(steps, 2) == [0] + [1];
  }

  /**
   * Three attempts that all fail and call for a refresh: the module fails
   * after all three, refreshing after each, with the last message set and
   * then each attempt's text followed by its refresh's.
   */
  lemma ThreeRefreshingFailures(steps: seq<Attempt>, notes: seq<string>, failText: string)
    requires |steps| == 3 && |notes| == 3
    requires forall j :: 0 <= j < 3 ==> steps[j].verdict.Failure? && Refreshes(steps[j])
    ensures RunRetries(steps, notes, failText)
      == Outcome(false, Some(failText),
                 LastMessage(steps, 3) + steps[0].note + notes[0] + steps[1].note + notes[1] + steps[2].note + notes[2],
                 3, [0, 1, 2])
  {
    var r := Retry(steps, notes);
    assert !SetsChanged(steps[0]) && !SetsChanged(steps[1]) && !SetsChanged(steps[2]);
    assert !r.changed && r.attempts == 3;
    NotesOfThree(steps, notes, LastMessage(steps, 3));
    RefreshedOfThree(steps);
  }

  /**
   * Three failures that set no message and call for a refresh: the module
   * fails with each attempt's text followed by its refresh's.
   */
  lemma ThreeSilentFailures(steps: seq<Attempt>, notes: seq<string>, failText: string)
    requires |steps| == 3 && |notes| == 3
    requires forall j :: 0 <= j < 3 ==> steps[j].verdict == Failure(None, true)
    ensures RunRetries(steps, notes, failText)
      == Outcome(false, Some(failText), steps[0].note + notes[0] + steps[1].note + notes[1] + steps[2].note + notes[2], 3, [0, 1, 2])
  {
    LastMessageNone(steps, 3);
    ThreeRefreshingFailures(steps, notes, failText);
  }

  /**
   * An unread success that refreshes, then a success: two attempts, one
   * refresh, and the second success's message.
   */
  lemma UnreadThenSuccess(steps: seq<Attempt>, notes: seq<string>, failText: string)
    requires |steps| == 3 && |notes| == 3
    requires steps[0].verdict == Unread(true) && steps[1].verdict.Success?
    ensures RunRetries(steps, notes, failText) == Outcome(true, None, steps[1].verdict.text, 2, [0])
  {
    assert FirstSuccess(steps) == 1;
    assert Refreshed(steps, 1) == [] + [0];
    assert Refreshed(steps, 2) == [0] + [];
  }

  /**
   * Three unread successes that refresh: all three attempts are made, the
   * token is refreshed after each, and the module reports a change with
   * the message it started with.
   */
  lemma ThreeUnread(steps: seq<Attempt>, notes: seq<string>, failText: string)
    requires |steps| == 3 && |notes| == 3
    requires forall j :: 0 <= j < 3 ==> steps[j].verdict == Unread(true)
    ensures RunRetries(steps, notes, failText) == Outcome(true, None, "", 3, [0, 1, 2])
  {
    assert FirstSuccess(steps) == 3;
    LastMessageNone(steps, 3);
    RefreshedOfThree(steps);
  }

  /**
   * What the module reports: it changed something exactly when some attempt
   * set `changed`; after a success, with the first success's message; after
   * only unread successes, with the last message set; otherwise it fails
   * with `failText` and the last message set followed by CONST_MESSAGE; the
   * token is refreshed after exactly the attempts made that call for it.
   */
  lemma RetryOutcome(steps: seq<Attempt>, notes: seq<string>, failText: string)
    requires |notes| == |steps|
    ensures var o := RunRetries(steps, notes, failText);
      && (o.changed <==> exists j :: 0 <= j < |steps| && SetsChanged(steps[j]))
      && (FirstSuccess(steps) < |steps| ==>
            o.changed && o.failure == None && o.message == steps[FirstSuccess(steps)].verdict.text
            && o.attempts == FirstSuccess(steps) + 1)
      && (FirstSuccess(steps) == |steps| && o.changed ==>
            o.failure == None && o.attempts == |steps| && o.message == LastMessage(steps, |steps|))
      && (!o.changed ==> o.failure == Some(failText) && o.attempts == |steps|
                         && o.message == LastMessage(steps, |steps|) + Notes(steps, notes, |steps|))
      && (forall j :: j in o.refreshed <==> 0 <= j < o.attempts && Refreshes(steps[j]))
  {
    RetrySucceeds(steps, notes, failText);
    RetryChangedUnread(steps, notes, failText);
    RetryGivesUp(steps, notes, failText);
    RetryRefreshes(steps, notes, failText);
  }
}

=== FILE: text.dfy ===
/** Python's `s.replace(pat, '')`, the one string rewrite remedy.py applies (to tokens, JSON and URLs). */
module Text {

  /** Remove the non-overlapping occurrences of `pat`, scanning left to right. */
  function RemoveAll(s: string, pat: string): (r: string)
    requires pat != []
    ensures |r| <= |s|
    decreases |s|
  {
    if |s| < |pat| then s
    else if s[..|pat|] == pat then RemoveAll(s[|pat|..], pat)
    else [s[0]] + RemoveAll(s[1..], pat)
  }

  /** `pat` sits at position `i` of `s`. */
  predicate At(pat: string, s: string, i: int) {
    0 <= i <= |s| - |pat| && s[i..i + |pat|] == pat
  }

  ghost predicate Occurs(pat: string, s: string) {
    exists i :: At(pat, s, i)
  }

  /** Nothing to remove, nothing removed. */
  lemma {:induction false} RemoveAbsent(s: string, pat: string)
    requires pat != [] && !Occurs(pat, s)
    ensures RemoveAll(s, pat) == s
    decreases |s|
  {
    if |s| >= |pat| {
      assert !At(pat, s, 0);
      assert s[0..|pat|] == s[..|pat|];
      assert !Occurs(pat, s[1..]) by {
        forall i | At(pat, s[1..], i)
          ensures false
        {
          assert s[1..][i..i + |pat|] == s[i + 1..i + 1 + |pat|];
          assert At(pat, s, i + 1);
        }
      }
      RemoveAbsent(s[1..], pat);
      assert s == [s[0]] + s[1..];
    }
  }

  /** One step of removing a single character. */
  lemma RemoveCharStep(s: string, c: char)
    requires s != []
    ensures RemoveAll(s, [c]) == (if s[0] == c then [] else [s[0]]) + RemoveAll(s[1..], [c])
  {
    assert s[..1] == [s[0]];
  }

  /**
   * Removing a single character: every occurrence goes, every other
   * character keeps its count, and a text without it is unchanged.
   */
  lemma {:induction false} RemoveChar(s: string, c: char)
    ensures c !in RemoveAll(s, [c])
    ensures multiset(RemoveAll(s, [c])) == multiset(s)[c := 0]
    ensures c !in s ==> RemoveAll(s, [c]) == s
  {
    if s != [] {
      RemoveCharStep(s, c);
      RemoveChar(s[1..], c);
      assert s == [s[0]] + s[1..];
      assert multiset(s) == multiset{s[0]} + multiset(s[1..]);
    }
  }

  /** Removing a single character works piecewise. */
  lemma {:induction false} RemoveCharConcat(a: string, b: string, c: char)
    ensures RemoveAll(a + b, [c]) == RemoveAll(a, [c]) + RemoveAll(b, [c])
  {
    if a == [] {
      assert a + b == b;
    } else {
      var ab := a + b;
      assert ab[0] == a[0] && ab[1..] == a[1..] + b;
      RemoveCharStep(ab, c);
      RemoveCharStep(a, c);
      RemoveCharConcat(a[1..], b, c);
    }
  }

  /** Removing a character twice is removing it once. */
  lemma RemoveCharIdempotent(s: string, c: char)
    ensures RemoveAll(RemoveAll(s, [c]), [c]) == RemoveAll(s, [c])
  {
    RemoveChar(s, c);
    RemoveChar(RemoveAll(s, [c]), c);
  }
}

=== FILE: tokens.dfy ===
/**
 * The token file of remedy.py: where it lives, how login fills it, and how
 * every request turns its contents into an `Authorization` header.
 */
module Tokens {
  import opened Prelude
  import opened Text

  /** `tokendir + "/token_refresh_" + user + ".lock"`: the marker refreshtoken creates. */
  function LockPath(dir: string, user: string): (p: string)
    ensures |p| == |dir| + |user| + 20
    ensures p[..|dir|] == dir && p[|p| - 5..] == ".lock"
  {
    dir + "/token_refresh_" + user + ".lock"
  }

  /** `token_dir + "/token_" + user + ".txt"`: the file every request reads its token from. */
  function TokenPath(dir: string, user: string): (p: string)
    ensures |p| == |dir| + |user| + 11
    ensures p[..|dir|] == dir && p[|p| - 4..] == ".txt"
  {
    dir + "/token_" + user + ".txt"
  }

  /** The user name sits between a fixed prefix and a fixed suffix of the path. */
  lemma LockPathUser(dir: string, user: string)
    ensures LockPath(dir, user)[|dir| + 15..|dir| + 15 + |user|] == user
  {
    var p := LockPath(dir, user);
    assert p == (dir + "/token_refresh_") + user + ".lock";
  }

  lemma TokenPathUser(dir: string, user: string)
    ensures TokenPath(dir, user)[|dir| + 7..|dir| + 7 + |user|] == user
  {
    var p := TokenPath(dir, user);
    assert p == (dir + "/token_") + user + ".txt";
  }

  /** Within one directory, different users never share a lock marker or a token file. */
  lemma {:induction false} PathsInjective(dir: string, u1: string, u2: string)
    ensures LockPath(dir, u1) == LockPath(dir, u2) ==> u1 == u2
    ensures TokenPath(dir, u1) == TokenPath(dir, u2) ==> u1 == u2
  {
    LockPathUser(dir, u1);
    LockPathUser(dir, u2);
    TokenPathUser(dir, u1);
    TokenPathUser(dir, u2);
  }

  /** A lock marker is never a token file, whatever the directories and users. */
  lemma {:induction false} LockIsNotToken(d1: string, u1: string, d2: string, u2: string)
    ensures LockPath(d1, u1) != TokenPath(d2, u2)
  {
    var l := LockPath(d1, u1);
    var t := TokenPath(d2, u2);
    assert l[|l| - 1] == ".lock"[4] == 'k';
    assert t[|t| - 1] == ".txt"[3] == 't';
  }

  /**
   * `open(f, 'r').read()`: text mode reads with universal newlines, so a CR LF
   * pair and a lone CR each come back as one LF.
   */
  function ReadText(s: string): (r: string)
    ensures |r| <= |s|
    ensures '\r' !in r
    decreases |s|
  {
    if s == [] then []
    else if s[0] == '\r' then
      "\n" + ReadText(if |s| > 1 && s[1] == '\n' then s[2..] else s[1..])
    else [s[0]] + ReadText(s[1..])
  }

  /**
   * `file.read().replace('\n', '')` on a text-mode file: the line feeds the
   * read leaves (its own and the translated carriage returns) all go.
   */
  function RemoveNewlines(s: string): (r: string)
    ensures |r| <= |s|
    ensures '\r' !in r && '\n' !in r
  {
    var t := ReadText(s);
    RemoveChar(t, '\n');
    assert multiset(t)['\r'] == 0;
    assert multiset(RemoveAll(t, "\n"))['\r'] == 0;
    RemoveAll(t, "\n")
  }

  /**
   * Reading and then dropping line feeds is dropping every CR and then every
   * LF from the raw contents: the token keeps all its other characters, in order.
   */
  lemma {:induction false} RemoveNewlinesDropsBoth(s: string)
    ensures RemoveNewlines(s) == RemoveAll(RemoveAll(s, "\r"), "\n")
    decreases |s|
  {
    if s != [] {
      RemoveCharStep(s, '\r');
      if s[0] == '\r' {
        var rest := if |s| > 1 && s[1] == '\n' then s[2..] else s[1..];
        RemoveNewlinesDropsBoth(rest);
        assert ReadText(s) == "\n" + ReadText(rest);
        RemoveCharStep(ReadText(s), '\n');
        assert ("\n" + ReadText(rest))[1..] == ReadText(rest);
        if |s| > 1 && s[1] == '\n' {
          RemoveCharStep(s[1..], '\r');
          assert s[1..][1..] == s[2..];
          RemoveCharStep(RemoveAll(s[1..], "\r"), '\n');
        }
      } else {
        RemoveNewlinesDropsBoth(s[1..]);
        assert ReadText(s) == [s[0]] + ReadText(s[1..]);
        RemoveCharStep(ReadText(s), '\n');
        assert ([s[0]] + ReadText(s[1..]))[1..] == ReadText(s[1..]);
        RemoveCharStep(RemoveAll(s, "\r"), '\n');
      }
    }
  }

  /** Contents without CR or LF reach the header unchanged. */
  lemma RemoveNewlinesKeepsPlain(s: string)
    requires '\r' !in s && '\n' !in s
    ensures RemoveNewlines(s) == s
  {
    RemoveNewlinesDropsBoth(s);
    RemoveChar(s, '\r');
    RemoveChar(s, '\n');
  }

  /** The token file: its contents, or the text of the error opening it raises. */
  datatype TokenFile = Readable(content: string) | Unreadable(cause: string)

  /** `file.read().replace('\n', '')` in text mode: the token as every request uses it. */
  function ReadToken(f: TokenFile): (r: Option<string>)
    ensures r.Some? <==> f.Readable?
    ensures r.Some? ==> '\r' !in r.value && '\n' !in r.value
    ensures r.Some? ==> multiset(r.value) == multiset(f.content)['\r' := 0]['\n' := 0]
  {
    var s := if f.Readable? then f.content else "";
    RemoveNewlinesDropsBoth(s);
    RemoveChar(s, '\r');
    RemoveChar(RemoveAll(s, "\r"), '\n');
    if f.Readable? then Some(RemoveNewlines(f.content)) else None
  }

  const AuthScheme: string := "AR-JWT "

  /** The `Authorization` value: the scheme, one space, the token; the value is a single header line. */
  function AuthHeader(token: string): (h: string)
    ensures |h| == |AuthScheme| + |token|
    ensures h[..|AuthScheme|] == AuthScheme && h[|AuthScheme|..] == token
    ensures '\r' !in token && '\n' !in token ==> '\r' !in h && '\n' !in h
  {
    AuthScheme + token
  }

  /**
   * How writing the token file with `open(tokenfile, 'w+')` goes: the text
   * is written; `open` raises, and the file is untouched; or, the file being
   * already truncated, the write or the close that flushes it raises after
   * `kept` characters reached the file.
   */
  datatype TokenWrite = Written | OpenRaised(cause: string) | WriteRaised(cause: string, kept: nat)

  /**
   * login once its request has been answered: a 200 answer replaces the
   * token file's contents with the answer's text; any other status leaves
   * the file alone. When storing the text raises, the `except` appends the
   * exception's text to CONST_MESSAGE (and sets the status to 400, which no
   * caller reads). The result is the token file and that appended text.
   */
  function Login(f: TokenFile, status: int, text: string, w: TokenWrite): (r: (TokenFile, string))
    ensures status != 200 ==> r == (f, "")
    ensures status == 200 && w.Written? ==> r == (Readable(text), "")
    ensures status == 200 && w.OpenRaised? ==> r == (f, w.cause)
    ensures status == 200 && w.WriteRaised? ==>
      && r.1 == w.cause && r.0.Readable? && r.0.content <= text
      && |r.0.content| == (if w.kept < |text| then w.kept else |text|)
  {
    if status != 200 then (f, "")
    else
      match w
      case Written => (Readable(text), "")
      case OpenRaised(e) => (f, e)
      case WriteRaised(e, kept) => (Readable(text[..if kept < |text| then kept else |text|]), e)
  }

  /**
   * After a successful login, the next request authenticates with the
   * answer's text minus every CR and LF (so `"t\r\n"` gives `t`).
   */
  lemma LoginThenRead(f: TokenFile, text: string)
    ensures ReadToken(Login(f, 200, text, Written).0) == Some(RemoveAll(RemoveAll(text, "\r"), "\n"))
    ensures AuthHeader(ReadToken(Login(f, 200, text, Written).0).value) == "AR-JWT " + RemoveAll(RemoveAll(text, "\r"), "\n")
    ensures '\r' !in text && '\n' !in text ==> ReadToken(Login(f, 200, text, Written).0) == Some(text)
  {
    RemoveNewlinesDropsBoth(text);
    if '\r' !in text && '\n' !in text {
      RemoveNewlinesKeepsPlain(text);
    }
  }

  /** A login answer ending in CR LF yields the token without them. */
  lemma LoginCrLf(f: TokenFile)
    ensures ReadToken(Login(f, 200, "t\r\n", Written).0) == Some("t")
  {
    var s := "t\r\n";
    assert s[1..] == "\r\n" && s[1..][2..] == "";
    assert ReadText("\r\n") == "\n" + ReadText("");
    assert ReadText(s) == "t\n";
    assert RemoveAll("t\n", "\n") == "t" by {
      RemoveCharStep("t\n", '\n');
      assert "t\n"[1..] == "\n";
      RemoveCharStep("\n", '\n');
    }
  }

  /**
   * A 200 login whose write raises before anything reached the truncated
   * file: the error is appended to CONST_MESSAGE, and the next request
   * authenticates with the scheme and an empty token.
   */
  lemma LoginTruncated(f: TokenFile, text: string, cause: string)
    ensures Login(f, 200, text, WriteRaised(cause, 0)) == (Readable(""), cause)
    ensures AuthHeader(ReadToken(Login(f, 200, text, WriteRaised(cause, 0)).0).value) == AuthScheme
  {
    assert ReadText("") == "";
    assert RemoveAll("", "\n") == "";
  }
}

=== FILE: utf8.dfy ===
/**
 * Python's `str.encode()` with its default codec, UTF-8 (RFC 3629), which
 * turns the file name and the token into the bytes of the attachment request.
 */
module Utf8 {
  import opened Prelude

  /** The encoding of one scalar value: one byte below 0x80, continuation bytes 0x80-0xBF after a lead byte. */
  function EncodeChar(c: char): (r: seq<byte>)
    ensures 1 <= |r| <= 4
    ensures (c as int < 0x80) <==> |r| == 1
    ensures c as int < 0x80 ==> r == [c as int]
    ensures c as int >= 0x80 ==> forall i :: 0 <= i < |r| ==> r[i] >= 0x80
  {
    var n := c as int;
    if n < 0x80 then [n]
    else if n < 0x800 then [0xC0 + n / 64, 0x80 + n % 64]
    else if n < 0x10000 then [0xE0 + n / 4096, 0x80 + (n / 64) % 64, 0x80 + n % 64]
    else [0xF0 + n / 262144, 0x80 + (n / 4096) % 64, 0x80 + (n / 64) % 64, 0x80 + n % 64]
  }

  function Encode(s: string): (r: seq<byte>)
    ensures |s| <= |r| <= 4 * |s|
  {
    if s == [] then [] else EncodeChar(s[0]) + Encode(s[1..])
  }

  lemma {:induction false} EncodeConcat(a: string, b: string)
    ensures Encode(a + b) == Encode(a) + Encode(b)
  {
    if a == [] {
      assert a + b == b;
    } else {
      assert (a + b)[0] == a[0] && (a + b)[1..] == a[1..] + b;
      EncodeConcat(a[1..], b);
    }
  }

  predicate IsAscii(s: string) {
    forall i :: 0 <= i < |s| ==> s[i] as int < 0x80
  }

  /** ASCII text (every `b'...'` literal of the request) encodes one byte per character, by code point. */
  lemma {:induction false} EncodeAscii(s: string)
    requires IsAscii(s)
    ensures |Encode(s)| == |s|
    ensures forall i :: 0 <= i < |s| ==> Encode(s)[i] == s[i] as int
  {
    if s != [] {
      EncodeAscii(s[1..]);
      assert Encode(s) == [s[0] as int] + Encode(s[1..]);
    }
  }

  /** An ASCII byte (such as CR or LF) appears in an encoding only where the text has that very character. */
  lemma {:induction false} AsciiByteFromChar(s: string, b: byte)
    requires b < 0x80 && b in Encode(s)
    ensures b as char in s
  {
    if s != [] {
      if b in EncodeChar(s[0]) {
        assert s[0] as int < 0x80;
      } else {
        assert b in Encode(s[1..]);
        AsciiByteFromChar(s[1..], b);
      }
    }
  }

  /** Number of bytes the sequence led by `b` occupies, or 0 if `b` cannot lead one. */
  function SeqLen(b: byte): (n: nat)
    ensures n <= 4
  {
    if b < 0x80 then 1
    else if 0xC0 <= b < 0xE0 then 2
    else if 0xE0 <= b < 0xF0 then 3
    else if 0xF0 <= b < 0xF8 then 4
    else 0
  }

  predicate IsScalar(n: int) {
    0 <= n < 0xD800 || 0xE000 <= n < 0x11_0000
  }

  /** The payload bits of a sequence, read as its length dictates. */
  function Value(bs: seq<byte>): int
    requires 1 <= |bs| <= 4
  {
    var b0: int := bs[0];
    if |bs| == 1 then b0
    else if |bs| == 2 then (b0 - 0xC0) * 64 + (bs[1] as int - 0x80)
    else if |bs| == 3 then (b0 - 0xE0) * 4096 + (bs[1] as int - 0x80) * 64 + (bs[2] as int - 0x80)
    else (b0 - 0xF0) * 262144 + (bs[1] as int - 0x80) * 4096 + (bs[2] as int - 0x80) * 64 + (bs[3] as int - 0x80)
  }

  /** The scalar value a well-formed sequence of `SeqLen(bs[0])` bytes stands for. */
  function DecodeChar(bs: seq<byte>): (r: Option<char>)
    requires 1 <= |bs| <= 4
  {
    var n := Value(bs);
    if SeqLen(bs[0]) == |bs| && IsScalar(n) then Some(n as char) else None
  }

  /** Decoding: the inverse of `Encode`, `None` on malformed input. */
  function Decode(bs: seq<byte>): (r: Option<string>)
    decreases |bs|
  {
    if bs == [] then Some([])
    else
      var n := SeqLen(bs[0]);
      if n == 0 || |bs| < n then None
      else
        match DecodeChar(bs[..n])
        case None => None
        case Some(c) =>
          match Decode(bs[n..])
          case None => None
          case Some(rest) => Some([c] + rest)
  }

  lemma ValueOfEncoding(c: char)
    ensures Value(EncodeChar(c)) == c as int
  {
    var n := c as int;
    if 0x80 <= n < 0x800 {
      ValueOfTwo(n);
    } else if 0x800 <= n < 0x10000 {
      ValueOfThree(n);
    } else if 0x10000 <= n {
      ValueOfFour(n);
    }
  }

  lemma ValueOfTwo(n: int)
    requires 0x80 <= n < 0x800
    ensures Value([0xC0 + n / 64, 0x80 + n % 64]) == n
  {
    assert n == (n / 64) * 64 + n % 64;
  }

  lemma ValueOfThree(n: int)
    requires 0x800 <= n < 0x10000
    ensures Value([0xE0 + n / 4096, 0x80 + (n / 64) % 64, 0x80 + n % 64]) == n
  {
    assert n / 64 == (n / 4096) * 64 + (n / 64) % 64;
    assert n == (n / 64) * 64 + n % 64;
  }

  lemma ValueOfFour(n: int)
    requires 0x10000 <= n < 0x11_0000
    ensures Value([0xF0 + n / 262144, 0x80 + (n / 4096) % 64, 0x80 + (n / 64) % 64, 0x80 + n % 64]) == n
  {
    assert n / 4096 == (n / 262144) * 64 + (n / 4096) % 64;
    assert n / 64 == (n / 4096) * 64 + (n / 64) % 64;
    assert n == (n / 64) * 64 + n % 64;
  }

  lemma DecodeEncodeChar(c: char)
    ensures SeqLen(EncodeChar(c)[0]) == |EncodeChar(c)|
    ensures DecodeChar(EncodeChar(c)) == Some(c)
  {
    ValueOfEncoding(c);
    assert IsScalar(c as int);
  }

  /** Round trip: decoding the encoding of any text gives the text back. */
  lemma {:induction false} DecodeEncode(s: string)
    ensures Decode(Encode(s)) == Some(s)
  {
    if s != [] {
      var e := EncodeChar(s[0]);
      DecodeEncodeChar(s[0]);
      assert Encode(s) == e + Encode(s[1..]);
      var bs := Encode(s);
      assert bs[0] == e[0] && bs[..|e|] == e && bs[|e|..] == Encode(s[1..]);
      DecodeEncode(s[1..]);
      assert Decode(bs) == Some([s[0]] + s[1..]);
      assert [s[0]] + s[1..] == s;
    }
  }

  /** Encoding is injective, so distinct file names and tokens give distinct bytes. */
  lemma EncodeInjective(a: string, b: string)
    ensures Encode(a) == Encode(b) ==> a == b
  {
    DecodeEncode(a);
    DecodeEncode(b);
  }
}
